=== FILE: README.md ===
# Flame-graph and profile analysis, modelled in Dafny

This project models the analysis core of a small performance toolkit, in two parts.

The first part is the `flamegraph-analyzer` package. It reads a flame-graph SVG and collects
one frame per frame group. Classic `<g class="func_g">` groups carry a "name / N samples, P%"
tooltip. flameprof's nested `<svg class="func_g">` containers carry a
"file:line:function P% (calls primitive own cumulative)" label. The frames are ranked by
percentage. The package also reads a profiler's statistics: the stats table when it loads,
otherwise the lines of a text report that start with four numbers. Every record then gets its
share of the total cumulative time. Both results are rendered as Markdown reports.

The second part is the `autoflame` tool. It detects a source file's language from its
extension or its shebang line, and picks the flame-graph generator for that language. It
converts a raw "stack count" file into a two-column CSV. It analyses such a CSV: the records
ranked by samples, a table of the first ones, the total of the samples, and the source
locations named in the stacks with their samples summed.

The model has one module per concern:

- `Text`: Python's `str` methods and the few regular expressions the tools use, as recursive
  functions.
- `Ranking`: the stable descending sort, slicing, filtering and sums.
- `FrameTitles`: the two tooltip dialects.
- `FlamegraphParsing`: the SVG element tree and the `FlamegraphParser` class.
- `ProfileParsing`: the stats table, the text fallback, the percentages, and the
  `ProfileParser` class.
- `MarkdownFormatting`: the two Markdown reports.
- `Language`: language detection and generator dispatch.
- `RawCsv`: the raw-to-CSV converter.
- `CsvAnalysis`: the CSV analysis.

The parser classes keep the source's mutable fields (`frames`, `profile_data`). Their methods
are proved against specification functions. The loops of the source are methods whose
invariants tie them to those functions. The properties are proved as lemmas about the
functions:

- round trips: a written tooltip, label, profile line or CSV row is read back as what it was
  written from;
- rankings: a permutation, descending, and stable;
- percentages: each lies between 0 and 100, and together they sum to 100;
- the exact layout of each report;
- the error cases of every parse.

Two behaviours of the code that the model keeps as written:

- A classic tooltip made only of blanks gives a frame with an empty function name. The title
  is stripped before it is split into lines (`main.py:85-90`), so a blank first line
  followed by text does not: " \nfoo" is named "foo".
- In the CSV analysis a failing sort is ignored (`except: pass`, `autoflame.py:332-336`). The
  total (`autoflame.py:358`) and the hot-path loop (`autoflame.py:365-373`) then call
  `float()` again. The total skips empty fields. The hot-path loop reads the field only for
  a record whose stack has a part holding ':'. So a `ValueError` (`ValueErrorRaised`) comes
  from a non-empty field that `float()` rejects, or from any rejected field of a record whose
  stack names a location. An empty field of a record whose stack names no location is
  harmless.

## Model

| member | source | states |
|---|---|---|
| FrameTitles.FrameTitle | flamegraph-analyzer/flamegraph_analyzer/main.py:83-105 | the raw title is kept; the name is the stripped first line, so it has no blank at either end; a sample count, when set, holds only digits and points; a percentage, when set, is non-negative; no flameprof field is set |
| FrameTitles.ParseFrameTitle | flamegraph-analyzer/flamegraph_analyzer/main.py:83-105 | the parser's reading of a classic tooltip is FrameTitle of it |
| FrameTitles.ReadTooltipLines | flamegraph-analyzer/flamegraph_analyzer/main.py:93-103 | after the loop over the lines after the first, the count and the percentage are those set by the last line that sets each |
| FrameTitles.ReadTooltipLine | flamegraph-analyzer/flamegraph_analyzer/main.py:94-103 | a line overwrites the count when it mentions samples or ms and has a number, and overwrites the percentage when it also matches the percentage pattern; otherwise both are kept |
| FrameTitles.LineSamples | flamegraph-analyzer/flamegraph_analyzer/main.py:94-98 | a line sets a count only when it mentions "samples" or "ms", and the count has its commas removed |
| FrameTitles.LinePercentage | flamegraph-analyzer/flamegraph_analyzer/main.py:100-103 | a line sets a percentage only when it mentions "samples" or "ms", and the percentage is non-negative |
| FrameTitles.LastSamples | flamegraph-analyzer/flamegraph_analyzer/main.py:93-98 | the count left by a run of lines is commas-free digits and points |
| FrameTitles.LastPercentage | flamegraph-analyzer/flamegraph_analyzer/main.py:93-103 | the percentage left by a run of lines is non-negative |
| FrameTitles.FirstNumber | flamegraph-analyzer/flamegraph_analyzer/main.py:96-98 | the leftmost match of the number pattern is non-empty and made of digits, commas and points |
| FrameTitles.NumberEnd | flamegraph-analyzer/flamegraph_analyzer/main.py:96 | the greedy match of the number pattern ends after its start and covers only digits, commas and points |
| FrameTitles.FirstPercentWins | flamegraph-analyzer/flamegraph_analyzer/main.py:113-115 | the percentage search captures the first number written before a '%' when nothing before it can start a match |
| FrameTitles.ClassicLineSamples | flamegraph-analyzer/flamegraph_analyzer/main.py:94-103 | the line "N samples, P%" sets the count N and the percentage P |
| FrameTitles.TwoLineTitle | flamegraph-analyzer/flamegraph_analyzer/main.py:85-103 | a two-line tooltip is named by its first line and counted by its second |
| FrameTitles.ClassicTooltipLines | flamegraph-analyzer/flamegraph_analyzer/main.py:85 | a classic tooltip splits into its name and its count line |
| FrameTitles.ClassicTooltipRoundTrip | flamegraph-analyzer/flamegraph_analyzer/main.py:83-105 | a classic tooltip reads back as its name, its count (which float() takes back to the same number) and its share |
| FrameTitles.ClassicTooltipExample | flamegraph-analyzer/flamegraph_analyzer/main.py:89-103 | the tooltip "foo" / "120 samples, 12.34%" is the classic tooltip of "foo", 120 and 12.34 |
| FrameTitles.FlameprofTitle | flamegraph-analyzer/flamegraph_analyzer/main.py:107-140 | the raw title is kept and no count is set; a percentage is set exactly when `(\d+\.?\d*)%` is found, and is non-negative; a first token with fewer than three ':' parts is the function name itself, with no file or line; file and line are set together, a line and a three-part function have no ':'; calls, own time and cumulative time are set exactly when the first paren group has at least four words, and calls is then a non-empty word |
| FrameTitles.LocationRoundTrip | flamegraph-analyzer/flamegraph_analyzer/main.py:119-125 | the text before the first space, split at ':', gives back the function, the line and the file (the file keeping its own colons) |
| FrameTitles.ParenRoundTrip | flamegraph-analyzer/flamegraph_analyzer/main.py:132-133 | the parenthesised group is the text between the first '(' and the next ')' |
| FrameTitles.TimingWords | flamegraph-analyzer/flamegraph_analyzer/main.py:134-135 | four timing fields joined by blanks split back into the same four |
| FrameTitles.FlameprofPercent | flamegraph-analyzer/flamegraph_analyzer/main.py:113-115 | a label whose location has no '%' reads back the percentage written after it |
| FrameTitles.FlameprofTiming | flamegraph-analyzer/flamegraph_analyzer/main.py:132-138 | a label whose text before the group has no '(' reads back the calls, the own time and the cumulative time |
| FrameTitles.LabelLocation | flamegraph-analyzer/flamegraph_analyzer/main.py:119-125 | a written label reads back its function, file and line |
| FrameTitles.LabelPercent | flamegraph-analyzer/flamegraph_analyzer/main.py:113-115 | a written label reads back its percentage |
| FrameTitles.LabelTiming | flamegraph-analyzer/flamegraph_analyzer/main.py:132-138 | a written label reads back its timing fields, the primitive count being skipped |
| FrameTitles.FlameprofRoundTrip | flamegraph-analyzer/flamegraph_analyzer/main.py:107-140 | a flameprof label reads back as the location, percentage and timings it was written from |
| FlamegraphParsing.FindAll | flamegraph-analyzer/flamegraph_analyzer/main.py:31-36 | the descendant search yields only elements with the tag asked for |
| FlamegraphParsing.Forest | flamegraph-analyzer/flamegraph_analyzer/main.py:31 | the elements below the given ones in document order, the search that FindAll filters |
| FlamegraphParsing.FindChild | flamegraph-analyzer/flamegraph_analyzer/main.py:50-56 | the child search yields a child with the tag, and none exactly when no child has it |
| FlamegraphParsing.FirstWithTag | flamegraph-analyzer/flamegraph_analyzer/main.py:68-70 | the first element with the tag, and none exactly when no element has it |
| FlamegraphParsing.TitleText | flamegraph-analyzer/flamegraph_analyzer/main.py:50-51 | a tooltip text is present only when it is non-empty |
| FlamegraphParsing.NumberAttr | flamegraph-analyzer/flamegraph_analyzer/main.py:58-59 | a missing attribute reads as 0; an error comes only from a present attribute, and names it with its text |
| FlamegraphParsing.FrameFromG | flamegraph-analyzer/flamegraph_analyzer/main.py:46-62 | a group gives a frame exactly when it has a tooltip text; the frame's info is the classic reading of it; width and x are set exactly when there is a rect, to float() of the rect's width and x; y is never set; an error needs a tooltip and a rect, and is the first of width, x that float() rejects |
| FlamegraphParsing.FrameFromSvg | flamegraph-analyzer/flamegraph_analyzer/main.py:64-81 | a container gives a frame exactly when its first inner group has a tooltip text; the info is the flameprof reading of it; width, x and y are float() of the container's own attributes; an error needs such a tooltip, and is the first of width, x, y that float() rejects |
| FlamegraphParsing.Then | flamegraph-analyzer/flamegraph_analyzer/main.py:31-38 | the collection fails exactly when it had failed or the element fails, and the first error is kept; on success the frames so far are kept in front, and a yielded frame is appended last |
| FlamegraphParsing.Collect | flamegraph-analyzer/flamegraph_analyzer/main.py:31-38 | each element adds at most one frame; CollectContents states which frames are collected |
| FlamegraphParsing.CollectContents | flamegraph-analyzer/flamegraph_analyzer/main.py:30-38 | a successful collection holds exactly the frames the func_g elements yield: each collected frame comes from one of them, and every frame one of them yields is collected |
| FlamegraphParsing.CollectFailsIff | flamegraph-analyzer/flamegraph_analyzer/main.py:31-38 | a collection fails exactly when some func_g element's extraction fails |
| FlamegraphParsing.CollectErrorSticks | flamegraph-analyzer/flamegraph_analyzer/main.py:31-38 | once an element fails, the error is the result whatever elements follow |
| FlamegraphParsing.CollectFrames | flamegraph-analyzer/flamegraph_analyzer/main.py:31-33 | the loop over the found elements computes Collect of all of them |
| FlamegraphParsing.AllClassic | flamegraph-analyzer/flamegraph_analyzer/main.py:31-33 | the classic frames of the document: Collect over the groups `.//g` finds; CollectFailsIff and CollectErrorSticks give its outcome |
| FlamegraphParsing.AllFlameprof | flamegraph-analyzer/flamegraph_analyzer/main.py:36-38 | the flameprof frames of the document: Collect over the containers `.//svg` finds; CollectFailsIff and CollectErrorSticks give its outcome |
| FlamegraphParsing.ParseTree | flamegraph-analyzer/flamegraph_analyzer/main.py:22-44 | the frames are ranked by decreasing percentage; parsing succeeds exactly when both collections do; the frames are exactly the classic frames and the flameprof frames |
| FlamegraphParsing.ParseTreeStable | flamegraph-analyzer/flamegraph_analyzer/main.py:40-43 | frames of equal percentage keep their discovery order: classic frames first, each dialect in document order |
| FlamegraphParsing.PercentKey | flamegraph-analyzer/flamegraph_analyzer/main.py:43 | the sort key `x.get('percentage', 0)`; ParseTree and ParseTreeStable rank by it |
| FlamegraphParsing.FlamegraphParser.constructor | flamegraph-analyzer/flamegraph_analyzer/main.py:18-20 | a new parser holds no frames |
| FlamegraphParsing.FlamegraphParser.Parse | flamegraph-analyzer/flamegraph_analyzer/main.py:22-44 | the result is ParseTree of the document; on success the parser holds the returned frames; on an error it keeps the frames it held |
| ProfileParsing.PerCall | flamegraph-analyzer/flamegraph_analyzer/main.py:174-176 | with positive calls the per-call time times the calls is the time; otherwise it is 0 |
| ProfileParsing.FromEntry | flamegraph-analyzer/flamegraph_analyzer/main.py:165-178 | a table item gives the label "func (file:line)", the location "file:line", its times and calls, and per-call times that multiply back to the times |
| ProfileParsing.FromEntries | flamegraph-analyzer/flamegraph_analyzer/main.py:165-181 | one record per table item, in order |
| ProfileParsing.Rescore | flamegraph-analyzer/flamegraph_analyzer/main.py:184-187 | every record keeps all its fields but its percentage, which becomes its share of the total |
| ProfileParsing.WithPercentages | flamegraph-analyzer/flamegraph_analyzer/main.py:185-187 | every percentage over the one shared total of cumulative times; PercentagesBounded and PercentagesSumTo100 state its values |
| ProfileParsing.PercentagesBounded | flamegraph-analyzer/flamegraph_analyzer/main.py:185-187 | with non-negative cumulative times every percentage lies between 0 and 100 |
| ProfileParsing.PercentagesSumTo100 | flamegraph-analyzer/flamegraph_analyzer/main.py:185-187 | with a positive total the percentages add up to 100 |
| ProfileParsing.StatsRecordsShape | flamegraph-analyzer/flamegraph_analyzer/main.py:180-187 | one record per item; the ranked items are a permutation of the table's records, by decreasing cumulative time; record i is ranked item i with its share of the total cumulative time as percentage, a total that sorting does not change |
| ProfileParsing.StatsRecords | flamegraph-analyzer/flamegraph_analyzer/main.py:180-187 | the table path's records; StatsRecordsShape states them the ranked permutation with each percentage its share of the total |
| ProfileParsing.DigitsEnd | flamegraph-analyzer/flamegraph_analyzer/main.py:210 | the end of the digit run lies between i and the end of the line |
| ProfileParsing.DigitsEndRun | flamegraph-analyzer/flamegraph_analyzer/main.py:210 | the run from i up to DigitsEnd is all digits, and no digit follows it |
| ProfileParsing.BlanksEnd | flamegraph-analyzer/flamegraph_analyzer/main.py:210 | the end of the blank run lies between i and the end of the line |
| ProfileParsing.BlanksEndRun | flamegraph-analyzer/flamegraph_analyzer/main.py:210 | the run from i up to BlanksEnd is all blanks, and no blank follows it |
| ProfileParsing.NumberRun | flamegraph-analyzer/flamegraph_analyzer/main.py:210 | `\d+\.?\d*` matches at i exactly when a digit is there, and the match is non-empty |
| ProfileParsing.NumberRunDecimal | flamegraph-analyzer/flamegraph_analyzer/main.py:210 | the text a match spans is a decimal (digits, at most one point) that no digit follows |
| ProfileParsing.Field | flamegraph-analyzer/flamegraph_analyzer/main.py:210 | a matched field is the number's text followed by at least one blank |
| ProfileParsing.Fields | flamegraph-analyzer/flamegraph_analyzer/main.py:210 | k repeated fields give k number texts |
| ProfileParsing.FieldDecimal | flamegraph-analyzer/flamegraph_analyzer/main.py:210 | a matched field starts at a digit, its text is a decimal, and the blanks after it run up to the next non-blank |
| ProfileParsing.FieldsDecimal | flamegraph-analyzer/flamegraph_analyzer/main.py:210 | k matched fields start at a digit, every text is a decimal, and the blanks after the last run up to the next non-blank |
| ProfileParsing.FieldShape | flamegraph-analyzer/flamegraph_analyzer/main.py:210 | a number followed by one blank and a non-blank is matched as one field |
| ProfileParsing.ProfileLineRoundTrip | flamegraph-analyzer/flamegraph_analyzer/main.py:210-212 | a written line of four numbers and a descriptor matches with those four groups and that descriptor |
| ProfileParsing.MatchProfileLine | flamegraph-analyzer/flamegraph_analyzer/main.py:210 | `re.match` of the four-number pattern: no match unless a digit follows the leading blanks; a match's four groups are decimals and its descriptor is a non-empty tail of the line; ProfileLineRoundTrip gives the converse for written lines |
| ProfileParsing.RowAfter | flamegraph-analyzer/flamegraph_analyzer/main.py:210 | after the four numbers, `(.+)` takes the rest from the first non-blank, or the last blank when only blanks follow; there is no row exactly when a single trailing blank is all that follows; the groups are the four number texts in order |
| ProfileParsing.TextRecord | flamegraph-analyzer/flamegraph_analyzer/main.py:212-220 | the record of a match: the stripped descriptor, the four float values and percentage 0; ProfileLineRecord states it for a written line |
| ProfileParsing.NotSkipped | flamegraph-analyzer/flamegraph_analyzer/main.py:205-206 | a line starting with neither a blank nor '#' is not skipped |
| ProfileParsing.LineRecordOfMatch | flamegraph-analyzer/flamegraph_analyzer/main.py:210-220 | a matching line that is not skipped gives its one record |
| ProfileParsing.LineRecords | flamegraph-analyzer/flamegraph_analyzer/main.py:203-220 | a line gives at most one record; it gives one exactly when it is not skipped and the four-number pattern matches it, and that record is TextRecord of the match |
| ProfileParsing.TextRecords | flamegraph-analyzer/flamegraph_analyzer/main.py:203-220 | the lines give at most one record each |
| ProfileParsing.TextRecordsStep | flamegraph-analyzer/flamegraph_analyzer/main.py:203-220 | the records of one more line are appended after those of the lines before it |
| ProfileParsing.ProfileLineRecord | flamegraph-analyzer/flamegraph_analyzer/main.py:203-220 | a written profile line becomes one record with its descriptor as name, its four numbers as times, no location and a percentage of 0 |
| ProfileParsing.ProfileParser.constructor | flamegraph-analyzer/flamegraph_analyzer/main.py:146-149 | a new parser holds no records |
| ProfileParsing.ProfileParser.AssignPercentages | flamegraph-analyzer/flamegraph_analyzer/main.py:223-226 | every held record's percentage becomes its share of the held total |
| ProfileParsing.ProfileParser.ReadLines | flamegraph-analyzer/flamegraph_analyzer/main.py:203-220 | the loop over the lines computes TextRecords of all of them |
| ProfileParsing.ProfileParser.ReadLine | flamegraph-analyzer/flamegraph_analyzer/main.py:205-220 | one line yields LineRecords of it |
| ProfileParsing.ProfileParser.ParseTextProfile | flamegraph-analyzer/flamegraph_analyzer/main.py:195-226 | the held records gain one record per matching line, then all percentages are recomputed when any record is held |
| ProfileParsing.AfterText | flamegraph-analyzer/flamegraph_analyzer/main.py:195-226 | the records after the fallback: the held ones, then TextRecords of the content, rescored over all of them when any is held; ParseTextProfile's new state |
| ProfileParsing.ProfileParser.Parse | flamegraph-analyzer/flamegraph_analyzer/main.py:151-193 | a loaded table replaces the held records by its ranked records; otherwise the text fallback runs on the held records; the result is the held records |
| MarkdownFormatting.Trunc | flamegraph-analyzer/flamegraph_analyzer/main.py:273 | int() rounds toward zero: below or equal for positives, above or equal for negatives, by less than 1 |
| MarkdownFormatting.FormatFlamegraph | flamegraph-analyzer/flamegraph_analyzer/main.py:232-280 | the builder produces the flame-graph report |
| MarkdownFormatting.FlamegraphReport | flamegraph-analyzer/flamegraph_analyzer/main.py:232-280 | the flame-graph report; FlamegraphShape, FlamegraphRowAt and FlamegraphDistribution state its layout |
| MarkdownFormatting.FrameRowOf | flamegraph-analyzer/flamegraph_analyzer/main.py:248-257 | a frame's table row; FlamegraphRowAt states its cuts and defaults |
| MarkdownFormatting.FrameTable | flamegraph-analyzer/flamegraph_analyzer/main.py:247-257 | the table loop gives one row per frame of the first 20 |
| MarkdownFormatting.DistributionLines | flamegraph-analyzer/flamegraph_analyzer/main.py:270-278 | the distribution loop gives three lines per significant frame, in order |
| MarkdownFormatting.FlameBarShape | flamegraph-analyzer/flamegraph_analyzer/main.py:273-274 | the bar has int(pct / 2) filled cells then empty ones, and is 50 cells wide for a percentage between 0 and 100 |
| MarkdownFormatting.DistributionAt | flamegraph-analyzer/flamegraph_analyzer/main.py:270-277 | the k-th significant frame's block starts with its name, then its bar and percentage |
| MarkdownFormatting.FlamegraphShape | flamegraph-analyzer/flamegraph_analyzer/main.py:232-280 | the report has 15 fixed lines, one row for each of the first 20 frames and three lines per frame of at least 1%; its fifth line counts all frames |
| MarkdownFormatting.FrameRowsAt | flamegraph-analyzer/flamegraph_analyzer/main.py:248-257 | table row i is the row of frame i |
| MarkdownFormatting.FrameRows | flamegraph-analyzer/flamegraph_analyzer/main.py:247-257 | the rows of `frames[:20]`; FrameRowsAt and FlamegraphRowAt state each row |
| MarkdownFormatting.FlameBar | flamegraph-analyzer/flamegraph_analyzer/main.py:273-274 | the distribution bar; FlameBarShape states its cells and width |
| MarkdownFormatting.FlamegraphRowAt | flamegraph-analyzer/flamegraph_analyzer/main.py:248-257 | report line 10 + i shows frame i's name cut to 60 characters, its percentage (0 when absent) and its samples ("N/A" when absent) |
| MarkdownFormatting.Significant | flamegraph-analyzer/flamegraph_analyzer/main.py:268 | the distribution's filter `pct >= 1`, with a missing percentage read as 0; FlamegraphDistribution states the frames it keeps |
| MarkdownFormatting.FlamegraphDistribution | flamegraph-analyzer/flamegraph_analyzer/main.py:259-278 | after the table and the distribution heading, the report is the blocks of the Significant frames (percentage at least 1%, main.py:268), in ranked order |
| MarkdownFormatting.TableRowsAt | flamegraph-analyzer/flamegraph_analyzer/main.py:307-324 | table row i is record i ranked i + 1 |
| MarkdownFormatting.TableRows | flamegraph-analyzer/flamegraph_analyzer/main.py:307-324 | the ranked rows of `profile_data[:top_n]`; TableRowsAt and ProfileRowAt state each row |
| MarkdownFormatting.ShownName | flamegraph-analyzer/flamegraph_analyzer/main.py:308 | a record's bare function name when the table gave one, else its label; ProfileRowAt and HotspotAt show it |
| MarkdownFormatting.ShownLocation | flamegraph-analyzer/flamegraph_analyzer/main.py:309 | a record's location, or "Unknown"; ProfileRowAt and HotspotAt show it |
| MarkdownFormatting.FormatProfile | flamegraph-analyzer/flamegraph_analyzer/main.py:282-376 | the builder produces the profile report |
| MarkdownFormatting.ProfileReport | flamegraph-analyzer/flamegraph_analyzer/main.py:282-376 | the profile report; ProfileLength, ProfileRowAt, ProfileHotspots and ProfileRecommendationAt state its layout |
| MarkdownFormatting.TableRowOf | flamegraph-analyzer/flamegraph_analyzer/main.py:307-324 | a ranked table row; ProfileRowAt states its cuts and defaults |
| MarkdownFormatting.HotspotBlock | flamegraph-analyzer/flamegraph_analyzer/main.py:337-355 | the seven lines of one hotspot; HotspotAt and HotBarShape state them |
| MarkdownFormatting.Hotspots | flamegraph-analyzer/flamegraph_analyzer/main.py:333-335 | the hotspots; HotspotsSelection states that they are the first 30 records reaching the threshold |
| MarkdownFormatting.ProfileTable | flamegraph-analyzer/flamegraph_analyzer/main.py:306-324 | the table loop gives one ranked row per record of the first topN |
| MarkdownFormatting.HotspotLines | flamegraph-analyzer/flamegraph_analyzer/main.py:335-355 | the hotspot loop gives seven lines per hotspot, in order |
| MarkdownFormatting.RecommendationLines | flamegraph-analyzer/flamegraph_analyzer/main.py:366-374 | the recommendation loop gives one ranked line for each of the first five records |
| MarkdownFormatting.Recommendations | flamegraph-analyzer/flamegraph_analyzer/main.py:366-374 | one ranked line per record of `profile_data[:5]`; ProfileRecommendationAt states each |
| MarkdownFormatting.HotBarShape | flamegraph-analyzer/flamegraph_analyzer/main.py:344-345 | the hotspot bar has min(int(pct), 50) filled cells: none below 1%, never more than 50 |
| MarkdownFormatting.HotBar | flamegraph-analyzer/flamegraph_analyzer/main.py:344-345 | the hotspot bar; HotBarShape states its cells |
| MarkdownFormatting.HotspotsSelection | flamegraph-analyzer/flamegraph_analyzer/main.py:333-335 | the hotspots are the first min(n, 30) of the n records reaching the threshold, in order; when at most 30 reach it, all of them are listed |
| MarkdownFormatting.HotspotAt | flamegraph-analyzer/flamegraph_analyzer/main.py:335-349 | the k-th hotspot's block starts with its name and location, then its bar and percentage |
| MarkdownFormatting.TotalLine | flamegraph-analyzer/flamegraph_analyzer/main.py:293-297 | line 7 shows the total time exactly when the total is positive, and then shows that total |
| MarkdownFormatting.IntroLines | flamegraph-analyzer/flamegraph_analyzer/main.py:284-304 | the lines before the table are ten, or twelve with the total; the seventh is the total when it is positive and the table heading otherwise |
| MarkdownFormatting.ProfileLength | flamegraph-analyzer/flamegraph_analyzer/main.py:282-376 | the report has 18 fixed lines, two more with the total, one per table row, seven per hotspot and at most five recommendations |
| MarkdownFormatting.ProfileRowAt | flamegraph-analyzer/flamegraph_analyzer/main.py:306-324 | table row i shows record i ranked i + 1, its name cut to 40 characters, its location cut to its last 50, its times, calls (0 when absent) and percentage |
| MarkdownFormatting.ProfileHotspots | flamegraph-analyzer/flamegraph_analyzer/main.py:326-355 | the hotspot blocks follow the table and its heading, in ranked order |
| MarkdownFormatting.HotspotsStart | flamegraph-analyzer/flamegraph_analyzer/main.py:284-331 | the hotspot blocks start at line 13 plus the number of table rows, two lines later when the total is shown |
| MarkdownFormatting.ProfileRecommendationAt | flamegraph-analyzer/flamegraph_analyzer/main.py:366-374 | recommendation j names record j, ranked j + 1, with its location and percentage, among the report's last lines |
| Language.Suffix | tools/autoflame.py:42-45 | the suffix is empty exactly when the final name is shorter than three characters, ends with a dot, or has no dot after its first character; otherwise it is the name's text from its last dot, a dot followed by at least one character |
| Language.ShebangLanguage | tools/autoflame.py:52-63 | a language only for a stripped first line starting with "#!", and then one of python, javascript, ruby, php; PythonFirst, NodeBeforeRuby and NoShebangNoLanguage give the order |
| Language.Detect | tools/autoflame.py:40-65 | a detected language is a value of the extension table or one a shebang names; ExtensionWins and ShebangDecides give the rule |
| Language.ChosenLanguage | tools/autoflame.py:288-289 | a non-empty language given by the caller is kept; a missing or empty one is replaced by detection |
| Language.ExtensionWins | tools/autoflame.py:44-46 | a known extension decides the language whatever the file holds |
| Language.ShebangDecides | tools/autoflame.py:48-65 | without a known extension the first line alone decides, and a missing file gives no language |
| Language.NoShebangNoLanguage | tools/autoflame.py:52-53 | a first line not starting with "#!" names no language |
| Language.PythonFirst | tools/autoflame.py:53-55 | a shebang mentioning python is python, whatever else it names |
| Language.NodeBeforeRuby | tools/autoflame.py:54-57 | node is tried before ruby and php |
| Language.ChooseGenerator | tools/autoflame.py:286-307 | a generator exactly when the chosen language is in the table, the table's generator then; otherwise the error names the path when no language was found, or the language |
| Language.GivenLanguageWins | tools/autoflame.py:286-289 | a non-empty language given by the caller is never replaced by detection |
| Language.EmptyLanguageDetects | tools/autoflame.py:288-289 | an empty language counts as none |
| Language.DetectedWithGenerator | tools/autoflame.py:294-303 | of the detectable languages exactly python, golang, rust, javascript and typescript have a generator |
| Language.Aliases | tools/autoflame.py:294-303 | go and golang share a generator, as do js, javascript, ts and typescript; java has none |
| Language.ExtensionEntries | tools/autoflame.py:20-37 | the table maps .go to golang and .java to java, both .r and .R to r, and has no .PY |
| Language.GoDispatch | tools/autoflame.py:286-303 | a .go file goes to the Go generator |
| Language.JavaDispatch | tools/autoflame.py:286-307 | a .java file is detected as java, which has no generator |
| Language.UpperCasePy | tools/autoflame.py:40-65 | a .PY file is recognised only by its first line |
| RawCsv.CsvName | tools/autoflame.py:268-271 | the CSV name always differs from the raw name; CsvNameRaw, CsvNameTxt and CsvNameAppends state which name it is |
| RawCsv.ReplaceAbsent | tools/autoflame.py:268 | replacing a pattern that does not occur changes nothing |
| RawCsv.CsvNameAppends | tools/autoflame.py:268-271 | a name holding neither ".raw" nor ".txt" gets ".csv" appended |
| RawCsv.CsvNameRaw | tools/autoflame.py:268-271 | a point-free stem with ".raw" gets ".csv" in its place |
| RawCsv.CsvNameTxt | tools/autoflame.py:268-271 | a point-free stem with ".txt" gets ".csv" in its place |
| RawCsv.RowOf | tools/autoflame.py:280-282 | a kept line's row joined by a blank is the line, and its second field has no blank |
| RawCsv.CsvRows | tools/autoflame.py:277-282 | there are at most as many rows as lines |
| RawCsv.ConvertLines | tools/autoflame.py:273-282 | the file is the header row followed by the rows of the lines |
| RawCsv.WriteLine | tools/autoflame.py:278-282 | a line adds its row exactly when it is kept |
| RawCsv.CsvRowsRoundTrip | tools/autoflame.py:277-282 | joining each row's fields with a blank gives back exactly the non-blank lines that have a blank, in order |
| RawCsv.JoinedLine | tools/autoflame.py:278-282 | one line joins back to itself when kept, and to nothing otherwise |
| CsvAnalysis.RankedOrder | tools/autoflame.py:330-336 | ranking keeps every record; when the first record has the column and every weight parses, heaviest first with ties in file order; otherwise the file order |
| CsvAnalysis.SortKey | tools/autoflame.py:331 | "samples" when the first record has that column, else "count"; ConvertedRow states it for converter output |
| CsvAnalysis.Weight | tools/autoflame.py:373 | `float(row.get(key, 0))`: 0 without the column, None where float() raises; TotalMeaning and AddRowFails state its failures |
| CsvAnalysis.Ranked | tools/autoflame.py:330-336 | ranking keeps every record; RankedOrder states the order |
| CsvAnalysis.FunctionRowShape | tools/autoflame.py:343-354 | a row's name is at most 50 characters and its stack at most 60, each shown whole when it fits |
| CsvAnalysis.FunctionRowOf | tools/autoflame.py:343-354 | a record's table row; FunctionRowShape and ConvertedRow state its cuts and fallbacks |
| CsvAnalysis.TableRows | tools/autoflame.py:343-354 | one FunctionRowOf row per shown record; FunctionRows and ReportSummary state them |
| CsvAnalysis.ConvertedRow | tools/autoflame.py:343-354 | a record written by the converter is ranked by count and shows its stack as the name and its count as the samples |
| CsvAnalysis.TotalMeaning | tools/autoflame.py:358 | the total fails exactly when some non-empty field does not parse, and otherwise is the sum of the counted weights |
| CsvAnalysis.Total | tools/autoflame.py:358 | the total of the counted fields; TotalMeaning and TotalOrderFree state its outcome and value |
| CsvAnalysis.TotalOrderFree | tools/autoflame.py:358 | the total does not depend on the order of the records |
| CsvAnalysis.Keys | tools/autoflame.py:364 | the dictionary has one key per item |
| CsvAnalysis.Lookup | tools/autoflame.py:373 | a lookup finds nothing exactly when the key is absent |
| CsvAnalysis.Bump | tools/autoflame.py:373 | an update keeps the keys in place and appends a new key at the end |
| CsvAnalysis.BumpLookup | tools/autoflame.py:373 | an update adds w to its key's value, counting an absent value as 0, and leaves the other keys alone |
| CsvAnalysis.BumpDistinct | tools/autoflame.py:373 | an update keeps the keys distinct |
| CsvAnalysis.UnlocatedNoOccurrences | tools/autoflame.py:370-371 | a stack without a ':' names no location |
| CsvAnalysis.UnlocatedUnchanged | tools/autoflame.py:370-373 | parts without a ':' leave the dictionary unchanged |
| CsvAnalysis.StackParts | tools/autoflame.py:366-369 | a record's stack split at ';'; EmptyStack and AddRowLookup use it |
| CsvAnalysis.Location | tools/autoflame.py:371-372 | the text of a part before its last ':'; AddPartsLookup and HotPathEntry count parts by it |
| CsvAnalysis.AddPartsLookup | tools/autoflame.py:369-373 | the inner loop adds w at a location once per part naming it and leaves other locations alone |
| CsvAnalysis.AddPartsDistinct | tools/autoflame.py:369-373 | the inner loop keeps the keys distinct |
| CsvAnalysis.EmptyStack | tools/autoflame.py:366-369 | an empty stack names no location |
| CsvAnalysis.AddRowLookup | tools/autoflame.py:365-373 | a record adds to each location its weight once per part naming it |
| CsvAnalysis.AddRowFails | tools/autoflame.py:366-373 | a record's pass fails exactly when its stack names a location and its weight does not parse |
| CsvAnalysis.HotPathEntry | tools/autoflame.py:363-373 | each location's value is the sum over the records of their weight once per part naming it, and exactly the named locations are present |
| CsvAnalysis.HotPathTally | tools/autoflame.py:364-373 | the stacks dictionary; HotPathEntry, HotPathKeysDistinct and HotPathFailure state its items and failure |
| CsvAnalysis.AddRow | tools/autoflame.py:365-373 | one record's pass; AddRowLookup and AddRowFails state its effect |
| CsvAnalysis.AddParts | tools/autoflame.py:369-373 | the inner loop over a stack's parts; AddPartsLookup and AddPartsDistinct state its effect |
| CsvAnalysis.HotPathKeysDistinct | tools/autoflame.py:364-373 | each location appears once in the dictionary |
| CsvAnalysis.HotPathFailure | tools/autoflame.py:365-373 | the hot paths fail exactly when some record names a location and has a weight that does not parse |
| CsvAnalysis.HotPathTallyStep | tools/autoflame.py:365-373 | one more record updates the dictionary, and a failure stays a failure |
| CsvAnalysis.FailurePersists | tools/autoflame.py:365-373 | once a record fails, the whole loop fails |
| CsvAnalysis.TopPathsShape | tools/autoflame.py:375-376 | min(n, 10) of the n dictionary items are shown, heaviest first, none more often than it occurs, and no item left out is heavier than a shown one |
| CsvAnalysis.TopPaths | tools/autoflame.py:375-376 | the shown items; TopPathsShape states the selection |
| CsvAnalysis.HotPathLines | tools/autoflame.py:376-377 | one hot-path line per shown item; ReportHotPaths states them |
| CsvAnalysis.CsvToMarkdown | tools/autoflame.py:315-379 | the analysis method computes Analyze of the records |
| CsvAnalysis.FunctionRows | tools/autoflame.py:343-354 | the table loop gives one row per shown record |
| CsvAnalysis.RowFor | tools/autoflame.py:344-354 | one row with the long name and the long stack cut |
| CsvAnalysis.PathLines | tools/autoflame.py:375-377 | the loop gives one line per shown path |
| CsvAnalysis.AccumulateHotPaths | tools/autoflame.py:364-373 | the loop over the records fills the dictionary as HotPathTally does, failing where float() raises |
| CsvAnalysis.AddStack | tools/autoflame.py:366-373 | the inner loop over one record's parts performs that record's pass |
| CsvAnalysis.AnalyzeOutcome | tools/autoflame.py:327-373 | no records give the no-data message; otherwise ValueError exactly when some non-empty field does not parse or some record names a location with a weight that does not parse, whatever the order |
| CsvAnalysis.Analyze | tools/autoflame.py:315-379 | csv_to_markdown's outcome; AnalyzeOutcome, ReportSummary and ReportHotPaths state it |
| CsvAnalysis.ReportSummary | tools/autoflame.py:338-363 | the report opens with the table of the first topN ranked records, then the number of records and the total of their counted weights |
| CsvAnalysis.ReportHotPaths | tools/autoflame.py:362-377 | the report ends with at most ten paths, heaviest first, none repeated and none lighter than a dictionary item left out, each a location some stack names, with its samples summed over all records |
| CsvAnalysis.ShownPath | tools/autoflame.py:364-376 | an item of the dictionary carries the samples of its location over all records, whatever their order |
| Text.Strip | flamegraph-analyzer/flamegraph_analyzer/main.py:85-90 | the stripped text has no blank at either end, and is empty exactly when the text is all blanks; StripSlice states it is a contiguous piece of the text |
| Text.StripSlice | flamegraph-analyzer/flamegraph_analyzer/main.py:85-90 | the stripped text is one contiguous piece of the text, with only blanks before it and only blanks after it |
| Text.StrippedLines | flamegraph-analyzer/flamegraph_analyzer/main.py:85-88 | a stripped text (a tooltip here, a text report at line 201) splits into at least one line, so the tooltip's name is always set; a blank text gives one empty line |
| Text.Split | flamegraph-analyzer/flamegraph_analyzer/main.py:85 | splitting gives at least one piece and no piece holds the separator |
| Text.Words | flamegraph-analyzer/flamegraph_analyzer/main.py:134 | the words are non-empty and hold no blank |
| Text.RemoveChar | flamegraph-analyzer/flamegraph_analyzer/main.py:98 | every comma is removed, and every other character is kept as often as it occurs |
| Text.RemoveCharAppend | flamegraph-analyzer/flamegraph_analyzer/main.py:98 | removal works piece by piece, so the kept characters stay in their order |
| Text.Replace | tools/autoflame.py:268 | replacing a pattern by one of the same length keeps the length; ReplaceSkip, RawCsv.CsvNameRaw and RawCsv.CsvNameTxt state the replacement |
| Text.ReplaceSkip | tools/autoflame.py:268 | a prefix holding no first character of the pattern is copied unchanged before the replaced rest |
| Text.RSplitOnce | tools/autoflame.py:280-281 | two parts exactly when the separator occurs; the parts joined by it give back the text, and the second has none |
| Text.Repeat | flamegraph-analyzer/flamegraph_analyzer/main.py:274 | n copies of the character, none when n is not positive |
| Text.ParseFloat | tools/autoflame.py:358 | a blank field is rejected; ParseFloatMeaning states what is accepted and its value |
| Text.ParseUnsignedMeaning | tools/autoflame.py:358 | an unsigned text is accepted exactly when it is digits with at most one point and at least one digit, and reads as its decimal value |
| Text.ParseSignedMeaning | tools/autoflame.py:358 | a stripped text is read as an optional sign then an unsigned text, the '-' negating its value; anything else is rejected |
| Text.ParseFloatMeaning | tools/autoflame.py:358 | float() of a field strips its blanks, then reads an optional sign and an unsigned text, the '-' negating its value; anything else is rejected |
| Text.ParseFloatDecimal | flamegraph-analyzer/flamegraph_analyzer/main.py:215-218 | a number the profile pattern captures reads as its decimal value, unsigned or with either sign, so TextRecord's DecimalValue is float() of the group |
| Text.SignedDecimal | tools/autoflame.py:358 | a '-' or '+' written before an unsigned number is read with it |
| Text.DecimalUnsigned | flamegraph-analyzer/flamegraph_analyzer/main.py:210 | a captured number is an unsigned text, read as its decimal value, with no blank at its ends |
| Text.ParseFloatOfNatToString | flamegraph-analyzer/flamegraph_analyzer/main.py:98 | a count written by str() reads back as the same number |
| Text.ElideEnd | flamegraph-analyzer/flamegraph_analyzer/main.py:251-252 | a long name becomes its first width - 3 characters then "...", exactly width long; a short one is kept |
| Text.ElideStart | flamegraph-analyzer/flamegraph_analyzer/main.py:314-315 | a long location becomes "..." then its last width - 3 characters, exactly width long; a short one is kept |
| Text.BaseName | flamegraph-analyzer/flamegraph_analyzer/main.py:235 | the final name holds no '/'; BaseNameSuffix states it is the last component |
| Text.BaseNameSuffix | flamegraph-analyzer/flamegraph_analyzer/main.py:235 | the name is what follows the last '/' of the path once its trailing slashes are trimmed, or all of it when there is none |
| Text.TrimTrailingOnly | flamegraph-analyzer/flamegraph_analyzer/main.py:235 | only trailing slashes are trimmed from the path |
| Ranking.SortDesc | flamegraph-analyzer/flamegraph_analyzer/main.py:43 | sorting keeps every element and orders them by decreasing key |
| Ranking.SortDescStable | flamegraph-analyzer/flamegraph_analyzer/main.py:43 | elements of equal key keep their order |
| Ranking.Take | flamegraph-analyzer/flamegraph_analyzer/main.py:248 | the slice s[:n] is a prefix of Python's length, negative n counting from the end |
| Ranking.Filter | flamegraph-analyzer/flamegraph_analyzer/main.py:268 | the comprehension keeps exactly the elements satisfying the condition |

## Left out

- Reading files, ET.parse, pstats loading and running generators are not modelled. The
  parsed SVG is given as an `Element` tree, the stats table as a sequence of entries (None
  when loading raises), a text file as its content, and a file's first line as a parameter.
- The generator bodies (`generate_python` and the rest) run subprocesses and are left out.
  Only the dispatch to them is modelled.
- `stats.strip_dirs()` can merge entries whose paths differ only in directories. The table
  is given after that step.
- Floating point is modelled with exact reals. Rounding of sums and quotients is not
  modelled.
- `MarkdownFormatting.FormatFlamegraph`: report lines that show a float keep the value, not
  its `:.2f` text. The final `"\n".join` is not modelled.
- `MarkdownFormatting.FormatProfile`: the `:.3f`, `:.1f`, `:.6f` and `:,` formats and the
  final join are not modelled.
- `CsvAnalysis.CsvToMarkdown`: the `:.0f` formats of the total and the path counts and the
  final `''.join` are not modelled. The records are given as csv.DictReader's maps, so CSV
  quoting and rows shorter than the header (None values) are not modelled.
- `Text.ParseFloat`: float() is modelled for an optional sign and decimal digits with at
  most one point, blanks around. Exponents, "inf", "nan" and underscores are not modelled.
- `Text.IsDigit`: `\d` is modelled as ASCII digits. Unicode digits are not.
- `Text.BaseName`: Path(...).name is modelled on '/'-separated paths, without normalisation.
- `RawCsv.ConvertLines`: the lines are given as the file yields them, line break included.
  Writing them through csv.writer (quoting) is not modelled.
- The command-line entry points, and the prompt and report writers around the core, are
  not part of this model.

=== FILE: csv_analysis.dfy ===
/** The CSV analysis of tools/autoflame.py (FlameGraphAnalyzer.csv_to_markdown): the records of a
    CSV file ranked by their sample column, a table of the first ones, the total of the samples,
    and the source locations that occur in the stacks with the samples summed per location.
    The report is the list of pieces the analysis appends; a piece that shows a float keeps the
    value rather than its decimal text. */
module CsvAnalysis {
  import opened Wrappers
  import opened Text
  import opened Ranking
  import opened RawCsv

  /** A record as csv.DictReader yields it: each column of the header to the row's field. */
  type Record = map<string, string>

  /** row.get(name, default) */
  function Get(row: Record, name: string, default: string): string {
    if name in row then row[name] else default
  }

  /** The column the records are ranked by: "samples" when the first record has one, else "count". */
  function SortKey(first: Record): string {
    if "samples" in first then "samples" else "count"
  }

  /** float(row.get(key, 0)): a record without the column weighs 0; None where float() raises. */
  function Weight(row: Record, key: string): Option<real> {
    if key in row then ParseFloat(row[key]) else Some(0.0)
  }

  function WeightOrZero(key: string): Record -> real {
    row => Weight(row, key).GetOr(0.0)
  }

  predicate AllWeigh(data: seq<Record>, key: string) {
    forall i :: 0 <= i < |data| ==> Weight(data[i], key).Some?
  }

  /** data.sort(key=..., reverse=True) inside its try: when the first record has the column,
      the records heaviest first, equal weights in their file order; when the first record
      lacks the column or some weight does not parse, the records as read. */
  function Ranked(data: seq<Record>, key: string): (r: seq<Record>)
    requires data != []
    ensures multiset(r) == multiset(data)
  {
    if key in data[0] && AllWeigh(data, key) then SortDesc(data, WeightOrZero(key)) else data
  }

  /** Ranking only reorders: every record is kept. It sorts heaviest first, keeping equal weights
      in file order, exactly when the first record has the column and every weight parses. */
  lemma RankedOrder(data: seq<Record>, key: string, w: real)
    requires data != []
    ensures multiset(Ranked(data, key)) == multiset(data)
    ensures key in data[0] && AllWeigh(data, key) ==>
              Descending(Ranked(data, key), WeightOrZero(key))
              && WithKey(Ranked(data, key), WeightOrZero(key), w) == WithKey(data, WeightOrZero(key), w)
    ensures !(key in data[0] && AllWeigh(data, key)) ==> Ranked(data, key) == data
  {
    SortDescStable(data, WeightOrZero(key), w);
  }

  // ---------------------------------------------------------------------------
  // The pieces of the report

  datatype Piece =
    | Title | TopTitle | TableColumns | TableRule
    | FunctionRow(name: string, samples: string, stack: string)
    | SummaryTitle
    | FunctionCount(functions: nat)
    | TotalSamples(total: real)
    | HotPathsTitle
    | HotPath(path: string, count: real)

  /** The text of a piece that shows no float; None for a piece whose text holds a float. */
  function PieceText(p: Piece): Option<string> {
    match p
    case Title => Some("# Flame Graph Analysis\n")
    case TopTitle => Some("## Top Hot Functions\n")
    case TableColumns => Some("| Function | Samples/Time | Stack |\n")
    case TableRule => Some("|----------|-------------|-------|\n")
    case FunctionRow(name, samples, stack) => Some("| " + name + " | " + samples + " | " + stack + " |\n")
    case SummaryTitle => Some("\n## Summary Statistics\n")
    case FunctionCount(n) => Some("- Total functions: " + NatToString(n) + "\n")
    case HotPathsTitle => Some("\n## Hot Code Paths\n")
    case _ => None
  }

  const Intro: seq<Piece> := [Title, TopTitle, TableColumns, TableRule]

  /** A table row: the function (or else the stack, or else "unknown") cut to 50 characters, the
      field under the key (or else total_time, or else "0"), and the stack cut to its last 60. */
  function FunctionRowOf(row: Record, key: string): Piece {
    FunctionRow(ElideEnd(Get(row, "function", Get(row, "stack", "unknown")), 50),
                Get(row, key, Get(row, "total_time", "0")),
                ElideStart(Get(row, "stack", ""), 60))
  }

  function TableRows(shown: seq<Record>, key: string): seq<Piece> {
    seq(|shown|, i requires 0 <= i < |shown| => FunctionRowOf(shown[i], key))
  }

  /** A row of the table fits its columns: at most 50 characters of name and 60 of stack, both
      shown whole when they fit. */
  lemma FunctionRowShape(row: Record, key: string)
    ensures var p := FunctionRowOf(row, key);
            var name := Get(row, "function", Get(row, "stack", "unknown"));
            && |p.name| <= 50 && |p.stack| <= 60
            && (|name| <= 50 ==> p.name == name)
            && (|Get(row, "stack", "")| <= 60 ==> p.stack == Get(row, "stack", ""))
  {
  }

  /** A record written by the generic converter has no function column, so its row shows its
      stack as the name, and its count as the samples. */
  lemma ConvertedRow(r: Row)
    ensures var row: Record := map["stack" := r.0, "count" := r.1];
            && SortKey(row) == "count"
            && FunctionRowOf(row, "count") == FunctionRow(ElideEnd(r.0, 50), r.1, ElideStart(r.0, 60))
  {
    var row: Record := map["stack" := r.0, "count" := r.1];
    assert "samples" !in row && "function" !in row;
  }

  // ---------------------------------------------------------------------------
  // The total

  /** A record counted in the total: its field under the key is present and not empty. */
  predicate Counted(row: Record, key: string) {
    key in row && row[key] != ""
  }

  /** A counted record whose field float() rejects. */
  function Rejecting(key: string): Record -> bool {
    row => Counted(row, key) && Weight(row, key).None?
  }

  /** sum(float(row.get(key, 0)) for row in data if row.get(key)), left to right; None where a
      counted field does not parse. */
  function Total(data: seq<Record>, key: string): Option<real>
  {
    if data == [] then Some(0.0)
    else if !Counted(data[0], key) then Total(data[1..], key)
    else
      match Weight(data[0], key)
      case None => None
      case Some(w) =>
        match Total(data[1..], key)
        case None => None
        case Some(t) => Some(w + t)
  }

  /** What a record adds to the total. */
  function CountedWeight(key: string): Record -> real {
    row => if Counted(row, key) then Weight(row, key).GetOr(0.0) else 0.0
  }

  /** The total fails exactly when some counted field does not parse, and otherwise is the sum
      of the counted weights. */
  lemma {:induction false} TotalMeaning(data: seq<Record>, key: string)
    ensures Total(data, key).None? <==> Any(data, Rejecting(key))
    ensures Total(data, key).Some? ==> Total(data, key).value == Sum(data, CountedWeight(key))
  {
    if data != [] {
      TotalMeaning(data[1..], key);
      AnyCons(data, Rejecting(key));
    }
  }

  /** The total does not depend on the order of the records. */
  lemma TotalOrderFree(a: seq<Record>, b: seq<Record>, key: string)
    requires multiset(a) == multiset(b)
    ensures Total(a, key) == Total(b, key)
  {
    TotalMeaning(a, key);
    TotalMeaning(b, key);
    AnyPermutation(a, b, Rejecting(key));
    SumPermutation(a, b, CountedWeight(key));
  }

  // ---------------------------------------------------------------------------
  // The hot paths

  /** The location a stack part names: its text before the last ':' (part.rsplit(':', 1)[0]). */
  function Location(part: string): string
    requires ':' in part
  {
    RSplitOnce(part, ':').value.0
  }

  /** The parts of a record's stack: row.get('stack', '').split(';'). */
  function StackParts(row: Record): seq<string> {
    Split(Get(row, "stack", ""), ';')
  }

  /** Some part holds a ':'. */
  predicate Located(parts: seq<string>) {
    parts != [] && (Located(parts[..|parts| - 1]) || ':' in parts[|parts| - 1])
  }

  /** The dictionary of totals, as its items in insertion order. */
  type Tally = seq<(string, real)>

  /** The keys of the dictionary, in insertion order. */
  function Keys(t: Tally): (ks: seq<string>)
    ensures |ks| == |t|
  {
    if t == [] then [] else [t[0].0] + Keys(t[1..])
  }

  /** No key occurs twice. */
  predicate KeysDistinct(t: Tally) {
    t == [] || (t[0].0 !in Keys(t[1..]) && KeysDistinct(t[1..]))
  }

  /** tally.get(k): the value of the first item with key k. */
  function Lookup(t: Tally, k: string): (r: Option<real>)
    ensures r.None? <==> k !in Keys(t)
  {
    if t == [] then None
    else if t[0].0 == k then Some(t[0].1)
    else Lookup(t[1..], k)
  }

  /** stacks[k] = stacks.get(k, 0) + w: every item keeps its place, and a new key goes at the end. */
  function Bump(t: Tally, k: string, w: real): (r: Tally)
    ensures Keys(r) == if k in Keys(t) then Keys(t) else Keys(t) + [k]
  {
    if t == [] then
      assert Keys([(k, w)]) == [k] + Keys([]);
      [(k, w)]
    else if t[0].0 == k then
      var r := [(k, t[0].1 + w)] + t[1..];
      assert r[1..] == t[1..];
      r
    else
      var rest := Bump(t[1..], k, w);
      var r := [t[0]] + rest;
      assert r[1..] == rest;
      assert [t[0].0] + (Keys(t[1..]) + [k]) == [t[0].0] + Keys(t[1..]) + [k];
      r
  }

  /** After the update, k's value has grown by w and every other key keeps its value. */
  lemma {:induction false} BumpLookup(t: Tally, k: string, w: real, p: string)
    ensures Lookup(Bump(t, k, w), p) == if p == k then Some(Lookup(t, k).GetOr(0.0) + w) else Lookup(t, p)
    decreases |t|
  {
    if t != [] && t[0].0 != k {
      BumpLookup(t[1..], k, w, p);
      assert ([t[0]] + Bump(t[1..], k, w))[1..] == Bump(t[1..], k, w);
    } else if t != [] {
      assert ([(k, t[0].1 + w)] + t[1..])[1..] == t[1..];
    }
  }

  /** The update keeps the keys distinct. */
  lemma {:induction false} BumpDistinct(t: Tally, k: string, w: real)
    requires KeysDistinct(t)
    ensures KeysDistinct(Bump(t, k, w))
    decreases |t|
  {
    if t != [] && t[0].0 != k {
      BumpDistinct(t[1..], k, w);
      assert ([t[0]] + Bump(t[1..], k, w))[1..] == Bump(t[1..], k, w);
    } else if t != [] {
      assert ([(k, t[0].1 + w)] + t[1..])[1..] == t[1..];
    } else {
      assert [(k, w)][1..] == [];
    }
  }

  /** The inner loop: each part holding a ':' adds w to its location. */
  function AddParts(t: Tally, parts: seq<string>, w: real): Tally
  {
    if parts == [] then t
    else
      var before := AddParts(t, parts[..|parts| - 1], w);
      var part := parts[|parts| - 1];
      if ':' in part then Bump(before, Location(part), w) else before
  }

  /** One record's pass: nothing for an empty stack or one without a located part; otherwise its
      weight for each located part, and None where the weight does not parse. */
  function AddRow(t: Tally, row: Record, key: string): Option<Tally> {
    var stack := Get(row, "stack", "");
    if stack == [] then Some(t)
    else
      var parts := Split(stack, ';');
      if !Located(parts) then Some(t)
      else
        match Weight(row, key)
        case None => None
        case Some(w) => Some(AddParts(t, parts, w))
  }

  /** The stacks dictionary after the records, in their order. */
  function HotPathTally(data: seq<Record>, key: string): Option<Tally>
  {
    if data == [] then Some([])
    else
      match HotPathTally(data[..|data| - 1], key)
      case None => None
      case Some(t) => AddRow(t, data[|data| - 1], key)
  }

  /** How many parts name location p. */
  function Occurrences(parts: seq<string>, p: string): nat
  {
    if parts == [] then 0
    else
      var part := parts[|parts| - 1];
      Occurrences(parts[..|parts| - 1], p) + (if ':' in part && Location(part) == p then 1 else 0)
  }

  /** The record's stack names location p. */
  function Naming(p: string): Record -> bool {
    row => Occurrences(StackParts(row), p) > 0
  }

  /** What a record adds to location p: its weight once per part naming p. */
  function Share(key: string, p: string): Record -> real {
    row => Times(Occurrences(StackParts(row), p), Weight(row, key).GetOr(0.0))
  }

  /** The samples at location p: each record's weight times the number of its parts at p. */
  function Contribution(data: seq<Record>, key: string, p: string): real {
    Sum(data, Share(key, p))
  }

  /** A record whose stack has a located part and whose weight does not parse. */
  function Breaking(key: string): Record -> bool {
    row => Located(StackParts(row)) && Weight(row, key).None?
  }

  lemma {:induction false} UnlocatedNoOccurrences(parts: seq<string>, p: string)
    requires !Located(parts)
    ensures Occurrences(parts, p) == 0
    decreases |parts|
  {
    if parts != [] {
      UnlocatedNoOccurrences(parts[..|parts| - 1], p);
    }
  }

  lemma {:induction false} UnlocatedUnchanged(t: Tally, parts: seq<string>, w: real)
    requires !Located(parts)
    ensures AddParts(t, parts, w) == t
    decreases |parts|
  {
    if parts != [] {
      UnlocatedUnchanged(t, parts[..|parts| - 1], w);
    }
  }

  /** The inner loop adds w at p once per part naming p, and leaves the other locations alone. */
  lemma {:induction false} AddPartsLookup(t: Tally, parts: seq<string>, w: real, p: string)
    ensures Lookup(AddParts(t, parts, w), p).GetOr(0.0) == Lookup(t, p).GetOr(0.0) + Times(Occurrences(parts, p), w)
    ensures Lookup(AddParts(t, parts, w), p).Some? <==> Lookup(t, p).Some? || Occurrences(parts, p) > 0
    decreases |parts|
  {
    if parts != [] {
      var front := parts[..|parts| - 1];
      var part := parts[|parts| - 1];
      AddPartsLookup(t, front, w, p);
      var before := AddParts(t, front, w);
      if ':' in part {
        assert AddParts(t, parts, w) == Bump(before, Location(part), w);
        BumpLookup(before, Location(part), w, p);
        if Location(part) == p {
          assert Occurrences(parts, p) == Occurrences(front, p) + 1;
        } else {
          assert Occurrences(parts, p) == Occurrences(front, p);
        }
      } else {
        assert AddParts(t, parts, w) == before;
        assert Occurrences(parts, p) == Occurrences(front, p);
      }
    }
  }

  /** n times w, as n additions of w. */
  function Times(n: nat, w: real): real {
    if n == 0 then 0.0 else Times(n - 1, w) + w
  }

  lemma {:induction false} AddPartsDistinct(t: Tally, parts: seq<string>, w: real)
    requires KeysDistinct(t)
    ensures KeysDistinct(AddParts(t, parts, w))
    decreases |parts|
  {
    if parts != [] {
      var part := parts[|parts| - 1];
      AddPartsDistinct(t, parts[..|parts| - 1], w);
      if ':' in part {
        BumpDistinct(AddParts(t, parts[..|parts| - 1], w), Location(part), w);
      }
    }
  }

  /** An empty stack splits into one empty part, which names no location. */
  lemma EmptyStack(row: Record)
    requires Get(row, "stack", "") == []
    ensures !Located(StackParts(row))
  {
    assert StackParts(row) == [""];
    assert StackParts(row)[..0] == [];
  }

  /** What one record does to the value at p. */
  lemma AddRowLookup(t: Tally, row: Record, key: string, p: string)
    requires AddRow(t, row, key).Some?
    ensures Lookup(AddRow(t, row, key).value, p).GetOr(0.0) == Lookup(t, p).GetOr(0.0) + Share(key, p)(row)
    ensures Lookup(AddRow(t, row, key).value, p).Some? <==> Lookup(t, p).Some? || Occurrences(StackParts(row), p) > 0
  {
    var parts := StackParts(row);
    if Get(row, "stack", "") == [] {
      EmptyStack(row);
      UnlocatedNoOccurrences(parts, p);
      assert AddRow(t, row, key) == Some(t);
    } else if !Located(parts) {
      UnlocatedNoOccurrences(parts, p);
      assert AddRow(t, row, key) == Some(t);
    } else {
      var w := Weight(row, key).value;
      assert AddRow(t, row, key) == Some(AddParts(t, parts, w));
      assert Share(key, p)(row) == Times(Occurrences(parts, p), w);
      AddPartsLookup(t, parts, w, p);
    }
  }

  lemma ContributionStep(data: seq<Record>, key: string, p: string)
    requires data != []
    ensures Contribution(data, key, p)
              == Contribution(data[..|data| - 1], key, p) + Share(key, p)(data[|data| - 1])
  {
    var front := data[..|data| - 1];
    var last := data[|data| - 1];
    assert data == front + [last];
    SumAppend(front, [last], Share(key, p));
    assert [last][1..] == [];
  }

  /** Each location's total is its contribution: the weights of the records, once per part of
      their stacks at that location; and exactly the mentioned locations have a total. */
  lemma {:induction false} HotPathEntry(data: seq<Record>, key: string, p: string)
    requires HotPathTally(data, key).Some?
    ensures Lookup(HotPathTally(data, key).value, p).GetOr(0.0) == Contribution(data, key, p)
    ensures Lookup(HotPathTally(data, key).value, p).Some? <==> Any(data, Naming(p))
    decreases |data|
  {
    if data != [] {
      var front := data[..|data| - 1];
      var last := data[|data| - 1];
      var t0 := HotPathTally(front, key).value;
      HotPathEntry(front, key, p);
      AddRowLookup(t0, last, key, p);
      AnySnoc(data, Naming(p));
      ContributionStep(data, key, p);
    }
  }

  /** Each location appears once in the dictionary. */
  lemma {:induction false} HotPathKeysDistinct(data: seq<Record>, key: string)
    requires HotPathTally(data, key).Some?
    ensures KeysDistinct(HotPathTally(data, key).value)
    decreases |data|
  {
    if data != [] {
      var front := data[..|data| - 1];
      HotPathKeysDistinct(front, key);
      var parts := StackParts(data[|data| - 1]);
      if Get(data[|data| - 1], "stack", "") != [] && Located(parts) {
        AddPartsDistinct(HotPathTally(front, key).value, parts, Weight(data[|data| - 1], key).value);
      }
    }
  }

  /** The hot paths fail exactly when some record has a located part and a weight that does not
      parse. */
  lemma {:induction false} HotPathFailure(data: seq<Record>, key: string)
    ensures HotPathTally(data, key).None? <==> Any(data, Breaking(key))
    decreases |data|
  {
    if data != [] {
      var front := data[..|data| - 1];
      HotPathFailure(front, key);
      AnySnoc(data, Breaking(key));
      if HotPathTally(front, key).Some? {
        AddRowFails(HotPathTally(front, key).value, data[|data| - 1], key);
      }
    }
  }

  /** One record's pass fails exactly when the record breaks. */
  lemma AddRowFails(t: Tally, row: Record, key: string)
    ensures AddRow(t, row, key).None? <==> Breaking(key)(row)
  {
    if Get(row, "stack", "") == [] {
      EmptyStack(row);
    }
  }

  function Count(item: (string, real)): real { item.1 }

  /** sorted(stacks.items(), key=count, reverse=True)[:10] */
  function TopPaths(t: Tally): seq<(string, real)> {
    Take(SortDesc(t, Count), 10)
  }

  function HotPathLines(top: seq<(string, real)>): seq<Piece> {
    seq(|top|, i requires 0 <= i < |top| => HotPath(top[i].0, top[i].1))
  }

  /** The shown paths: at most ten items of the dictionary, heaviest first, none shown more
      often than it occurs and no item left out heavier than a shown one. */
  lemma TopPathsShape(t: Tally)
    ensures var top := TopPaths(t);
            && |top| == (if |t| <= 10 then |t| else 10)
            && Descending(top, Count)
            && (forall i :: 0 <= i < |top| ==> top[i] in t)
            && Heaviest(t, top, Count)
  {
    var sorted := SortDesc(t, Count);
    var top := TopPaths(t);
    assert top == sorted[..|top|];
    PrefixOfSortedHeaviest(t, sorted, top, Count);
    SubMultisetItems(top, t);
  }

  /** An item of a dictionary with distinct keys is what a lookup of its key finds. */
  lemma {:induction false} LookupItem(t: Tally, item: (string, real))
    requires KeysDistinct(t) && item in t
    ensures Lookup(t, item.0) == Some(item.1)
  {
    if t[0] != item {
      assert item in t[1..];
      KeyOfItem(t[1..], item);
      LookupItem(t[1..], item);
    }
  }

  lemma {:induction false} KeyOfItem(t: Tally, item: (string, real))
    requires item in t
    ensures item.0 in Keys(t)
  {
    if t[0] != item {
      assert item in t[1..];
      KeyOfItem(t[1..], item);
    }
  }

  // ---------------------------------------------------------------------------
  // The analysis

  /** What csv_to_markdown gives: the no-data message, a ValueError, or the report. */
  datatype Analysis = NoData | ValueErrorRaised | Markdown(pieces: seq<Piece>)

  /** The whole analysis of the records read from the CSV file. */
  function Analyze(data: seq<Record>, topN: int): Analysis {
    if data == [] then NoData
    else
      var key := SortKey(data[0]);
      var ranked := Ranked(data, key);
      match Total(ranked, key)
      case None => ValueErrorRaised
      case Some(total) =>
        match HotPathTally(ranked, key)
        case None => ValueErrorRaised
        case Some(t) =>
          Markdown(Intro + TableRows(Take(ranked, topN), key)
                   + [SummaryTitle, FunctionCount(|data|), TotalSamples(total), HotPathsTitle]
                   + HotPathLines(TopPaths(t)))
  }

  /** csv_to_markdown on the records read from the file. */
  method CsvToMarkdown(data: seq<Record>, topN: int) returns (out: Analysis)
    ensures out == Analyze(data, topN)
  {
    if data == [] {
      return NoData;
    }
    var key := SortKey(data[0]);
    var ranked := Ranked(data, key);
    var pieces := Intro;
    var rows := FunctionRows(Take(ranked, topN), key);
    pieces := pieces + rows + [SummaryTitle];
    var total := Total(ranked, key);
    if total.None? {
      return ValueErrorRaised;
    }
    pieces := pieces + [FunctionCount(|data|), TotalSamples(total.value), HotPathsTitle];
    var tally := AccumulateHotPaths(ranked, key);
    if tally.None? {
      return ValueErrorRaised;
    }
    var lines := PathLines(TopPaths(tally.value));
    out := Markdown(pieces + lines);
  }

  /** The table loop: one row per shown record. */
  method FunctionRows(shown: seq<Record>, key: string) returns (rows: seq<Piece>)
    ensures rows == TableRows(shown, key)
  {
    rows := [];
    var i := 0;
    while i < |shown|
      invariant 0 <= i <= |shown|
      invariant rows == TableRows(shown, key)[..i]
    {
      var piece := RowFor(shown[i], key);
      assert TableRows(shown, key)[..i + 1] == TableRows(shown, key)[..i] + [piece];
      rows := rows + [piece];
      i := i + 1;
    }
    assert TableRows(shown, key)[..i] == TableRows(shown, key);
  }

  /** One row of the table, with its long name and long stack cut. */
  method RowFor(row: Record, key: string) returns (piece: Piece)
    ensures piece == FunctionRowOf(row, key)
  {
    var name := Get(row, "function", Get(row, "stack", "unknown"));
    var samples := Get(row, key, Get(row, "total_time", "0"));
    var stack := Get(row, "stack", "");
    if |name| > 50 {
      name := name[..47] + "...";
    }
    if |stack| > 60 {
      stack := "..." + stack[|stack| - 57..];
    }
    piece := FunctionRow(name, samples, stack);
  }

  /** The loop over the shown paths. */
  method PathLines(top: seq<(string, real)>) returns (lines: seq<Piece>)
    ensures lines == HotPathLines(top)
  {
    lines := [];
    var i := 0;
    while i < |top|
      invariant 0 <= i <= |top|
      invariant lines == HotPathLines(top)[..i]
    {
      var (path, count) := top[i];
      assert HotPathLines(top)[..i + 1] == HotPathLines(top)[..i] + [HotPath(path, count)];
      lines := lines + [HotPath(path, count)];
      i := i + 1;
    }
    assert HotPathLines(top)[..i] == HotPathLines(top);
  }

  /** The loop over the records that fills the stacks dictionary; None where float() raises. */
  method AccumulateHotPaths(data: seq<Record>, key: string) returns (tally: Option<Tally>)
    ensures tally == HotPathTally(data, key)
  {
    var t: Tally := [];
    var i := 0;
    assert data[..0] == [];
    while i < |data|
      invariant 0 <= i <= |data|
      invariant HotPathTally(data[..i], key) == Some(t)
    {
      HotPathTallyStep(data, i, key);
      var next := AddStack(t, data[i], key);
      if next.None? {
        FailurePersists(data, i + 1, key);
        return None;
      }
      t := next.value;
      i := i + 1;
    }
    assert data[..i] == data;
    return Some(t);
  }

  lemma HotPathTallyStep(data: seq<Record>, i: nat, key: string)
    requires i < |data|
    ensures HotPathTally(data[..i + 1], key)
              == match HotPathTally(data[..i], key)
                 case None => None
                 case Some(t) => AddRow(t, data[i], key)
  {
    assert data[..i + 1][..i] == data[..i];
  }

  /** Once a record fails, the whole loop fails. */
  lemma {:induction false} FailurePersists(data: seq<Record>, i: nat, key: string)
    requires i <= |data| && HotPathTally(data[..i], key).None?
    ensures HotPathTally(data, key).None?
    decreases |data| - i
  {
    if i < |data| {
      HotPathTallyStep(data, i, key);
      FailurePersists(data, i + 1, key);
    } else {
      assert data[..i] == data;
    }
  }

  /** The inner loop over one record's stack parts. */
  method AddStack(t: Tally, row: Record, key: string) returns (r: Option<Tally>)
    ensures r == AddRow(t, row, key)
  {
    var stack := Get(row, "stack", "");
    if stack == [] {
      return Some(t);
    }
    var parts := Split(stack, ';');
    var acc := t;
    var j := 0;
    assert parts[..0] == [];
    while j < |parts|
      invariant 0 <= j <= |parts|
      invariant Located(parts[..j]) ==> Weight(row, key).Some?
      invariant acc == AddParts(t, parts[..j], Weight(row, key).GetOr(0.0))
    {
      var part := parts[j];
      assert parts[..j + 1][..j] == parts[..j];
      if ':' in part {
        var w := Weight(row, key);
        if w.None? {
          LocatedPrefix(parts, j + 1);
          return None;
        }
        acc := Bump(acc, Location(part), w.value);
      }
      j := j + 1;
    }
    assert parts[..j] == parts;
    if !Located(parts) {
      UnlocatedUnchanged(t, parts, Weight(row, key).GetOr(0.0));
    }
    r := Some(acc);
  }

  /** A located prefix makes the whole stack located. */
  lemma {:induction false} LocatedPrefix(parts: seq<string>, j: nat)
    requires j <= |parts| && Located(parts[..j])
    ensures Located(parts)
    decreases |parts| - j
  {
    if j == |parts| {
      assert parts[..j] == parts;
    } else {
      assert parts[..j + 1][..j] == parts[..j];
      LocatedPrefix(parts, j + 1);
    }
  }

  // ---------------------------------------------------------------------------
  // Properties of the analysis

  /** No records give the no-data message; otherwise a ValueError is raised exactly when some
      record has a non-empty field that does not parse, or a located stack and a weight that
      does not parse, whatever the order of the records. */
  lemma AnalyzeOutcome(data: seq<Record>, topN: int)
    ensures Analyze(data, topN) == NoData <==> data == []
    ensures data != [] ==>
              (Analyze(data, topN) == ValueErrorRaised <==>
                 Any(data, Rejecting(SortKey(data[0]))) || Any(data, Breaking(SortKey(data[0]))))
  {
    if data != [] {
      var key := SortKey(data[0]);
      var ranked := Ranked(data, key);
      RankedOrder(data, key, 0.0);
      TotalOrderFree(ranked, data, key);
      TotalMeaning(data, key);
      HotPathFailure(ranked, key);
      AnyPermutation(ranked, data, Breaking(key));
    }
  }

  /** The report opens with the table of the first topN ranked records, then gives the number of
      records and the total of their counted weights, which does not depend on the ranking. */
  lemma ReportSummary(data: seq<Record>, topN: int)
    requires Analyze(data, topN).Markdown?
    ensures data != []
    ensures var key := SortKey(data[0]);
            var shown := Take(Ranked(data, key), topN);
            var pieces := Analyze(data, topN).pieces;
            && SectionAt(pieces, 0, Intro)
            && SectionAt(pieces, 4, TableRows(shown, key))
            && SectionAt(pieces, 4 + |shown|,
                         [SummaryTitle, FunctionCount(|data|), TotalSamples(Sum(data, CountedWeight(key))), HotPathsTitle])
  {
    var key := SortKey(data[0]);
    var ranked := Ranked(data, key);
    var shown := Take(ranked, topN);
    var rows := TableRows(shown, key);
    var t := HotPathTally(ranked, key).value;
    RankedOrder(data, key, 0.0);
    TotalOrderFree(ranked, data, key);
    TotalMeaning(data, key);
    var summary := [SummaryTitle, FunctionCount(|data|), TotalSamples(Sum(data, CountedWeight(key))), HotPathsTitle];
    FourParts(Analyze(data, topN).pieces, Intro, rows, summary, HotPathLines(TopPaths(t)), 4, 4 + |shown|, 8 + |shown|);
  }

  /** The report ends with at most ten hot paths, heaviest first, none repeated and none lighter
      than a location left out; each shows a location that some stack names, with the samples
      of that location summed over all records. */
  lemma ReportHotPaths(data: seq<Record>, topN: int)
    requires Analyze(data, topN).Markdown?
    ensures data != [] && HotPathTally(Ranked(data, SortKey(data[0])), SortKey(data[0])).Some?
    ensures var key := SortKey(data[0]);
            var top := TopPaths(HotPathTally(Ranked(data, key), key).value);
            var pieces := Analyze(data, topN).pieces;
            && |top| <= 10 && |top| <= |pieces|
            && pieces[|pieces| - |top|..] == HotPathLines(top)
            && Descending(top, Count)
            && forall i :: 0 <= i < |top| ==>
                 Any(data, Naming(top[i].0)) && top[i].1 == Contribution(data, key, top[i].0)
  ensures var key := SortKey(data[0]);
          var t := HotPathTally(Ranked(data, key), key).value;
          var top := TopPaths(t);
          Heaviest(t, top, Count)
  {
    var key := SortKey(data[0]);
    var ranked := Ranked(data, key);
    var t := HotPathTally(ranked, key).value;
    var top := TopPaths(t);
    var pieces := Analyze(data, topN).pieces;
    var front := Intro + TableRows(Take(ranked, topN), key)
                 + [SummaryTitle, FunctionCount(|data|), TotalSamples(Total(ranked, key).value), HotPathsTitle];
    assert pieces == front + HotPathLines(top);
    assert pieces[|front|..] == HotPathLines(top);
    TopPathsShape(t);
    forall i | 0 <= i < |top|
      ensures Any(data, Naming(top[i].0)) && top[i].1 == Contribution(data, key, top[i].0)
    {
      ShownPath(data, key, top[i]);
    }
  }

  /** An item of the dictionary carries the samples of its location over all records, whatever
      their order. */
  lemma ShownPath(data: seq<Record>, key: string, item: (string, real))
    requires data != [] && HotPathTally(Ranked(data, key), key).Some?
    requires item in HotPathTally(Ranked(data, key), key).value
    ensures Any(data, Naming(item.0)) && item.1 == Contribution(data, key, item.0)
  {
    var ranked := Ranked(data, key);
    var t := HotPathTally(ranked, key).value;
    HotPathKeysDistinct(ranked, key);
    LookupItem(t, item);
    HotPathEntry(ranked, key, item.0);
    RankedOrder(data, key, 0.0);
    AnyPermutation(ranked, data, Naming(item.0));
    SumPermutation(ranked, data, Share(key, item.0));
  }
}

=== FILE: flamegraph_parser.dfy ===
/** Frames from a flame-graph SVG: classic `<g class="func_g">` groups and flameprof's nested
    `<svg class="func_g">` containers, collected in document order and ranked by percentage. */
module FlamegraphParsing {
  import opened Wrappers
  import opened Text
  import opened Ranking
  import opened FrameTitles

  /** The SVG element names the parser asks for; every other name is OtherTag. */
  datatype Tag = G | Svg | Title | Rect | OtherTag

  /** An element of the parsed SVG document: its name, its attributes, its text and its children. */
  datatype Element = Element(tag: Tag, attrs: map<string, string>, text: Option<string>, children: seq<Element>)

  /** One frame: what its tooltip says, and the geometry of its box (absent where never read). */
  datatype Frame = Frame(info: TitleInfo, width: Option<real>, x: Option<real>, y: Option<real>)

  /** float() rejected the text of an attribute. */
  datatype ParseError = NotANumber(attribute: string, text: string)

  /** Every element below the given ones, in document order (a pre-order walk). */
  function Forest(es: seq<Element>): seq<Element>
    decreases es
  {
    if es == [] then [] else [es[0]] + Forest(es[0].children) + Forest(es[1..])
  }

  /** `root.findall('.//tag')`: the descendants of root with that name, in document order. */
  function FindAll(root: Element, tag: Tag): (r: seq<Element>)
    ensures forall i :: 0 <= i < |r| ==> r[i].tag == tag
  {
    Filter(Forest(root.children), (e: Element) => e.tag == tag)
  }

  /** `e.find(tag)`: the first child with that name. */
  function FindChild(e: Element, tag: Tag): (r: Option<Element>)
    ensures r.Some? ==> r.value in e.children && r.value.tag == tag
    ensures r.None? ==> forall i :: 0 <= i < |e.children| ==> e.children[i].tag != tag
  {
    FirstWithTag(e.children, tag)
  }

  function FirstWithTag(es: seq<Element>, tag: Tag): (r: Option<Element>)
    ensures r.Some? ==> r.value in es && r.value.tag == tag
    ensures r.None? ==> forall i :: 0 <= i < |es| ==> es[i].tag != tag
  {
    if es == [] then None
    else if es[0].tag == tag then Some(es[0])
    else FirstWithTag(es[1..], tag)
  }

  /** `e.get('class') == 'func_g'` */
  predicate IsFuncG(e: Element) {
    "class" in e.attrs && e.attrs["class"] == "func_g"
  }

  /** The text of e's <title> child, when there is one and its text is not empty. */
  function TitleText(e: Element): (r: Option<string>)
    ensures r.Some? ==> r.value != []
  {
    match FindChild(e, Title)
    case Some(t) => if t.text.Some? && t.text.value != [] then t.text else None
    case None => None
  }

  /** `float(e.get(name, 0))`: 0 when the attribute is missing, an error when float() rejects it. */
  function NumberAttr(e: Element, name: string): (r: Result<real, ParseError>)
    ensures name !in e.attrs ==> r == Ok(0.0)
    ensures r.Err? ==> name in e.attrs && r.error == NotANumber(name, e.attrs[name])
  {
    if name !in e.attrs then Ok(0.0)
    else match ParseFloat(e.attrs[name])
      case Some(v) => Ok(v)
      case None => Err(NotANumber(name, e.attrs[name]))
  }

  /** A classic group's frame: its tooltip, read as a classic tooltip, and float() of the width
      and x of its <rect> child when it has one. No frame without a tooltip text; the error is
      the first attribute float() rejects, width before x. */
  function FrameFromG(g: Element): (r: Result<Option<Frame>, ParseError>)
    ensures r.Ok? ==> (r.value.Some? <==> TitleText(g).Some?)
    ensures r.Err? ==> TitleText(g).Some? && FindChild(g, Rect).Some?
    ensures r.Ok? && r.value.Some? ==>
      && r.value.value.info == FrameTitle(TitleText(g).value)
      && (r.value.value.width.Some? <==> FindChild(g, Rect).Some?)
      && r.value.value.x.Some? == r.value.value.width.Some?
      && r.value.value.y.None?
    ensures TitleText(g).Some? && FindChild(g, Rect).Some? ==>
      var width := NumberAttr(FindChild(g, Rect).value, "width");
      var x := NumberAttr(FindChild(g, Rect).value, "x");
      && (r.Err? <==> width.Err? || x.Err?)
      && (width.Err? ==> r == Err(width.error))
      && (width.Ok? && x.Err? ==> r == Err(x.error))
      && (r.Ok? ==> r.value.Some? && r.value.value.width == Some(width.value) && r.value.value.x == Some(x.value))
  {
    match TitleText(g)
    case None => Ok(None)
    case Some(text) =>
      var info := FrameTitle(text);
      match FindChild(g, Rect)
      case None => Ok(Some(Frame(info, None, None, None)))
      case Some(rect) =>
        match NumberAttr(rect, "width")
        case Err(e) => Err(e)
        case Ok(width) =>
          match NumberAttr(rect, "x")
          case Err(e) => Err(e)
          case Ok(x) => Ok(Some(Frame(info, Some(width), Some(x), None)))
  }

  /** A flameprof container's frame: the tooltip of its first inner <g>, read as a flameprof
      label, and float() of the container's own width, x and y. No frame without an inner
      tooltip text; the error is the first attribute float() rejects, in that order. */
  function FrameFromSvg(svg: Element): (r: Result<Option<Frame>, ParseError>)
    ensures var titled := FindChild(svg, G).Some? && TitleText(FindChild(svg, G).value).Some?;
      && (r.Ok? ==> (r.value.Some? <==> titled))
      && (r.Err? ==> titled)
      && (r.Ok? && r.value.Some? ==>
            && r.value.value.info == FlameprofTitle(TitleText(FindChild(svg, G).value).value)
            && r.value.value.width.Some? && r.value.value.x.Some? && r.value.value.y.Some?)
    ensures FindChild(svg, G).Some? && TitleText(FindChild(svg, G).value).Some? ==>
      var width := NumberAttr(svg, "width");
      var x := NumberAttr(svg, "x");
      var y := NumberAttr(svg, "y");
      && (r.Err? <==> width.Err? || x.Err? || y.Err?)
      && (width.Err? ==> r == Err(width.error))
      && (width.Ok? && x.Err? ==> r == Err(x.error))
      && (width.Ok? && x.Ok? && y.Err? ==> r == Err(y.error))
      && (r.Ok? ==> r.value.Some? && r.value.value.width == Some(width.value)
                    && r.value.value.x == Some(x.value) && r.value.value.y == Some(y.value))
  {
    match FindChild(svg, G)
    case None => Ok(None)
    case Some(g) =>
      match TitleText(g)
      case None => Ok(None)
      case Some(text) =>
        var info := FlameprofTitle(text);
        match NumberAttr(svg, "width")
        case Err(e) => Err(e)
        case Ok(width) =>
          match NumberAttr(svg, "x")
          case Err(e) => Err(e)
          case Ok(x) =>
            match NumberAttr(svg, "y")
            case Err(e) => Err(e)
            case Ok(y) => Ok(Some(Frame(info, Some(width), Some(x), Some(y))))
  }

  /** Adds what one element contributed to the frames collected so far; the first error stays. */
  function Then(acc: Result<seq<Frame>, ParseError>, x: Result<Option<Frame>, ParseError>): (r: Result<seq<Frame>, ParseError>)
    ensures r.Err? <==> acc.Err? || x.Err?
    ensures acc.Err? ==> r == acc
    ensures r.Ok? ==> acc.value <= r.value && |r.value| <= |acc.value| + 1
    ensures r.Ok? && x.value.Some? ==> r.value == acc.value + [x.value.value]
  {
    match acc
    case Err(_) => acc
    case Ok(fs) =>
      match x
      case Err(e) => Err(e)
      case Ok(None) => acc
      case Ok(Some(f)) => Ok(fs + [f])
  }

  /** What one element found by the search contributes: nothing unless it is a func_g. */
  function Contribution(e: Element, extract: Element -> Result<Option<Frame>, ParseError>): Result<Option<Frame>, ParseError>
  {
    if IsFuncG(e) then extract(e) else Ok(None)
  }

  /** The frames of the first n elements in document order, or the first error among them;
      each element adds at most one frame. */
  function Collect(es: seq<Element>, n: nat, extract: Element -> Result<Option<Frame>, ParseError>): (r: Result<seq<Frame>, ParseError>)
    requires n <= |es|
    ensures r.Ok? ==> |r.value| <= n
  {
    if n == 0 then Ok([]) else Then(Collect(es, n - 1, extract), Contribution(es[n - 1], extract))
  }

  /** The frames of all classic groups of the document. */
  function AllClassic(root: Element): Result<seq<Frame>, ParseError> {
    var gs := FindAll(root, G);
    Collect(gs, |gs|, FrameFromG)
  }

  /** The frames of all flameprof containers of the document. */
  function AllFlameprof(root: Element): Result<seq<Frame>, ParseError> {
    var svgs := FindAll(root, Svg);
    Collect(svgs, |svgs|, FrameFromSvg)
  }

  /** The ranking key: the percentage, or 0 when the tooltip gave none. */
  function PercentKey(f: Frame): real {
    f.info.percentage.GetOr(0.0)
  }

  /** What parsing a document yields: the classic frames followed by the flameprof frames,
      stably sorted by decreasing percentage; or the first attribute float() rejects. */
  function ParseTree(root: Element): (r: Result<seq<Frame>, ParseError>)
    ensures r.Ok? ==> Descending(r.value, PercentKey)
    ensures r.Ok? <==> AllClassic(root).Ok? && AllFlameprof(root).Ok?
    ensures r.Ok? ==> multiset(r.value) == multiset(AllClassic(root).value + AllFlameprof(root).value)
  {
    match AllClassic(root)
    case Err(e) => Err(e)
    case Ok(a) =>
      match AllFlameprof(root)
      case Err(e) => Err(e)
      case Ok(b) => Ok(SortDesc(a + b, PercentKey))
  }

  /** Ties keep discovery order: among frames of equal percentage, the classic frames come
      first and each dialect's frames keep their document order. */
  lemma ParseTreeStable(root: Element, k: real)
    requires ParseTree(root).Ok?
    ensures WithKey(ParseTree(root).value, PercentKey, k)
            == WithKey(AllClassic(root).value, PercentKey, k) + WithKey(AllFlameprof(root).value, PercentKey, k)
  {
    var a := AllClassic(root).value;
    var b := AllFlameprof(root).value;
    SortDescStable(a + b, PercentKey, k);
    WithKeyAppend(a, b, PercentKey, k);
  }

  /** A collection fails exactly when one of the func_g elements fails. */
  lemma {:induction false} CollectFailsIff(es: seq<Element>, n: nat, extract: Element -> Result<Option<Frame>, ParseError>)
    requires n <= |es|
    ensures Collect(es, n, extract).Err? <==> exists i :: 0 <= i < n && IsFuncG(es[i]) && extract(es[i]).Err?
  {
    if n > 0 {
      CollectFailsIff(es, n - 1, extract);
      if IsFuncG(es[n - 1]) && extract(es[n - 1]).Err? {
        assert 0 <= n - 1 < n && IsFuncG(es[n - 1]) && extract(es[n - 1]).Err?;
      }
    }
  }

  /** A successful collection holds exactly the frames its func_g elements yield: each
      collected frame comes from one of the first n elements, and every frame one of them
      yields is collected. */
  lemma {:induction false} CollectContents(es: seq<Element>, n: nat, extract: Element -> Result<Option<Frame>, ParseError>)
    requires n <= |es|
    requires Collect(es, n, extract).Ok?
    ensures forall f :: f in Collect(es, n, extract).value ==>
              exists i :: 0 <= i < n && Contribution(es[i], extract) == Ok(Some(f))
    ensures forall i :: 0 <= i < n && Contribution(es[i], extract).Ok? && Contribution(es[i], extract).value.Some? ==>
              Contribution(es[i], extract).value.value in Collect(es, n, extract).value
  {
    if n > 0 {
      var before := Collect(es, n - 1, extract);
      var x := Contribution(es[n - 1], extract);
      CollectContents(es, n - 1, extract);
      var fs := Collect(es, n, extract).value;
      assert fs == before.value + (if x.value.Some? then [x.value.value] else []);
      forall f | f in fs
        ensures exists i :: 0 <= i < n && Contribution(es[i], extract) == Ok(Some(f))
      {
        if f !in before.value {
          assert Contribution(es[n - 1], extract) == Ok(Some(f));
        }
      }
    }
  }

  /** Once an element fails, the collection keeps that error whatever follows. */
  lemma {:induction false} CollectErrorSticks(es: seq<Element>, n: nat, m: nat, extract: Element -> Result<Option<Frame>, ParseError>)
    requires n <= m <= |es|
    requires Collect(es, n, extract).Err?
    ensures Collect(es, m, extract) == Collect(es, n, extract)
    decreases m - n
  {
    if n < m {
      CollectErrorSticks(es, n, m - 1, extract);
    }
  }

  /** One pass of the parser over the elements a search found: each func_g element's frame,
      if any, is appended, and the first error ends the pass. */
  method CollectFrames(es: seq<Element>, extract: Element -> Result<Option<Frame>, ParseError>)
    returns (r: Result<seq<Frame>, ParseError>)
    ensures r == Collect(es, |es|, extract)
  {
    var found: seq<Frame> := [];
    var i := 0;
    while i < |es|
      invariant 0 <= i <= |es|
      invariant Collect(es, i, extract) == Ok(found)
    {
      if IsFuncG(es[i]) {
        var extracted := extract(es[i]);
        if extracted.Err? {
          CollectErrorSticks(es, i + 1, |es|, extract);
          return Err(extracted.error);
        }
        if extracted.value.Some? {
          found := found + [extracted.value.value];
        }
      }
      i := i + 1;
    }
    r := Ok(found);
  }

  /** Holds the frames of the last successful parse, as the parser object does. */
  class FlamegraphParser {
    var frames: seq<Frame>

    constructor ()
      ensures frames == []
    {
      frames := [];
    }

    /** Collects the classic groups' frames, then the flameprof containers' frames, then ranks
        them. A failing attribute aborts the parse and leaves the frames of the previous parse. */
    method Parse(root: Element) returns (r: Result<seq<Frame>, ParseError>)
      modifies this
      ensures r == ParseTree(root)
      ensures r.Ok? ==> frames == r.value
      ensures r.Err? ==> frames == old(frames)
    {
      var classic := CollectFrames(FindAll(root, G), FrameFromG);
      if classic.Err? {
        return Err(classic.error);
      }
      var flameprof := CollectFrames(FindAll(root, Svg), FrameFromSvg);
      if flameprof.Err? {
        return Err(flameprof.error);
      }
      frames := SortDesc(classic.value + flameprof.value, PercentKey);
      r := Ok(frames);
    }
  }
}

=== FILE: frame_titles.dfy ===
/** The two tooltip dialects a flame-graph SVG carries in its <title> elements: the
    "name / N samples, P%" tooltip of classic flame graphs and the one-line
    "file:line:function P% (calls primitive own cumulative)" label flameprof writes. */
module FrameTitles {
  import opened Wrappers
  import opened Text

  /** What a tooltip yields. An absent field is one the parser never sets for that title. */
  datatype TitleInfo = TitleInfo(
    rawTitle: string,
    funcName: string,
    samples: Option<string>,
    percentage: Option<real>,
    filename: Option<string>,
    line: Option<string>,
    calls: Option<string>,
    ownTime: Option<string>,
    cumTime: Option<string>)

  // ---------------------------------------------------------------------------
  // The regular expressions, as scanners

  predicate DigitOrComma(c: char) { IsDigit(c) || c == ',' }

  /** Text the pattern [\d,]+\.?\d* can produce after its commas are removed. */
  predicate SampleText(v: string) { forall k :: 0 <= k < |v| ==> IsDigit(v[k]) || v[k] == '.' }

  /** The end of the greedy match of [\d,]+\.?\d* that starts at i. */
  function NumberEnd(s: string, i: nat): (k: nat)
    requires i < |s| && DigitOrComma(s[i])
    ensures i < k <= |s|
    ensures forall m :: i <= m < k ==> DigitOrComma(s[m]) || s[m] == '.'
  {
    var j := SpanEnd(s, i, DigitOrComma);
    if j < |s| && s[j] == '.' then SpanEnd(s, j + 1, IsDigit) else j
  }

  /** re.findall(r'[\d,]+\.?\d*', s)[0] looked for from position i: the leftmost match. */
  function FirstNumber(s: string, i: nat): (r: Option<string>)
    requires i <= |s|
    ensures r.Some? ==> r.value != [] && forall k :: 0 <= k < |r.value| ==> DigitOrComma(r.value[k]) || r.value[k] == '.'
    decreases |s| - i
  {
    if i == |s| then None
    else if DigitOrComma(s[i]) then Some(s[i..NumberEnd(s, i)])
    else FirstNumber(s, i + 1)
  }

  /** The group of (\d+\.?\d*)% when the match starts exactly at i. */
  function PercentAt(s: string, i: nat): Option<string>
    requires i <= |s|
  {
    var j := SpanEnd(s, i, IsDigit);
    if j == i || j == |s| then None
    else if s[j] == '%' then Some(s[i..j])
    else if s[j] != '.' then None
    else
      var k := SpanEnd(s, j + 1, IsDigit);
      if k < |s| && s[k] == '%' then Some(s[i..k]) else None
  }

  /** re.search(r'(\d+\.?\d*)%', s) from position i: the group of the leftmost match. */
  function SearchPercent(s: string, i: nat): Option<string>
    requires i <= |s|
    decreases |s| - i
  {
    if i == |s| then None
    else if PercentAt(s, i).Some? then PercentAt(s, i)
    else SearchPercent(s, i + 1)
  }

  /** The group of \(([^)]+)\) when the match starts at the '(' at q. */
  function ParenAt(s: string, q: nat): Option<string>
    requires q < |s|
  {
    var j := SpanEnd(s, q + 1, c => c != ')');
    if s[q] == '(' && q + 1 < j < |s| then Some(s[q + 1..j]) else None
  }

  /** re.search(r'\(([^)]+)\)', s) from position i: the group of the leftmost match. */
  function ParenGroup(s: string, i: nat): Option<string>
    requires i <= |s|
    decreases |s| - i
  {
    if i == |s| then None
    else if ParenAt(s, i).Some? then ParenAt(s, i)
    else ParenGroup(s, i + 1)
  }

  // ---------------------------------------------------------------------------
  // Classic tooltips: the first line names the frame, later lines carry the counts

  /** `'samples' in line or 'ms' in line` */
  predicate MentionsSamples(line: string) { Contains(line, "samples") || Contains(line, "ms") }

  /** The sample count one tooltip line sets: its first number with the commas dropped. */
  function LineSamples(line: string): (r: Option<string>)
    ensures r.Some? ==> MentionsSamples(line) && SampleText(r.value)
  {
    if !MentionsSamples(line) then None
    else match FirstNumber(line, 0)
      case Some(n) =>
        assert forall k :: 0 <= k < |RemoveChar(n, ',')| ==> RemoveChar(n, ',')[k] in n;
        Some(RemoveChar(n, ','))
      case None => None
  }

  /** The percentage one tooltip line sets: the number in front of its first '%'. */
  function LinePercentage(line: string): (r: Option<real>)
    ensures r.Some? ==> MentionsSamples(line) && r.value >= 0.0
  {
    if !MentionsSamples(line) then None
    else match SearchPercent(line, 0)
      case Some(g) => Some(DecimalValue(g))
      case None => None
  }

  /** The sample count left after reading the first n lines: the last of them that sets one wins. */
  function LastSamples(lines: seq<string>, n: nat): (r: Option<string>)
    requires n <= |lines|
    ensures r.Some? ==> SampleText(r.value)
  {
    if n == 0 then None
    else if LineSamples(lines[n - 1]).Some? then LineSamples(lines[n - 1])
    else LastSamples(lines, n - 1)
  }

  /** The percentage left after reading the first n lines: the last of them that sets one wins. */
  function LastPercentage(lines: seq<string>, n: nat): (r: Option<real>)
    requires n <= |lines|
    ensures r.Some? ==> r.value >= 0.0
  {
    if n == 0 then None
    else if LinePercentage(lines[n - 1]).Some? then LinePercentage(lines[n - 1])
    else LastPercentage(lines, n - 1)
  }

  /** What a classic tooltip yields: the stripped first line as the frame name, and the
      count and percentage from the last of the later lines that mention samples or ms. */
  function FrameTitle(title: string): (info: TitleInfo)
    ensures info.rawTitle == title
    ensures info.funcName == [] || (!IsSpace(info.funcName[0]) && !IsSpace(info.funcName[|info.funcName| - 1]))
    ensures info.samples.Some? ==> SampleText(info.samples.value)
    ensures info.percentage.Some? ==> info.percentage.value >= 0.0
    ensures info.filename.None? && info.line.None? && info.calls.None? && info.ownTime.None? && info.cumTime.None?
  {
    var lines := StrippedLines(title);
    var rest := lines[1..];
    TitleInfo(title, Strip(lines[0]), LastSamples(rest, |rest|), LastPercentage(rest, |rest|), None, None, None, None, None)
  }

  /** The parser's reading of a classic tooltip. */
  method ParseFrameTitle(title: string) returns (info: TitleInfo)
    ensures info == FrameTitle(title)
  {
    var lines := Split(Strip(title), '\n');
    var samples, percentage := ReadTooltipLines(lines[1..]);
    info := TitleInfo(title, Strip(lines[0]), samples, percentage, None, None, None, None, None);
  }

  /** The loop over the lines after the first, each qualifying line overwriting what the
      earlier ones set. */
  method ReadTooltipLines(rest: seq<string>) returns (samples: Option<string>, percentage: Option<real>)
    ensures samples == LastSamples(rest, |rest|)
    ensures percentage == LastPercentage(rest, |rest|)
  {
    samples, percentage := None, None;
    var i := 0;
    while i < |rest|
      invariant 0 <= i <= |rest|
      invariant samples == LastSamples(rest, i)
      invariant percentage == LastPercentage(rest, i)
    {
      samples, percentage := ReadTooltipLine(rest[i], samples, percentage);
      i := i + 1;
    }
  }

  /** One pass of the loop: a line that mentions samples or ms overwrites the count when it
      has a number and the percentage when it has a match of the percentage pattern. */
  method ReadTooltipLine(line: string, samples: Option<string>, percentage: Option<real>)
    returns (samples': Option<string>, percentage': Option<real>)
    ensures samples' == if LineSamples(line).Some? then LineSamples(line) else samples
    ensures percentage' == if LinePercentage(line).Some? then LinePercentage(line) else percentage
  {
    samples', percentage' := samples, percentage;
    if MentionsSamples(line) {
      var numbers := FirstNumber(line, 0);
      if numbers.Some? {
        samples' := Some(RemoveChar(numbers.value, ','));
      }
      var percentMatch := SearchPercent(line, 0);
      if percentMatch.Some? {
        percentage' := Some(DecimalValue(percentMatch.value));
      }
    }
  }

  // ---------------------------------------------------------------------------
  // flameprof labels

  /** What a flameprof label yields. The text before the first space is a location
      file:line:function when it has at least two colons (the file keeps any colons of its
      own); the percentage is the first number followed by '%'; the parenthesised group,
      when it has at least four fields, gives the calls, the own time and the cumulative time.
      A token with fewer than two colons is the function name itself, with no file or line;
      without a group of four fields no timing is set. */
  function FlameprofTitle(title: string): (info: TitleInfo)
    ensures info.rawTitle == title && info.samples.None?
    ensures info.filename.Some? <==> info.line.Some?
    ensures info.calls.Some? <==> info.ownTime.Some?
    ensures info.calls.Some? <==> info.cumTime.Some?
    ensures info.line.Some? ==> ':' !in info.line.value && ':' !in info.funcName
    ensures info.calls.Some? ==> info.calls.value != [] && NoSpace(info.calls.value)
    ensures info.percentage.Some? ==> info.percentage.value >= 0.0
    ensures info.percentage.Some? <==> SearchPercent(title, 0).Some?
    ensures var token := Split(title, ' ')[0];
            |Split(token, ':')| < 3 ==> info.funcName == token && info.filename.None?
    ensures info.calls.Some? <==> ParenGroup(title, 0).Some? && |Words(ParenGroup(title, 0).value)| >= 4
  {
    var token := Split(title, ' ')[0];
    var parts := Split(token, ':');
    var located := |parts| >= 3;
    var fields := match ParenGroup(title, 0) case Some(g) => Words(g) case None => [];
    var timed := |fields| >= 4;
    TitleInfo(
      title,
      if located then parts[|parts| - 1] else token,
      None,
      match SearchPercent(title, 0) case Some(g) => Some(DecimalValue(g)) case None => None,
      if located then Some(Join(parts[..|parts| - 2], ':')) else None,
      if located then Some(parts[|parts| - 2]) else None,
      if timed then Some(fields[0]) else None,
      if timed then Some(fields[2]) else None,
      if timed then Some(fields[3]) else None)
  }

  // ---------------------------------------------------------------------------
  // Scanning lemmas

  /** No match of (\d+\.?\d*)% starts at q when a character that is neither a digit nor a
      point comes at e, with no '%' from q up to e. */
  lemma PercentAtNone(s: string, q: nat, e: nat)
    requires q <= e < |s|
    requires forall m :: q <= m <= e ==> s[m] != '%'
    requires !IsDigit(s[e]) && s[e] != '.'
    ensures PercentAt(s, q) == None
  {
    var j := SpanEnd(s, q, IsDigit);
    assert j <= e;
    if j != q && s[j] == '.' {
      var k := SpanEnd(s, j + 1, IsDigit);
      assert k <= e;
    }
  }

  /** A percentage whose digits come right at q is captured whole. */
  lemma PercentAtShape(s: string, q: nat, p: string)
    requires DecimalShape(p)
    requires q + |p| < |s| && s[q..q + |p|] == p && s[q + |p|] == '%'
    ensures PercentAt(s, q) == Some(p)
  {
    var j := SpanEnd(s, q, IsDigit);
    assert forall m :: 0 <= m < |p| ==> s[q + m] == p[m];
    if '.' in p {
      var d :| 0 <= d < |p| && p[d] == '.';
      assert forall m :: 0 <= m < d ==> IsDigit(p[m]);
      assert forall m :: d < m < |p| ==> IsDigit(p[m]);
      assert j == q + d;
      var k := SpanEnd(s, j + 1, IsDigit);
      assert k == q + |p|;
    } else {
      assert forall m :: 0 <= m < |p| ==> IsDigit(p[m]);
      assert j == q + |p|;
    }
  }

  /** Positions where no match starts are passed over. */
  lemma {:induction false} SearchPercentSkip(s: string, i: nat, n: nat)
    requires i <= n <= |s|
    requires forall q :: i <= q < n ==> PercentAt(s, q) == None
    ensures SearchPercent(s, i) == SearchPercent(s, n)
    decreases n - i
  {
    if i < n {
      SearchPercentSkip(s, i + 1, n);
    }
  }

  /** The first percentage wins: in a + p + "%" + b, where a has no '%' and does not end in
      a digit or a point, the search captures exactly p. */
  lemma FirstPercentWins(a: string, p: string, b: string)
    requires '%' !in a
    requires a == [] || (!IsDigit(a[|a| - 1]) && a[|a| - 1] != '.')
    requires DecimalShape(p)
    ensures SearchPercent(a + p + "%" + b, 0) == Some(p)
  {
    var s := a + p + "%" + b;
    assert s[|a|..|a| + |p|] == p && s[|a| + |p|] == '%';
    forall q | 0 <= q < |a|
      ensures PercentAt(s, q) == None
    {
      assert forall m :: q <= m < |a| ==> s[m] == a[m];
      PercentAtNone(s, q, |a| - 1);
    }
    SearchPercentSkip(s, 0, |a|);
    PercentAtShape(s, |a|, p);
  }

  /** Positions where no parenthesised group starts are passed over. */
  lemma {:induction false} ParenGroupSkip(s: string, i: nat, n: nat)
    requires i <= n <= |s|
    requires forall q :: i <= q < n ==> s[q] != '('
    ensures ParenGroup(s, i) == ParenGroup(s, n)
    decreases n - i
  {
    if i < n {
      ParenGroupSkip(s, i + 1, n);
    }
  }

  // ---------------------------------------------------------------------------
  // Round trips: the labels the two tools write are read back field by field

  /** The tooltip a classic flame graph writes: the frame name, then its count and share. */
  function ClassicTooltip(name: string, count: nat, pct: string): string
  {
    name + "\n" + NatToString(count) + " samples, " + pct + "%"
  }

  lemma ClassicLineSamples(count: nat, pct: string)
    requires DecimalShape(pct)
    ensures LineSamples(NatToString(count) + " samples, " + pct + "%") == Some(NatToString(count))
    ensures LinePercentage(NatToString(count) + " samples, " + pct + "%") == Some(DecimalValue(pct))
  {
    var n := NatToString(count);
    var a := n + " samples, ";
    var line := a + pct + "%";
    CountLineFirst(n, pct, line);
    assert ',' !in n;
    FirstPercentWins(a, pct, "");
    assert line == a + pct + "%" + "";
  }

  /** The count line mentions samples and starts with its count. */
  lemma CountLineFirst(n: string, pct: string, line: string)
    requires n != [] && AllDigits(n) && line == n + " samples, " + pct + "%"
    ensures Contains(line, "samples") && FirstNumber(line, 0) == Some(n)
  {
    assert line[|n| + 1..|n| + 8] == "samples";
    ContainsAt(line, |n| + 1, "samples");
    assert DigitOrComma(line[0]);
    var j := SpanEnd(line, 0, DigitOrComma);
    assert !DigitOrComma(line[|n|]);
    assert j == |n|;
    assert line[..|n|] == n;
  }

  /** A classic tooltip is read back as its name, its count (which float() accepts as the
      same number) and its share. */
  lemma ClassicTooltipRoundTrip(name: string, count: nat, pct: string)
    requires name != [] && !IsSpace(name[0]) && !IsSpace(name[|name| - 1]) && '\n' !in name
    requires DecimalShape(pct)
    ensures FrameTitle(ClassicTooltip(name, count, pct)).funcName == name
    ensures FrameTitle(ClassicTooltip(name, count, pct)).samples == Some(NatToString(count))
    ensures ParseFloat(NatToString(count)) == Some(count as real)
    ensures FrameTitle(ClassicTooltip(name, count, pct)).percentage == Some(DecimalValue(pct))
  {
    var line := NatToString(count) + " samples, " + pct + "%";
    ClassicTooltipLines(name, count, pct);
    TwoLineTitle(ClassicTooltip(name, count, pct), name, line);
    ClassicLineSamples(count, pct);
    ParseFloatOfNatToString(count);
  }

  /** A tooltip of two lines is named by its first and counted by its second. */
  lemma TwoLineTitle(title: string, name: string, line: string)
    requires StrippedLines(title) == [name, line]
    requires name != [] && !IsSpace(name[0]) && !IsSpace(name[|name| - 1])
    ensures FrameTitle(title).funcName == name
    ensures FrameTitle(title).samples == LineSamples(line)
    ensures FrameTitle(title).percentage == LinePercentage(line)
  {
    StripUnchanged(name);
    var rest := StrippedLines(title)[1..];
    assert |rest| == 1 && rest[0] == line;
    assert LastSamples(rest, 1) == LineSamples(line);
    assert LastPercentage(rest, 1) == LinePercentage(line);
  }

  /** A classic tooltip has two lines: the name and the count line. */
  lemma ClassicTooltipLines(name: string, count: nat, pct: string)
    requires name != [] && !IsSpace(name[0]) && '\n' !in name
    requires DecimalShape(pct)
    ensures StrippedLines(ClassicTooltip(name, count, pct)) == [name, NatToString(count) + " samples, " + pct + "%"]
  {
    var line := NatToString(count) + " samples, " + pct + "%";
    var title := ClassicTooltip(name, count, pct);
    CountLineShape(count, pct, line);
    assert title == name + ['\n'] + line;
    StripTwo(title, name, line);
    SplitTwo(title, name, line);
  }

  /** Two pieces joined by a line break, the first starting with a non-blank and the second
      ending with '%', are left alone by strip(). */
  lemma StripTwo(title: string, a: string, b: string)
    requires title == a + ['\n'] + b && a != [] && !IsSpace(a[0]) && b != [] && b[|b| - 1] == '%'
    ensures Strip(title) == title
  {
    assert title[0] == a[0] && title[|title| - 1] == '%';
    StripUnchanged(title);
  }

  /** The count line of a classic tooltip has no line break and ends with '%'. */
  lemma CountLineShape(count: nat, pct: string, line: string)
    requires DecimalShape(pct) && line == NatToString(count) + " samples, " + pct + "%"
    ensures '\n' !in line && line != [] && line[|line| - 1] == '%'
  {
    assert forall m :: 0 <= m < |line| ==> line[m] != '\n';
  }

  /** Two pieces without a line break, joined by one, split back into the two. */
  lemma SplitTwo(title: string, a: string, b: string)
    requires title == a + ['\n'] + b && '\n' !in a && '\n' !in b
    ensures Split(title, '\n') == [a, b]
  {
    SplitConcat(a, b, '\n');
    SplitNoSep(a, '\n');
    SplitNoSep(b, '\n');
  }

  /** The documented example: the tooltip "foo", "120 samples, 12.34%" is the classic tooltip
      of name "foo", count 120 and share "12.34", so by ClassicTooltipRoundTrip it reads back
      as "foo", "120" and 12.34. */
  lemma ClassicTooltipExample()
    ensures DecimalShape("12.34") && DecimalValue("12.34") == 12.34
    ensures NatToString(120) == "120"
    ensures ClassicTooltip("foo", 120, "12.34") == "foo\n120 samples, 12.34%"
  {
    ExampleShare();
    ExampleCount();
    ExampleText();
  }

  lemma ExampleText()
    ensures ClassicTooltip("foo", 120, "12.34") == "foo\n120 samples, 12.34%"
  {
    ExampleCount();
  }

  lemma ExampleCount()
    ensures NatToString(120) == "120"
  {
    assert NatToString(1) == "1";
    assert NatToString(12) == "12";
  }

  lemma ExampleShare()
    ensures DecimalShape("12.34") && DecimalValue("12.34") == 12.34
  {
    var g := "12.34";
    assert SpanEnd(g, 0, IsDigit) == 2;
    assert SpanEnd(g, 3, IsDigit) == 5;
    assert g[..2] == "12" && g[3..5] == "34";
    ExampleDigits();
    assert Pow10(2) == 100;
  }

  lemma ExampleDigits()
    ensures DigitsValue("12") == 12 && DigitsValue("34") == 34
  {
    assert DigitsValue("1") == 1 && DigitsValue("3") == 3;
  }

  /** The label flameprof writes for one call site. */
  function FlameprofLabel(file: string, line: string, func: string, pct: string,
                          calls: string, primitive: string, own: string, cumulative: string): string
  {
    file + ":" + line + ":" + func + " " + pct + "% (" + calls + " " + primitive + " " + own + " " + cumulative + ")"
  }

  /** A timing field: a non-empty run of non-blank characters without ')'. */
  predicate TimingField(w: string) { w != [] && NoSpace(w) && ')' !in w }

  /** The location before the first space splits back into file, line and function. */
  lemma LocationRoundTrip(file: string, line: string, func: string, rest: string)
    requires ':' !in line && ':' !in func
    requires ' ' !in file && ' ' !in line && ' ' !in func
    ensures var parts := Split(Split(file + ":" + line + ":" + func + " " + rest, ' ')[0], ':');
      |parts| >= 3 && parts[|parts| - 1] == func && parts[|parts| - 2] == line
      && Join(parts[..|parts| - 2], ':') == file
  {
    var token := file + ":" + line + ":" + func;
    assert ' ' !in token by {
      assert forall m :: 0 <= m < |token| ==> token[m] != ' ';
    }
    assert token + " " + rest == token + [' '] + rest;
    SplitConcat(token, rest, ' ');
    SplitNoSep(token, ' ');
    assert token == file + [':'] + (line + [':'] + func);
    SplitConcat(file, line + [':'] + func, ':');
    SplitConcat(line, func, ':');
    SplitNoSep(line, ':');
    SplitNoSep(func, ':');
    var parts := Split(token, ':');
    assert parts == Split(file, ':') + [line, func];
    assert parts[..|parts| - 2] == Split(file, ':');
    JoinSplit(file, ':');
  }

  /** The first parenthesised group is the text between the first '(' and the ')' after it. */
  lemma ParenRoundTrip(head: string, g: string)
    requires '(' !in head && ')' !in g && g != []
    ensures ParenGroup(head + "(" + g + ")", 0) == Some(g)
  {
    var s := head + "(" + g + ")";
    assert forall q :: 0 <= q < |head| ==> s[q] != '(';
    ParenGroupSkip(s, 0, |head|);
    var j := SpanEnd(s, |head| + 1, c => c != ')');
    assert forall m :: 0 <= m < |g| ==> s[|head| + 1 + m] == g[m];
    assert s[|head| + 1 + |g|] == ')';
    assert j == |head| + 1 + |g|;
    assert s[|head| + 1..j] == g;
  }

  /** Four timing fields joined by blanks split back into the same four. */
  lemma TimingWords(calls: string, primitive: string, own: string, cumulative: string)
    requires TimingField(calls) && TimingField(primitive) && TimingField(own) && TimingField(cumulative)
    ensures Words(calls + " " + primitive + " " + own + " " + cumulative) == [calls, primitive, own, cumulative]
  {
    var t3 := own + " " + cumulative;
    var t2 := primitive + " " + t3;
    var t1 := calls + " " + t2;
    BlankJoinRegroup(calls, primitive, own, cumulative);
    WordsSingle(cumulative);
    WordsConsAt(t3, own, cumulative, [cumulative], [own, cumulative]);
    WordsConsAt(t2, primitive, t3, [own, cumulative], [primitive, own, cumulative]);
    WordsConsAt(t1, calls, t2, [primitive, own, cumulative], [calls, primitive, own, cumulative]);
  }

  /** WordsCons on named parts. */
  lemma WordsConsAt(s: string, w: string, rest: string, ws: seq<string>, all: seq<string>)
    requires w != [] && NoSpace(w) && s == w + " " + rest
    requires Words(rest) == ws && all == [w] + ws
    ensures Words(s) == all
  {
    WordsCons(w, rest);
  }

  lemma BlankJoinRegroup(a: string, b: string, c: string, d: string)
    ensures a + " " + b + " " + c + " " + d == a + " " + (b + " " + (c + " " + d))
  { }

  /** A label whose location has no '%' reads back the percentage written after it. */
  lemma FlameprofPercent(token: string, pct: string, rest: string)
    requires ' ' !in token && '%' !in token
    requires DecimalShape(pct)
    ensures FlameprofTitle(token + " " + pct + "%" + rest).percentage == Some(DecimalValue(pct))
  {
    FirstPercentWins(token + " ", pct, rest);
    assert token + " " + pct + "%" + rest == (token + " ") + pct + "%" + rest;
  }

  /** A label whose text before the group has no '(' reads back the four timing fields. */
  lemma FlameprofTiming(head: string, calls: string, primitive: string, own: string, cumulative: string)
    requires '(' !in head
    requires TimingField(calls) && TimingField(primitive) && TimingField(own) && TimingField(cumulative)
    ensures var info := FlameprofTitle(head + "(" + calls + " " + primitive + " " + own + " " + cumulative + ")");
      info.calls == Some(calls) && info.ownTime == Some(own) && info.cumTime == Some(cumulative)
  {
    var g := calls + " " + primitive + " " + own + " " + cumulative;
    assert ')' !in g;
    assert head + "(" + calls + " " + primitive + " " + own + " " + cumulative + ")" == head + "(" + g + ")";
    ParenRoundTrip(head, g);
    TimingWords(calls, primitive, own, cumulative);
  }

  lemma LabelLocation(file: string, line: string, func: string, pct: string,
                      calls: string, primitive: string, own: string, cumulative: string)
    requires ':' !in line && ':' !in func
    requires ' ' !in file && ' ' !in line && ' ' !in func
    ensures var info := FlameprofTitle(FlameprofLabel(file, line, func, pct, calls, primitive, own, cumulative));
      info.funcName == func && info.filename == Some(file) && info.line == Some(line)
  {
    var rest := pct + "% (" + calls + " " + primitive + " " + own + " " + cumulative + ")";
    var title := FlameprofLabel(file, line, func, pct, calls, primitive, own, cumulative);
    assert title == file + ":" + line + ":" + func + " " + rest;
    var parts := Split(Split(title, ' ')[0], ':');
    TitleParts(title, parts, file, line, func, rest);
    FlameprofLocation(title, parts);
  }

  /** LocationRoundTrip on named parts. */
  lemma TitleParts(title: string, parts: seq<string>, file: string, line: string, func: string, rest: string)
    requires ':' !in line && ':' !in func
    requires ' ' !in file && ' ' !in line && ' ' !in func
    requires title == file + ":" + line + ":" + func + " " + rest
    requires parts == Split(Split(title, ' ')[0], ':')
    ensures |parts| >= 3 && parts[|parts| - 1] == func && parts[|parts| - 2] == line
    ensures Join(parts[..|parts| - 2], ':') == file
  {
    LocationRoundTrip(file, line, func, rest);
  }

  /** A title whose first word has at least three ':'-separated parts is located by them. */
  lemma FlameprofLocation(title: string, parts: seq<string>)
    requires parts == Split(Split(title, ' ')[0], ':') && |parts| >= 3
    ensures FlameprofTitle(title).funcName == parts[|parts| - 1]
    ensures FlameprofTitle(title).filename == Some(Join(parts[..|parts| - 2], ':'))
    ensures FlameprofTitle(title).line == Some(parts[|parts| - 2])
  {
  }

  lemma LabelPercent(file: string, line: string, func: string, pct: string,
                     calls: string, primitive: string, own: string, cumulative: string)
    requires ' ' !in file && ' ' !in line && ' ' !in func
    requires '%' !in file && '%' !in line && '%' !in func
    requires DecimalShape(pct)
    ensures FlameprofTitle(FlameprofLabel(file, line, func, pct, calls, primitive, own, cumulative)).percentage
            == Some(DecimalValue(pct))
  {
    var token := file + ":" + line + ":" + func;
    var rest := " (" + calls + " " + primitive + " " + own + " " + cumulative + ")";
    assert FlameprofLabel(file, line, func, pct, calls, primitive, own, cumulative)
        == token + " " + pct + "%" + rest;
    FlameprofPercent(token, pct, rest);
  }

  lemma LabelTiming(file: string, line: string, func: string, pct: string,
                    calls: string, primitive: string, own: string, cumulative: string)
    requires '(' !in file && '(' !in line && '(' !in func
    requires DecimalShape(pct)
    requires TimingField(calls) && TimingField(primitive) && TimingField(own) && TimingField(cumulative)
    ensures var info := FlameprofTitle(FlameprofLabel(file, line, func, pct, calls, primitive, own, cumulative));
      info.calls == Some(calls) && info.ownTime == Some(own) && info.cumTime == Some(cumulative)
  {
    var head := file + ":" + line + ":" + func + " " + pct + "% ";
    assert '(' !in pct by {
      assert forall m :: 0 <= m < |pct| ==> pct[m] != '(';
    }
    assert FlameprofLabel(file, line, func, pct, calls, primitive, own, cumulative)
        == head + "(" + calls + " " + primitive + " " + own + " " + cumulative + ")";
    FlameprofTiming(head, calls, primitive, own, cumulative);
  }

  /** A flameprof label is read back as the location, the percentage and the timings it was
      written from. */
  lemma FlameprofRoundTrip(file: string, line: string, func: string, pct: string,
                           calls: string, primitive: string, own: string, cumulative: string)
    requires ':' !in line && ':' !in func
    requires ' ' !in file && ' ' !in line && ' ' !in func
    requires '%' !in file && '%' !in line && '%' !in func
    requires '(' !in file && '(' !in line && '(' !in func
    requires DecimalShape(pct)
    requires TimingField(calls) && TimingField(primitive) && TimingField(own) && TimingField(cumulative)
    ensures var info := FlameprofTitle(FlameprofLabel(file, line, func, pct, calls, primitive, own, cumulative));
      && info.funcName == func && info.filename == Some(file) && info.line == Some(line)
      && info.percentage == Some(DecimalValue(pct))
      && info.calls == Some(calls) && info.ownTime == Some(own) && info.cumTime == Some(cumulative)
  {
    LabelLocation(file, line, func, pct, calls, primitive, own, cumulative);
    LabelPercent(file, line, func, pct, calls, primitive, own, cumulative);
    LabelTiming(file, line, func, pct, calls, primitive, own, cumulative);
  }
}

=== FILE: language.dfy ===
/** Language detection and the choice of a flame-graph generator (tools/autoflame.py). */
module Language {
  import opened Wrappers
  import opened Text

  /** The extension table. Keys are compared exactly, so ".PY" is not ".py"; both ".r" and ".R" mean R. */
  const Extensions: map<string, string> := map[
    ".py" := "python", ".go" := "golang", ".rs" := "rust", ".js" := "javascript",
    ".ts" := "typescript", ".java" := "java", ".c" := "c", ".cpp" := "cpp", ".rb" := "ruby",
    ".php" := "php", ".swift" := "swift", ".kt" := "kotlin", ".scala" := "scala",
    ".jl" := "julia", ".r" := "r", ".R" := "r"]

  /** pathlib's suffix: the final name's text from its last '.', when that dot is neither the
      name's first nor its last character; otherwise empty. */
  function Suffix(path: string): (r: string)
    ensures var name := BaseName(path);
            r == [] <==> |name| < 3 || name[|name| - 1] == '.' || '.' !in name[1..|name| - 1]
    ensures var name := BaseName(path);
            r != [] ==> 2 <= |r| < |name| && r[0] == '.' && '.' !in r[1..] && r == name[|name| - |r|..]
  {
    var name := BaseName(path);
    match LastIndexOf(name, '.')
    case None => ""
    case Some(i) =>
      if 0 < i < |name| - 1 then name[i..]
      else
        assert |name| >= 3 && i == 0 ==> '.' !in name[1..|name| - 1] by {
          if |name| >= 3 && i == 0 {
            assert name[1..|name| - 1] == name[i + 1..][..|name| - 2];
          }
        }
        ""
  }

  /** The languages a shebang can name. */
  const ShebangLanguages: set<string> := {"python", "javascript", "ruby", "php"}

  /** The shebang rule: a stripped first line starting with "#!" names python, node, ruby or
      php, tried in that order. */
  function ShebangLanguage(firstLine: string): (r: Option<string>)
    ensures r.Some? ==> StartsWith(Strip(firstLine), "#!") && r.value in ShebangLanguages
  {
    var line := Strip(firstLine);
    if !StartsWith(line, "#!") then None
    else if Contains(line, "python") then Some("python")
    else if Contains(line, "node") then Some("javascript")
    else if Contains(line, "ruby") then Some("ruby")
    else if Contains(line, "php") then Some("php")
    else None
  }

  /** LanguageDetector.detect. The file's first line is a parameter: None when the file does
      not exist or cannot be read. */
  function Detect(path: string, firstLine: Option<string>): (r: Option<string>)
    ensures r.Some? ==> r.value in Extensions.Values || r.value in ShebangLanguages
  {
    var suffix := Suffix(path);
    if suffix in Extensions then Some(Extensions[suffix])
    else if firstLine.None? then None
    else ShebangLanguage(firstLine.value)
  }

  /** An extension in the table decides the language whatever the file holds. */
  lemma ExtensionWins(path: string, firstLine: Option<string>, other: Option<string>)
    requires Suffix(path) in Extensions
    ensures Detect(path, firstLine) == Detect(path, other) == Some(Extensions[Suffix(path)])
  {
  }

  /** Without a known extension, the language comes from the first line alone, and a missing
      or unreadable file gives none. */
  lemma ShebangDecides(path: string, firstLine: Option<string>)
    requires Suffix(path) !in Extensions
    ensures firstLine.None? ==> Detect(path, firstLine) == None
    ensures firstLine.Some? ==> Detect(path, firstLine) == ShebangLanguage(firstLine.value)
  {
  }

  /** A line without "#!" at the start of its stripped text never names a language. */
  lemma NoShebangNoLanguage(firstLine: string)
    requires !StartsWith(Strip(firstLine), "#!")
    ensures ShebangLanguage(firstLine).None?
  {
  }

  /** Python is tried first: a shebang that mentions python is python, whatever else it names. */
  lemma PythonFirst(firstLine: string)
    requires StartsWith(Strip(firstLine), "#!") && Contains(Strip(firstLine), "python")
    ensures ShebangLanguage(firstLine) == Some("python")
  {
  }

  /** Node comes before ruby and php. */
  lemma NodeBeforeRuby(firstLine: string)
    requires StartsWith(Strip(firstLine), "#!") && !Contains(Strip(firstLine), "python")
    requires Contains(Strip(firstLine), "node")
    ensures ShebangLanguage(firstLine) == Some("javascript")
  {
  }

  // ---------------------------------------------------------------------------
  // Generator dispatch

  /** The generators the tool has. */
  datatype Generator = PythonGenerator | GolangGenerator | RustGenerator | JavaScriptGenerator

  /** The dispatch table: both spellings of Go, and JavaScript and TypeScript with their short
      names, share a generator. */
  const Generators: map<string, Generator> := map[
    "python" := PythonGenerator, "golang" := GolangGenerator, "go" := GolangGenerator,
    "rust" := RustGenerator, "javascript" := JavaScriptGenerator, "js" := JavaScriptGenerator,
    "typescript" := JavaScriptGenerator, "ts" := JavaScriptGenerator]

  /** The two ValueErrors generate raises. */
  datatype DispatchError = CouldNotDetect(path: string) | NoGenerator(language: string)

  /** The language generate works with: the one given unless it is missing or empty, else the
      detected one. */
  function ChosenLanguage(path: string, language: Option<string>, firstLine: Option<string>): (r: Option<string>)
    ensures language.Some? && language.value != "" ==> r == language
    ensures language.None? || language == Some("") ==> r == Detect(path, firstLine)
  {
    if language.Some? && language.value != "" then language else Detect(path, firstLine)
  }

  /** FlameGraphGenerator.generate up to the call of the chosen generator: a generator exactly
      when the chosen language is in the table, the table's generator then; otherwise the error
      names the path when no language was found, or the language. */
  function ChooseGenerator(path: string, language: Option<string>, firstLine: Option<string>)
    : (r: Result<Generator, DispatchError>)
    ensures var lang := ChosenLanguage(path, language, firstLine);
            && (r.Ok? <==> lang.Some? && lang.value in Generators)
            && (r.Ok? ==> r.value == Generators[lang.value])
            && (lang.None? <==> r == Err(CouldNotDetect(path)))
            && (r.Err? && r.error.NoGenerator? <==> lang.Some? && lang.value !in Generators)
            && (r.Err? && r.error.NoGenerator? ==> r.error.language == lang.value)
  {
    match ChosenLanguage(path, language, firstLine)
    case None => Err(CouldNotDetect(path))
    case Some(lang) => if lang in Generators then Ok(Generators[lang]) else Err(NoGenerator(lang))
  }

  /** A language given by name is never replaced by detection, so the path and the file do
      not matter. */
  lemma GivenLanguageWins(path: string, path': string, firstLine: Option<string>, firstLine': Option<string>, language: string)
    requires language != ""
    ensures ChooseGenerator(path, Some(language), firstLine) == ChooseGenerator(path', Some(language), firstLine')
  {
  }

  /** An empty language counts as none: the file is examined. */
  lemma EmptyLanguageDetects(path: string, firstLine: Option<string>)
    ensures ChooseGenerator(path, Some(""), firstLine) == ChooseGenerator(path, None, firstLine)
  {
  }

  /** The detected languages that have a generator: python, golang, rust, javascript and
      typescript; java, c, ruby and the rest are detected but have none. */
  lemma DetectedWithGenerator(lang: string)
    requires lang in Extensions.Values
    ensures lang in Generators <==> lang in {"python", "golang", "rust", "javascript", "typescript"}
  {
  }

  /** Aliases share their generator; java has none. */
  lemma Aliases()
    ensures Generators["go"] == Generators["golang"] == GolangGenerator
    ensures Generators["js"] == Generators["javascript"] == Generators["ts"] == Generators["typescript"] == JavaScriptGenerator
    ensures "java" !in Generators
  {
  }

  /** Entries of the extension table: exact keys, so ".PY" is missing, and both cases of ".r". */
  lemma ExtensionEntries()
    ensures ".go" in Extensions && Extensions[".go"] == "golang"
    ensures ".java" in Extensions && Extensions[".java"] == "java"
    ensures ".r" in Extensions && ".R" in Extensions && Extensions[".r"] == Extensions[".R"] == "r"
    ensures ".PY" !in Extensions
  {
  }

  /** A .go file goes to the Go generator, whatever its first line. */
  lemma GoDispatch(path: string, firstLine: Option<string>)
    requires Suffix(path) == ".go"
    ensures ChooseGenerator(path, None, firstLine) == Ok(GolangGenerator)
  {
    ExtensionEntries();
    assert ChosenLanguage(path, None, firstLine) == Some("golang");
    Aliases();
  }

  /** A .java file is detected as java, for which there is no generator. */
  lemma JavaDispatch(path: string, firstLine: Option<string>)
    requires Suffix(path) == ".java"
    ensures ChooseGenerator(path, None, firstLine) == Err(NoGenerator("java"))
  {
    ExtensionEntries();
    assert ChosenLanguage(path, None, firstLine) == Some("java");
    Aliases();
  }

  /** A ".PY" file is not recognised by its suffix; only its first line can name it. */
  lemma UpperCasePy(path: string, firstLine: Option<string>)
    requires Suffix(path) == ".PY"
    ensures Detect(path, None) == None
    ensures firstLine.Some? ==> Detect(path, firstLine) == ShebangLanguage(firstLine.value)
  {
    ExtensionEntries();
  }
}

=== FILE: markdown_formatter.dfy ===
/** The Markdown reports: a flame graph's ranked frames with their share bars, and a profile's
    ranked table, hotspots and recommendations. A report is the list of its lines. A line of
    fixed text is kept as the heading it is (HeadingText gives its text), and a line that shows
    a float keeps the values it shows rather than their decimal text. */
module MarkdownFormatting {
  import opened Wrappers
  import opened Text
  import opened Ranking
  import opened FrameTitles
  import opened FlamegraphParsing
  import opened ProfileParsing

  datatype Heading =
    | Summary | FrameTableTitle | FrameColumns | FrameRule | DistributionTitle | DistributionNote
    | ProfileColumns | ProfileRule | RecommendationsTitle | RecommendationsNote

  function HeadingText(h: Heading): string {
    match h
    case Summary => "## Summary"
    case FrameTableTitle => "## Top Time-Consuming Functions"
    case FrameColumns => "| Function | Time % | Samples/Time |"
    case FrameRule => "|----------|--------|--------------|"
    case DistributionTitle => "## Performance Distribution"
    case DistributionNote => "Functions consuming more than 1% of total time:"
    case ProfileColumns => "| Rank | Function | Location | Cumulative | Own Time | Calls | % Total |"
    case ProfileRule => "|------|----------|----------|------------|----------|-------|---------|"
    case RecommendationsTitle => "## Optimization Recommendations"
    case RecommendationsNote => "Based on the profile data, consider optimizing:"
  }

  datatype Line =
    | Blank
    | Fixed(heading: Heading)
    // flame-graph report
    | FlamegraphTitle(fileName: string)
    | FunctionsAnalyzed(count: nat)
    | FrameRow(funcName: string, percentage: real, samples: string)
    | FrameItem(funcName: string)
    | DistributionBar(bar: string, percentage: real)
    // profile report
    | ProfileTitle(fileName: string)
    | FunctionsProfiled(count: nat)
    | TotalTime(seconds: real)
    | TopHeading(topN: int)
    | TableRow(rank: nat, funcName: string, location: string, cumtime: real, tottime: real, ncalls: int, percentage: real)
    | HotspotsHeading(threshold: real)
    | HotspotTitle(funcName: string, location: string)
    | HotspotBar(bar: string, percentage: real)
    | CumulativeTime(seconds: real)
    | OwnTime(seconds: real)
    | Calls(ncalls: int)
    | TimePerCall(seconds: real)
    | Recommendation(rank: nat, funcName: string, location: string, percentage: real)

  /** The text of a line that shows no float; None for a line whose text holds a float. */
  function PlainText(l: Line): Option<string> {
    match l
    case Blank => Some("")
    case Fixed(h) => Some(HeadingText(h))
    case FlamegraphTitle(name) => Some("# Flamegraph Analysis: " + name)
    case FunctionsAnalyzed(n) => Some("Total functions analyzed: " + NatToString(n))
    case FrameItem(name) => Some("- " + name)
    case ProfileTitle(name) => Some("# Profile Analysis: " + name)
    case FunctionsProfiled(n) => Some("Total functions profiled: " + NatToString(n))
    case TopHeading(n) => Some("## Top " + IntToString(n) + " Time-Consuming Functions (Hot Paths)")
    case HotspotTitle(name, location) => Some("### `" + name + "` (" + location + ")")
    case _ => None
  }

  /** Python's int(x) on a float: the integer part, rounded toward zero. */
  function Trunc(x: real): (n: int)
    ensures x >= 0.0 ==> n as real <= x < n as real + 1.0
    ensures x < 0.0 ==> n as real - 1.0 < x <= n as real
  {
    if x >= 0.0 then x.Floor else -((-x).Floor)
  }

  function Min(a: int, b: int): int { if a <= b then a else b }

  /** The lines of consecutive blocks, one block per item of xs[..n], in order. */
  function Blocks<T>(xs: seq<T>, n: nat, block: T -> seq<Line>): seq<Line>
    requires n <= |xs|
  {
    if n == 0 then [] else Blocks(xs, n - 1, block) + block(xs[n - 1])
  }

  lemma MulSucc(k: nat, w: nat)
    ensures (k + 1) * w == k * w + w
  {
  }

  /** When every block has w lines, n blocks take n * w lines. */
  lemma {:induction false} BlocksLength<T>(xs: seq<T>, n: nat, block: T -> seq<Line>, w: nat)
    requires n <= |xs|
    requires forall x :: |block(x)| == w
    ensures |Blocks(xs, n, block)| == n * w
  {
    if n > 0 {
      BlocksLength(xs, n - 1, block, w);
      MulSucc(n - 1, w);
    }
  }

  /** When every block has w lines, block k sits at k * w. */
  lemma {:induction false} BlocksAt<T>(xs: seq<T>, n: nat, block: T -> seq<Line>, w: nat, k: nat)
    requires k < n <= |xs|
    requires forall x :: |block(x)| == w
    ensures k * w + w <= |Blocks(xs, n, block)|
    ensures Blocks(xs, n, block)[k * w..k * w + w] == block(xs[k])
    decreases n
  {
    var prev := Blocks(xs, n - 1, block);
    assert Blocks(xs, n, block) == prev + block(xs[n - 1]);
    BlocksLength(xs, n - 1, block, w);
    MulSucc(n - 1, w);
    if k < n - 1 {
      BlocksAt(xs, n - 1, block, w, k);
    }
  }

  // ---------------------------------------------------------------------------
  // The flame-graph report

  /** A frame that the distribution lists: at least 1%, a missing percentage counting as 0. */
  predicate Significant(f: Frame) { PercentKey(f) >= 1.0 }

  /** The distribution bar: int(pct / 2) filled cells, then empty cells up to 50. */
  function FlameBar(pct: real): string {
    Repeat('█', Trunc(pct / 2.0)) + Repeat('░', 50 - Trunc(pct / 2.0))
  }

  /** A table row: the name cut to 60 characters, the percentage, and the samples or "N/A". */
  function FrameRowOf(f: Frame): Line {
    FrameRow(ElideEnd(f.info.funcName, 60), PercentKey(f), f.info.samples.GetOr("N/A"))
  }

  /** The table: a row for each of the first 20 frames. */
  function FrameRows(frames: seq<Frame>): seq<Line> {
    seq(|Take(frames, 20)|, i requires 0 <= i < |Take(frames, 20)| => FrameRowOf(frames[i]))
  }

  /** The three lines of a significant frame: its name, its bar with its percentage, a blank. */
  function DistributionBlock(f: Frame): seq<Line> {
    [FrameItem(f.info.funcName), DistributionBar(FlameBar(PercentKey(f)), PercentKey(f)), Blank]
  }

  function FlamegraphHeader(frames: seq<Frame>, inputFile: string): seq<Line> {
    [FlamegraphTitle(BaseName(inputFile)), Blank, Fixed(Summary), Blank, FunctionsAnalyzed(|frames|), Blank,
     Fixed(FrameTableTitle), Blank, Fixed(FrameColumns), Fixed(FrameRule)]
  }

  const DistributionHeader: seq<Line> := [Blank, Fixed(DistributionTitle), Blank, Fixed(DistributionNote), Blank]

  /** The frames the distribution lists, in their ranked order. */
  function SignificantFrames(frames: seq<Frame>): seq<Frame> {
    Filter(frames, Significant)
  }

  /** The whole flame-graph report. */
  function FlamegraphReport(frames: seq<Frame>, inputFile: string): seq<Line> {
    var sig := SignificantFrames(frames);
    FlamegraphHeader(frames, inputFile) + FrameRows(frames) + DistributionHeader
      + Blocks(sig, |sig|, DistributionBlock)
  }

  /** Builds the flame-graph report: the header, the table, then the distribution. */
  method FormatFlamegraph(frames: seq<Frame>, inputFile: string) returns (md: seq<Line>)
    ensures md == FlamegraphReport(frames, inputFile)
  {
    var rows := FrameTable(frames);
    var sig := SignificantFrames(frames);
    var dist := DistributionLines(sig);
    md := FlamegraphHeader(frames, inputFile) + rows + DistributionHeader + dist;
  }

  /** One row for each of the first 20 frames. */
  method FrameTable(frames: seq<Frame>) returns (rows: seq<Line>)
    ensures rows == FrameRows(frames)
  {
    var top := Take(frames, 20);
    rows := [];
    var i := 0;
    while i < |top|
      invariant 0 <= i <= |top|
      invariant rows == FrameRows(frames)[..i]
    {
      var f := top[i];
      var name := f.info.funcName;
      if |name| > 60 {
        name := name[..57] + "...";
      }
      var row := FrameRow(name, PercentKey(f), f.info.samples.GetOr("N/A"));
      assert row == FrameRowOf(frames[i]);
      assert FrameRows(frames)[..i + 1] == FrameRows(frames)[..i] + [row];
      rows := rows + [row];
      i := i + 1;
    }
    assert FrameRows(frames)[..i] == FrameRows(frames);
  }

  /** Three lines for each significant frame, in order. */
  method DistributionLines(sig: seq<Frame>) returns (lines: seq<Line>)
    ensures lines == Blocks(sig, |sig|, DistributionBlock)
  {
    lines := [];
    var j := 0;
    while j < |sig|
      invariant 0 <= j <= |sig|
      invariant lines == Blocks(sig, j, DistributionBlock)
    {
      var f := sig[j];
      var pct := PercentKey(f);
      var filled := Trunc(pct / 2.0);
      var bar := Repeat('█', filled) + Repeat('░', 50 - filled);
      lines := lines + [FrameItem(f.info.funcName), DistributionBar(bar, pct), Blank];
      j := j + 1;
    }
  }

  /** The distribution bar holds int(pct / 2) filled cells followed by 50 minus that many empty
      ones, so it is exactly 50 cells wide for a percentage between 0 and 100. */
  lemma FlameBarShape(pct: real)
    ensures var bar := FlameBar(pct);
            var filled := Trunc(pct / 2.0);
            (0.0 <= pct ==> filled as real <= pct / 2.0 < filled as real + 1.0)
            && (forall i :: 0 <= i < |bar| ==> (bar[i] == '█' <==> i < filled))
            && (0.0 <= pct <= 100.0 ==> |bar| == 50 && 0 <= filled <= 50)
  {
    var filled := Trunc(pct / 2.0);
    var a := Repeat('█', filled);
    var b := Repeat('░', 50 - filled);
    var bar := a + b;
    forall i | 0 <= i < |bar| ensures bar[i] == '█' <==> i < filled {
      if i < |a| {
        assert bar[i] == a[i];
      } else {
        assert bar[i] == b[i - |a|];
      }
    }
  }

  /** The first two lines of the block of the k-th significant frame. */
  lemma DistributionAt(sig: seq<Frame>, k: nat)
    requires k < |sig|
    ensures 3 * k + 1 < |Blocks(sig, |sig|, DistributionBlock)|
    ensures Blocks(sig, |sig|, DistributionBlock)[3 * k] == FrameItem(sig[k].info.funcName)
    ensures Blocks(sig, |sig|, DistributionBlock)[3 * k + 1] == DistributionBar(FlameBar(PercentKey(sig[k])), PercentKey(sig[k]))
  {
    var blocks := Blocks(sig, |sig|, DistributionBlock);
    assert 3 * k + 3 <= |blocks| && blocks[3 * k..3 * k + 3] == DistributionBlock(sig[k]) by {
      BlocksAt(sig, |sig|, DistributionBlock, 3, k);
    }
    assert blocks[3 * k] == DistributionBlock(sig[k])[0];
    assert blocks[3 * k + 1] == DistributionBlock(sig[k])[1];
  }

  /** The report has ten header lines, one row for each of the first 20 frames, five lines
      heading the distribution, then three lines for each frame of at least 1%; its fifth line
      counts the frames. */
  lemma FlamegraphShape(frames: seq<Frame>, inputFile: string)
    ensures var r := FlamegraphReport(frames, inputFile);
            var sig := SignificantFrames(frames);
            |r| == 15 + Min(|frames|, 20) + 3 * |sig| && r[4] == FunctionsAnalyzed(|frames|)
  {
    var sig := SignificantFrames(frames);
    BlocksLength(sig, |sig|, DistributionBlock, 3);
    assert |FrameRows(frames)| == Min(|frames|, 20);
  }

  lemma FrameRowsAt(frames: seq<Frame>, i: nat)
    requires i < |Take(frames, 20)|
    ensures |FrameRows(frames)| == |Take(frames, 20)|
    ensures FrameRows(frames)[i] == FrameRowOf(frames[i])
  { }

  /** Row i of the table shows frame i with its name cut to 60 characters, its percentage
      (0 when it has none) and its sample count ("N/A" when it has none). */
  lemma FlamegraphRowAt(frames: seq<Frame>, inputFile: string, i: nat)
    requires i < Min(|frames|, 20)
    ensures var r := FlamegraphReport(frames, inputFile);
            10 + i < |r|
            && r[10 + i] == FrameRow(ElideEnd(frames[i].info.funcName, 60), PercentKey(frames[i]),
                                     frames[i].info.samples.GetOr("N/A"))
  {
    var sig := SignificantFrames(frames);
    FrameRowsAt(frames, i);
    MiddleAt(FlamegraphReport(frames, inputFile), FlamegraphHeader(frames, inputFile), FrameRows(frames),
             DistributionHeader, Blocks(sig, |sig|, DistributionBlock), 10, i);
  }

  /** After the table and the distribution heading come the blocks of the significant frames,
      in ranked order, up to the end of the report. */
  lemma FlamegraphDistribution(frames: seq<Frame>, inputFile: string)
    ensures var r := FlamegraphReport(frames, inputFile);
            var sig := SignificantFrames(frames);
            15 + Min(|frames|, 20) <= |r| && r[15 + Min(|frames|, 20)..] == Blocks(sig, |sig|, DistributionBlock)
  {
    var sig := SignificantFrames(frames);
    var front := FlamegraphHeader(frames, inputFile) + FrameRows(frames) + DistributionHeader;
    assert |FrameRows(frames)| == Min(|frames|, 20);
    SuffixAt(FlamegraphReport(frames, inputFile), front, Blocks(sig, |sig|, DistributionBlock), 15 + Min(|frames|, 20));
  }

  // ---------------------------------------------------------------------------
  // The profile report

  /** The name a record is shown under: its bare function name when it has one, else its label. */
  function ShownName(r: ProfileRecord): string { r.funcName.GetOr(r.name) }

  function ShownLocation(r: ProfileRecord): string { r.location.GetOr("Unknown") }

  /** A table row: the name cut to 40 characters at its end, the location cut to 50 at its start. */
  function TableRowOf(rank: nat, r: ProfileRecord): Line {
    TableRow(rank, ElideEnd(ShownName(r), 40), ElideStart(ShownLocation(r), 50),
             r.cumtime, r.tottime, r.ncalls.GetOr(0), r.percentage)
  }

  /** The table: the records of data[:topN], ranked from 1. */
  function TableRows(data: seq<ProfileRecord>, topN: int): seq<Line> {
    seq(|Take(data, topN)|, i requires 0 <= i < |Take(data, topN)| => TableRowOf(i + 1, data[i]))
  }

  lemma TableRowsAt(data: seq<ProfileRecord>, topN: int, i: nat)
    requires i < |Take(data, topN)|
    ensures |TableRows(data, topN)| == |Take(data, topN)|
    ensures TableRows(data, topN)[i] == TableRowOf(i + 1, data[i])
  { }

  /** The hotspot bar: min(int(pct), 50) filled cells. */
  function HotBar(pct: real): string {
    Repeat('█', Min(Trunc(pct), 50))
  }

  /** The seven lines of a hotspot. */
  function HotspotBlock(r: ProfileRecord): seq<Line> {
    [HotspotTitle(ShownName(r), ShownLocation(r)), HotspotBar(HotBar(r.percentage), r.percentage),
     CumulativeTime(r.cumtime), OwnTime(r.tottime), Calls(r.ncalls.GetOr(0)), TimePerCall(r.percallCum), Blank]
  }

  function AtLeast(threshold: real): ProfileRecord -> bool {
    (r: ProfileRecord) => r.percentage >= threshold
  }

  /** The hotspots: the first 30 records whose percentage reaches the threshold. */
  function Hotspots(data: seq<ProfileRecord>, threshold: real): seq<ProfileRecord> {
    Take(Filter(data, AtLeast(threshold)), 30)
  }

  /** The recommendations: the first five records, ranked from 1. */
  function Recommendations(data: seq<ProfileRecord>): seq<Line> {
    seq(|Take(data, 5)|, i requires 0 <= i < |Take(data, 5)| =>
      Recommendation(i + 1, ShownName(data[i]), ShownLocation(data[i]), data[i].percentage))
  }

  function ProfileHeader(data: seq<ProfileRecord>, inputFile: string): seq<Line> {
    [ProfileTitle(BaseName(inputFile)), Blank, Fixed(Summary), Blank, FunctionsProfiled(|data|), Blank]
  }

  /** The total-time line, present only when the total is positive. */
  function TotalSection(total: real): seq<Line> {
    if total > 0.0 then [TotalTime(total), Blank] else []
  }

  function TableHeader(topN: int): seq<Line> {
    [TopHeading(topN), Blank, Fixed(ProfileColumns), Fixed(ProfileRule)]
  }

  function HotspotsHeader(threshold: real): seq<Line> {
    [Blank, HotspotsHeading(threshold), Blank]
  }

  const RecommendationsHeader: seq<Line> :=
    [Blank, Fixed(RecommendationsTitle), Blank, Fixed(RecommendationsNote), Blank]

  /** The lines before the table: the header, then the total when it is positive, then the table's heading. */
  function ProfileIntro(data: seq<ProfileRecord>, inputFile: string, topN: int): seq<Line> {
    ProfileHeader(data, inputFile) + TotalSection(Sum(data, CumKey)) + TableHeader(topN)
  }

  /** The whole profile report. */
  function ProfileReport(data: seq<ProfileRecord>, inputFile: string, topN: int, threshold: real): seq<Line> {
    var hs := Hotspots(data, threshold);
    ProfileIntro(data, inputFile, topN) + TableRows(data, topN) + HotspotsHeader(threshold)
      + Blocks(hs, |hs|, HotspotBlock) + RecommendationsHeader + Recommendations(data)
  }

  /** Builds the profile report: the header, the total when positive, the table, the hotspots
      and the recommendations. */
  method FormatProfile(data: seq<ProfileRecord>, inputFile: string, topN: int, threshold: real)
    returns (md: seq<Line>)
    ensures md == ProfileReport(data, inputFile, topN, threshold)
  {
    md := ProfileHeader(data, inputFile);
    var total := Sum(data, CumKey);
    if total > 0.0 {
      md := md + [TotalTime(total), Blank];
    } else {
      assert md + [] == md;
    }
    md := md + TableHeader(topN);
    var rows := ProfileTable(data, topN);
    var hs := Hotspots(data, threshold);
    var hot := HotspotLines(hs);
    var recs := RecommendationLines(data);
    md := md + rows + HotspotsHeader(threshold) + hot + RecommendationsHeader + recs;
  }

  /** One ranked row for each record of data[:topN]. */
  method ProfileTable(data: seq<ProfileRecord>, topN: int) returns (rows: seq<Line>)
    ensures rows == TableRows(data, topN)
  {
    var top := Take(data, topN);
    rows := [];
    var i := 0;
    while i < |top|
      invariant 0 <= i <= |top|
      invariant rows == TableRows(data, topN)[..i]
    {
      var item := top[i];
      var name := ShownName(item);
      var location := ShownLocation(item);
      if |name| > 40 {
        name := name[..37] + "...";
      }
      if |location| > 50 {
        location := "..." + location[|location| - 47..];
      }
      var row := TableRow(i + 1, name, location, item.cumtime, item.tottime, item.ncalls.GetOr(0), item.percentage);
      assert row == TableRowOf(i + 1, data[i]);
      assert TableRows(data, topN)[..i + 1] == TableRows(data, topN)[..i] + [row];
      rows := rows + [row];
      i := i + 1;
    }
    assert TableRows(data, topN)[..i] == TableRows(data, topN);
  }

  /** Seven lines for each hotspot, in order. */
  method HotspotLines(hs: seq<ProfileRecord>) returns (lines: seq<Line>)
    ensures lines == Blocks(hs, |hs|, HotspotBlock)
  {
    lines := [];
    var j := 0;
    while j < |hs|
      invariant 0 <= j <= |hs|
      invariant lines == Blocks(hs, j, HotspotBlock)
    {
      var item := hs[j];
      var bar := Repeat('█', Min(Trunc(item.percentage), 50));
      lines := lines + [HotspotTitle(ShownName(item), ShownLocation(item)), HotspotBar(bar, item.percentage),
                        CumulativeTime(item.cumtime), OwnTime(item.tottime), Calls(item.ncalls.GetOr(0)),
                        TimePerCall(item.percallCum), Blank];
      j := j + 1;
    }
  }

  /** One ranked line for each of the first five records. */
  method RecommendationLines(data: seq<ProfileRecord>) returns (lines: seq<Line>)
    ensures lines == Recommendations(data)
  {
    var first := Take(data, 5);
    lines := [];
    var k := 0;
    while k < |first|
      invariant 0 <= k <= |first|
      invariant lines == Recommendations(data)[..k]
    {
      var item := first[k];
      lines := lines + [Recommendation(k + 1, ShownName(item), ShownLocation(item), item.percentage)];
      assert Recommendations(data)[..k + 1] == Recommendations(data)[..k] + [Recommendations(data)[k]];
      k := k + 1;
    }
    assert Recommendations(data)[..k] == Recommendations(data);
  }

  /** The hotspot bar has min(int(pct), 50) cells: none below 1%, at most 50. */
  lemma HotBarShape(pct: real)
    ensures |HotBar(pct)| == if pct < 1.0 then 0 else Min(pct.Floor, 50)
    ensures forall i :: 0 <= i < |HotBar(pct)| ==> HotBar(pct)[i] == '█'
  {
    if pct >= 0.0 {
      assert Trunc(pct) == pct.Floor;
    }
  }

  /** The hotspots are the first 30 records reaching the threshold, in their order (all of them
      when no more than 30 reach it). */
  lemma HotspotsSelection(data: seq<ProfileRecord>, threshold: real)
    ensures var hs := Hotspots(data, threshold);
            |hs| == Min(|Filter(data, AtLeast(threshold))|, 30)
            && (forall k :: 0 <= k < |hs| ==> hs[k].percentage >= threshold && hs[k] in data)
            && hs == Filter(data, AtLeast(threshold))[..|hs|]
            && (|Filter(data, AtLeast(threshold))| <= 30 ==>
                  forall i :: 0 <= i < |data| && data[i].percentage >= threshold ==> data[i] in hs)
  {
    var all := Filter(data, AtLeast(threshold));
    forall k | 0 <= k < |all| ensures all[k].percentage >= threshold {
      assert AtLeast(threshold)(all[k]);
    }
    forall i | 0 <= i < |data| && data[i].percentage >= threshold ensures data[i] in all {
      assert AtLeast(threshold)(data[i]);
    }
  }

  /** The first two lines of the block of the k-th hotspot. */
  lemma HotspotAt(hs: seq<ProfileRecord>, k: nat)
    requires k < |hs|
    ensures 7 * k + 1 < |Blocks(hs, |hs|, HotspotBlock)|
    ensures Blocks(hs, |hs|, HotspotBlock)[7 * k] == HotspotTitle(ShownName(hs[k]), ShownLocation(hs[k]))
    ensures Blocks(hs, |hs|, HotspotBlock)[7 * k + 1] == HotspotBar(HotBar(hs[k].percentage), hs[k].percentage)
  {
    var blocks := Blocks(hs, |hs|, HotspotBlock);
    assert 7 * k + 7 <= |blocks| && blocks[7 * k..7 * k + 7] == HotspotBlock(hs[k]) by {
      BlocksAt(hs, |hs|, HotspotBlock, 7, k);
    }
    assert blocks[7 * k] == HotspotBlock(hs[k])[0];
    assert blocks[7 * k + 1] == HotspotBlock(hs[k])[1];
  }

  /** Line 7 of the profile report is the total time exactly when the total is positive. */
  lemma TotalLine(data: seq<ProfileRecord>, inputFile: string, topN: int, threshold: real)
    ensures var r := ProfileReport(data, inputFile, topN, threshold);
            |r| > 6 && (r[6].TotalTime? <==> Sum(data, CumKey) > 0.0)
            && (r[6].TotalTime? ==> r[6].seconds == Sum(data, CumKey))
  {
    var intro := ProfileIntro(data, inputFile, topN);
    var hs := Hotspots(data, threshold);
    var rows := TableRows(data, topN);
    IntroLines(data, inputFile, topN);
    PrefixAt(intro + rows, HotspotsHeader(threshold), Blocks(hs, |hs|, HotspotBlock), RecommendationsHeader,
             Recommendations(data), 6);
    assert (intro + rows)[6] == intro[6];
  }

  /** The lines before the table: ten, or twelve with the total, whose seventh is the total
      when it is positive and the table's heading otherwise. */
  lemma IntroLines(data: seq<ProfileRecord>, inputFile: string, topN: int)
    ensures var total := Sum(data, CumKey);
            var intro := ProfileIntro(data, inputFile, topN);
            |intro| == (if total > 0.0 then 12 else 10)
            && intro[6] == (if total > 0.0 then TotalTime(total) else TopHeading(topN))
  {
    var total := Sum(data, CumKey);
    var head := ProfileHeader(data, inputFile);
    if total > 0.0 {
      assert ProfileIntro(data, inputFile, topN) == head + [TotalTime(total), Blank] + TableHeader(topN);
    } else {
      assert ProfileIntro(data, inputFile, topN) == head + [] + TableHeader(topN);
    }
  }

  /** The profile report's length: the header, the total's two lines when it is positive, the
      table, seven lines per hotspot, and at most five recommendations. */
  lemma ProfileLength(data: seq<ProfileRecord>, inputFile: string, topN: int, threshold: real)
    ensures var t := if Sum(data, CumKey) > 0.0 then 2 else 0;
            |ProfileReport(data, inputFile, topN, threshold)|
            == 18 + t + |Take(data, topN)| + 7 * |Hotspots(data, threshold)| + Min(|data|, 5)
  {
    var hs := Hotspots(data, threshold);
    IntroLines(data, inputFile, topN);
    BlocksLength(hs, |hs|, HotspotBlock, 7);
  }

  /** Row i of the table shows record i, ranked i + 1, its name cut to 40 characters and its
      location to 50. */
  lemma ProfileRowAt(data: seq<ProfileRecord>, inputFile: string, topN: int, threshold: real, i: nat)
    requires i < |Take(data, topN)|
    ensures var t := if Sum(data, CumKey) > 0.0 then 2 else 0;
            var r := ProfileReport(data, inputFile, topN, threshold);
            10 + t + i < |r|
            && r[10 + t + i] == TableRow(i + 1, ElideEnd(ShownName(data[i]), 40), ElideStart(ShownLocation(data[i]), 50),
                                         data[i].cumtime, data[i].tottime, data[i].ncalls.GetOr(0), data[i].percentage)
  {
    var hs := Hotspots(data, threshold);
    var intro := ProfileIntro(data, inputFile, topN);
    var rows := TableRows(data, topN);
    var front := intro + rows;
    var r := ProfileReport(data, inputFile, topN, threshold);
    IntroLines(data, inputFile, topN);
    TableRowsAt(data, topN, i);
    PrefixAt(intro + rows, HotspotsHeader(threshold), Blocks(hs, |hs|, HotspotBlock), RecommendationsHeader,
             Recommendations(data), |intro| + i);
    assert (intro + rows)[|intro| + i] == rows[i];
  }

  /** After the table and the hotspots heading come the hotspots' seven-line blocks, in ranked
      order: the section starts 13 lines after the table (15 when the total is shown). */
  lemma ProfileHotspots(data: seq<ProfileRecord>, inputFile: string, topN: int, threshold: real)
    ensures |Blocks(Hotspots(data, threshold), |Hotspots(data, threshold)|, HotspotBlock)| == 7 * |Hotspots(data, threshold)|
    ensures SectionAt(ProfileReport(data, inputFile, topN, threshold),
                      13 + (if Sum(data, CumKey) > 0.0 then 2 else 0) + |Take(data, topN)|,
                      Blocks(Hotspots(data, threshold), |Hotspots(data, threshold)|, HotspotBlock))
  {
    var hs := Hotspots(data, threshold);
    var front := ProfileIntro(data, inputFile, topN) + TableRows(data, topN) + HotspotsHeader(threshold);
    HotspotsStart(data, inputFile, topN, threshold);
    HotspotBlocksLength(hs);
    SliceAt(ProfileReport(data, inputFile, topN, threshold), front, Blocks(hs, |hs|, HotspotBlock),
            RecommendationsHeader, Recommendations(data),
            13 + (if Sum(data, CumKey) > 0.0 then 2 else 0) + |Take(data, topN)|);
  }

  lemma HotspotBlocksLength(hs: seq<ProfileRecord>)
    ensures |Blocks(hs, |hs|, HotspotBlock)| == 7 * |hs|
  {
    BlocksLength(hs, |hs|, HotspotBlock, 7);
  }

  /** The lines before the hotspots: the intro, the table and the hotspots heading. */
  lemma HotspotsStart(data: seq<ProfileRecord>, inputFile: string, topN: int, threshold: real)
    ensures |ProfileIntro(data, inputFile, topN) + TableRows(data, topN) + HotspotsHeader(threshold)|
            == 13 + (if Sum(data, CumKey) > 0.0 then 2 else 0) + |Take(data, topN)|
  {
    IntroLines(data, inputFile, topN);
    assert |TableRows(data, topN)| == |Take(data, topN)|;
  }

  /** Recommendation j names record j, ranked j + 1, with its location and percentage. */
  lemma ProfileRecommendationAt(data: seq<ProfileRecord>, inputFile: string, topN: int, threshold: real, j: nat)
    requires j < Min(|data|, 5)
    ensures Min(|data|, 5) <= |ProfileReport(data, inputFile, topN, threshold)|
    ensures ItemAt(ProfileReport(data, inputFile, topN, threshold),
                   |ProfileReport(data, inputFile, topN, threshold)| - Min(|data|, 5) + j,
                   Recommendation(j + 1, ShownName(data[j]), ShownLocation(data[j]), data[j].percentage))
  {
    var hs := Hotspots(data, threshold);
    var front := ProfileIntro(data, inputFile, topN) + TableRows(data, topN) + HotspotsHeader(threshold)
                 + Blocks(hs, |hs|, HotspotBlock) + RecommendationsHeader;
    var recs := Recommendations(data);
    var r := ProfileReport(data, inputFile, topN, threshold);
    assert |recs| == Min(|data|, 5);
    TailItemAt(r, front, recs, |r| - Min(|data|, 5) + j, j,
               Recommendation(j + 1, ShownName(data[j]), ShownLocation(data[j]), data[j].percentage));
  }
}

=== FILE: profile_parser.dfy ===
/** Records from a profiler's statistics: either the loaded stats table
    (file, line, function) -> (primitive calls, calls, own time, cumulative time), or, when
    loading fails, the lines of a text report that start with four numbers. */
module ProfileParsing {
  import opened Wrappers
  import opened Text
  import opened Ranking
  import opened FrameTitles

  /** One item of the loaded stats table; the callers it also carries are never read. */
  datatype StatsEntry = StatsEntry(filename: string, line: int, funcName: string, cc: int, nc: int, tt: real, ct: real)

  /** One record of the report. The table path sets every field; the text path leaves the
      location fields and the call count absent. */
  datatype ProfileRecord = ProfileRecord(
    name: string,
    filename: Option<string>,
    line: Option<int>,
    funcName: Option<string>,
    ncalls: Option<int>,
    tottime: real,
    percall: real,
    cumtime: real,
    percallCum: real,
    location: Option<string>,
    percentage: real)

  function CumKey(r: ProfileRecord): real { r.cumtime }

  function Percentage(r: ProfileRecord): real { r.percentage }

  /** `x / n if n > 0 else 0` */
  function PerCall(x: real, n: int): (r: real)
    ensures n > 0 ==> r * n as real == x
    ensures n <= 0 ==> r == 0.0
  {
    if n > 0 then x / n as real else 0.0
  }

  /** The record of one table item, before its percentage is known: the label
      "func (file:line)", the location "file:line" and the per-call times. */
  function FromEntry(e: StatsEntry): (r: ProfileRecord)
    ensures r.location == Some(e.filename + ":" + IntToString(e.line))
    ensures r.name == e.funcName + " (" + r.location.value + ")"
    ensures r.cumtime == e.ct && r.tottime == e.tt && r.ncalls == Some(e.nc)
    ensures e.nc > 0 ==> r.percall * e.nc as real == e.tt && r.percallCum * e.nc as real == e.ct
    ensures e.nc <= 0 ==> r.percall == 0.0 && r.percallCum == 0.0
  {
    var location := e.filename + ":" + IntToString(e.line);
    ProfileRecord(e.funcName + " (" + location + ")", Some(e.filename), Some(e.line), Some(e.funcName),
                  Some(e.nc), e.tt, PerCall(e.tt, e.nc), e.ct, PerCall(e.ct, e.nc), Some(location), 0.0)
  }

  function FromEntries(es: seq<StatsEntry>): (rs: seq<ProfileRecord>)
    ensures |rs| == |es| && forall i :: 0 <= i < |es| ==> rs[i] == FromEntry(es[i])
  {
    seq(|es|, i requires 0 <= i < |es| => FromEntry(es[i]))
  }

  /** `c / t * 100 if t > 0 else 0` */
  function Share(c: real, t: real): real {
    if t > 0.0 then c / t * 100.0 else 0.0
  }

  /** Every record's percentage set to its share of the total t. */
  function Rescore(rs: seq<ProfileRecord>, t: real): (r: seq<ProfileRecord>)
    ensures |r| == |rs|
    ensures forall i :: 0 <= i < |rs| ==> r[i] == rs[i].(percentage := Share(rs[i].cumtime, t))
  {
    seq(|rs|, i requires 0 <= i < |rs| => rs[i].(percentage := Share(rs[i].cumtime, t)))
  }

  /** Percentages from one shared denominator: the sum of all cumulative times. */
  function WithPercentages(rs: seq<ProfileRecord>): seq<ProfileRecord> {
    Rescore(rs, Sum(rs, CumKey))
  }

  /** The table path: one record per item, stably sorted by decreasing cumulative time, with
      percentages over the sum of all cumulative times. */
  function StatsRecords(es: seq<StatsEntry>): seq<ProfileRecord> {
    WithPercentages(SortDesc(FromEntries(es), CumKey))
  }

  // ---------------------------------------------------------------------------
  // The text fallback: \s*(\d+\.?\d*)\s+(\d+\.?\d*)\s+(\d+\.?\d*)\s+(\d+\.?\d*)\s+(.+)

  /** The end of the run of digits that starts at i (DigitsEndRun states the run). */
  function DigitsEnd(s: string, i: nat): (j: nat)
    requires i <= |s|
    ensures i <= j <= |s|
    decreases |s| - i
  {
    if i < |s| && IsDigit(s[i]) then DigitsEnd(s, i + 1) else i
  }

  /** The run from i to DigitsEnd(s, i) is all digits, and none follows it. */
  lemma {:induction false} DigitsEndRun(s: string, i: nat)
    requires i <= |s|
    ensures forall k :: i <= k < DigitsEnd(s, i) ==> IsDigit(s[k])
    ensures DigitsEnd(s, i) == |s| || !IsDigit(s[DigitsEnd(s, i)])
    decreases |s| - i
  {
    if i < |s| && IsDigit(s[i]) {
      DigitsEndRun(s, i + 1);
    }
  }

  /** The end of the run of blanks that starts at i (BlanksEndRun states the run). */
  function BlanksEnd(s: string, i: nat): (j: nat)
    requires i <= |s|
    ensures i <= j <= |s|
    decreases |s| - i
  {
    if i < |s| && IsSpace(s[i]) then BlanksEnd(s, i + 1) else i
  }

  /** The run from i to BlanksEnd(s, i) is all blanks, and none follows it. */
  lemma {:induction false} BlanksEndRun(s: string, i: nat)
    requires i <= |s|
    ensures forall k :: i <= k < BlanksEnd(s, i) ==> IsSpace(s[k])
    ensures BlanksEnd(s, i) == |s| || !IsSpace(s[BlanksEnd(s, i)])
    decreases |s| - i
  {
    if i < |s| && IsSpace(s[i]) {
      BlanksEndRun(s, i + 1);
    }
  }

  /** A run of digits that ends at a non-digit is the one DigitsEnd finds. */
  lemma {:induction false} DigitsEndAt(s: string, i: nat, e: nat)
    requires i <= e < |s| && !IsDigit(s[e])
    requires forall k :: i <= k < e ==> IsDigit(s[k])
    ensures DigitsEnd(s, i) == e
    decreases e - i
  {
    if i < e {
      DigitsEndAt(s, i + 1, e);
    }
  }

  /** The end of a match of \d+\.?\d* starting at i: there is one exactly when a digit is at i
      (NumberRunDecimal states the shape of the matched text). */
  function NumberRun(s: string, i: nat): (r: Option<nat>)
    requires i <= |s|
    ensures r.None? <==> i == |s| || !IsDigit(s[i])
    ensures r.Some? ==> i < r.value <= |s|
  {
    var j := DigitsEnd(s, i);
    DigitsEndRun(s, i);
    if j == i then None
    else if j < |s| && s[j] == '.' then Some(DigitsEnd(s, j + 1))
    else Some(j)
  }

  /** The text a number match spans is a decimal (digits with at most one point) that no digit
      follows. */
  lemma NumberRunDecimal(s: string, i: nat)
    requires i <= |s| && NumberRun(s, i).Some?
    ensures var e := NumberRun(s, i).value;
            DecimalShape(s[i..e]) && (e == |s| || !IsDigit(s[e]))
  {
    var j := DigitsEnd(s, i);
    DigitsEndRun(s, i);
    if j < |s| && s[j] == '.' {
      DigitsEndRun(s, j + 1);
      RunsDecimal(s[i..DigitsEnd(s, j + 1)], j - i);
    } else {
      RunsDecimal(s[i..j], j - i);
    }
  }

  /** Digits up to j, then either nothing or a point followed by digits, form a decimal. */
  lemma RunsDecimal(g: string, j: nat)
    requires 0 < j <= |g| && forall k :: 0 <= k < j ==> IsDigit(g[k])
    requires j < |g| ==> g[j] == '.' && forall k :: j < k < |g| ==> IsDigit(g[k])
    ensures DecimalShape(g)
  {
    forall a, b | 0 <= a < b < |g| && g[a] == '.' ensures g[b] != '.' {
      assert a == j;
    }
  }

  /** A number with the blanks after it: the number's text, where it ends, where the blanks end. */
  datatype FieldMatch = FieldMatch(text: string, end: nat, next: nat)

  /** (\d+\.?\d*)\s+ at i. */
  function Field(s: string, i: nat): (r: Option<FieldMatch>)
    requires i <= |s|
    ensures r.Some? ==> i < r.value.end < r.value.next <= |s| && r.value.text == s[i..r.value.end]
  {
    match NumberRun(s, i)
    case None => None
    case Some(e) =>
      var w := BlanksEnd(s, e);
      if w == e then None else Some(FieldMatch(s[i..e], e, w))
  }

  /** k numbers, each with the blanks after it: their texts, where the last one ends, and
      where the blanks after it end. */
  datatype FieldsMatch = FieldsMatch(texts: seq<string>, end: nat, next: nat)

  /** ((\d+\.?\d*)\s+) repeated k times, from i. */
  function Fields(s: string, i: nat, k: nat): (r: Option<FieldsMatch>)
    requires i <= |s| && k >= 1
    ensures r.Some? ==> |r.value.texts| == k && i < r.value.end < r.value.next <= |s|
    decreases k
  {
    match Field(s, i)
    case None => None
    case Some(f) =>
      if k == 1 then Some(FieldsMatch([f.text], f.end, f.next))
      else match Fields(s, f.next, k - 1)
        case None => None
        case Some(m) => Some(FieldsMatch([f.text] + m.texts, m.end, m.next))
  }

  /** A matched field starts at a digit, its text is a decimal, and the blanks after it run to
      the first non-blank. */
  lemma FieldDecimal(s: string, i: nat)
    requires i <= |s| && Field(s, i).Some?
    ensures var f := Field(s, i).value;
            && IsDigit(s[i]) && DecimalShape(f.text)
            && (forall j :: f.end <= j < f.next ==> IsSpace(s[j]))
            && (f.next == |s| || !IsSpace(s[f.next]))
  {
    NumberRunDecimal(s, i);
    BlanksEndRun(s, NumberRun(s, i).value);
  }

  /** A match of k fields starts at a digit, every text it gives is a decimal, and the blanks
      after the last one run to the first non-blank. */
  lemma {:induction false} FieldsDecimal(s: string, i: nat, k: nat)
    requires i <= |s| && k >= 1 && Fields(s, i, k).Some?
    ensures var m := Fields(s, i, k).value;
            && IsDigit(s[i])
            && (forall t :: 0 <= t < k ==> DecimalShape(m.texts[t]))
            && (forall j :: m.end <= j < m.next ==> IsSpace(s[j]))
            && (m.next == |s| || !IsSpace(s[m.next]))
    decreases k
  {
    var f := Field(s, i).value;
    FieldDecimal(s, i);
    if k > 1 {
      FieldsDecimal(s, f.next, k - 1);
      var m := Fields(s, f.next, k - 1).value;
      assert Fields(s, i, k).value.texts == [f.text] + m.texts;
    }
  }

  /** The groups of a matching line: four numbers and the descriptor after them. */
  datatype TextRow = TextRow(cumtime: string, tottime: string, percall: string, percallCum: string, descriptor: string)

  /** `re.match` of the text-report pattern on one line. The descriptor is everything after the
      blanks that follow the fourth number; when nothing follows them, `.+` takes the last
      blank back, which needs at least two blanks. */
  function MatchProfileLine(line: string): (r: Option<TextRow>)
    ensures var b := BlanksEnd(line, 0); b == |line| || !IsDigit(line[b]) ==> r.None?
    ensures r.Some? ==>
      && DecimalShape(r.value.cumtime) && DecimalShape(r.value.tottime)
      && DecimalShape(r.value.percall) && DecimalShape(r.value.percallCum)
      && r.value.descriptor != [] && |r.value.descriptor| < |line|
      && line[|line| - |r.value.descriptor|..] == r.value.descriptor
  {
    match Fields(line, BlanksEnd(line, 0), 4)
    case None => None
    case Some(m) =>
      FieldsDecimal(line, BlanksEnd(line, 0), 4);
      RowAfter(line, m)
  }

  /** The row of a line whose four numbers matched: the descriptor (.+) starts at the first
      non-blank after them, or takes back the last blank when only blanks follow; a single
      trailing blank leaves nothing for it. */
  function RowAfter(line: string, m: FieldsMatch): (r: Option<TextRow>)
    requires |m.texts| == 4 && m.end < m.next <= |line|
    requires forall t :: 0 <= t < 4 ==> DecimalShape(m.texts[t])
    ensures r.None? <==> m.next == |line| && m.next - m.end < 2
    ensures r.Some? ==>
      && r.value.cumtime == m.texts[0] && r.value.tottime == m.texts[1]
      && r.value.percall == m.texts[2] && r.value.percallCum == m.texts[3]
      && r.value.descriptor != [] && |r.value.descriptor| < |line|
      && line[|line| - |r.value.descriptor|..] == r.value.descriptor
  {
    var g := m.texts;
    if m.next < |line| then
      var d := line[m.next..];
      SuffixFrom(line, m.next, d);
      Some(TextRow(g[0], g[1], g[2], g[3], d))
    else if m.next - m.end >= 2 then
      var d := line[m.next - 1..];
      SuffixFrom(line, m.next - 1, d);
      Some(TextRow(g[0], g[1], g[2], g[3], d))
    else None
  }

  lemma SuffixFrom(line: string, from: nat, d: string)
    requires from <= |line| && d == line[from..]
    ensures |d| <= |line| && line[|line| - |d|..] == d
  {
  }

  /** Blank lines and lines starting with '#' are skipped. */
  predicate Skipped(line: string) {
    Strip(line) == [] || StartsWith(line, "#")
  }

  /** The record a matching line gives: the stripped descriptor and the four numbers. */
  function TextRecord(row: TextRow): ProfileRecord {
    ProfileRecord(Strip(row.descriptor), None, None, None, None, DecimalValue(row.tottime), DecimalValue(row.percall),
                  DecimalValue(row.cumtime), DecimalValue(row.percallCum), None, 0.0)
  }

  /** What one line of a text report contributes: at most one record. */
  function LineRecords(line: string): (r: seq<ProfileRecord>)
    ensures |r| <= 1
    ensures r != [] <==> !Skipped(line) && MatchProfileLine(line).Some?
    ensures r != [] ==> r == [TextRecord(MatchProfileLine(line).value)]
  {
    if Skipped(line) then []
    else match MatchProfileLine(line)
      case Some(row) => [TextRecord(row)]
      case None => []
  }

  /** The records of the first n lines of a text report, in line order. */
  function TextRecords(lines: seq<string>, n: nat): (r: seq<ProfileRecord>)
    requires n <= |lines|
    ensures |r| <= n
  {
    if n == 0 then [] else TextRecords(lines, n - 1) + LineRecords(lines[n - 1])
  }

  lemma TextRecordsStep(lines: seq<string>, i: nat, r: seq<ProfileRecord>)
    requires i < |lines| && r == LineRecords(lines[i])
    ensures TextRecords(lines, i + 1) == TextRecords(lines, i) + r
  {
  }

  /** The records after the fallback: those already held, then one per matching line, with
      every percentage recomputed over all of them. */
  function AfterText(held: seq<ProfileRecord>, content: string): seq<ProfileRecord> {
    var lines := StrippedLines(content);
    var all := held + TextRecords(lines, |lines|);
    if all == [] then all else WithPercentages(all)
  }

  // ---------------------------------------------------------------------------
  // Properties

  lemma {:induction false} SumNonNegative(rs: seq<ProfileRecord>)
    requires forall i :: 0 <= i < |rs| ==> rs[i].cumtime >= 0.0
    ensures Sum(rs, CumKey) >= 0.0
  {
    if rs != [] {
      SumNonNegative(rs[1..]);
    }
  }

  /** With non-negative times each time is at most the total. */
  lemma {:induction false} ItemBelowSum(rs: seq<ProfileRecord>, i: nat)
    requires i < |rs|
    requires forall k :: 0 <= k < |rs| ==> rs[k].cumtime >= 0.0
    ensures rs[i].cumtime <= Sum(rs, CumKey)
  {
    SumNonNegative(rs[1..]);
    if i > 0 {
      ItemBelowSum(rs[1..], i - 1);
    }
  }

  /** With non-negative cumulative times every percentage lies between 0 and 100. */
  lemma PercentagesBounded(rs: seq<ProfileRecord>)
    requires forall k :: 0 <= k < |rs| ==> rs[k].cumtime >= 0.0
    ensures forall k :: 0 <= k < |rs| ==> 0.0 <= WithPercentages(rs)[k].percentage <= 100.0
  {
    var t := Sum(rs, CumKey);
    forall k | 0 <= k < |rs|
      ensures 0.0 <= WithPercentages(rs)[k].percentage <= 100.0
    {
      ItemBelowSum(rs, k);
      if t > 0.0 {
        assert rs[k].cumtime / t <= 1.0;
      }
    }
  }

  lemma {:induction false} RescoreSum(rs: seq<ProfileRecord>, t: real)
    requires t > 0.0
    ensures Sum(Rescore(rs, t), Percentage) == Sum(rs, CumKey) / t * 100.0
  {
    if rs != [] {
      RescoreSum(rs[1..], t);
      var r := Rescore(rs, t);
      assert r[1..] == Rescore(rs[1..], t);
    }
  }

  /** The percentages share one denominator: when the total is positive they add up to 100. */
  lemma PercentagesSumTo100(rs: seq<ProfileRecord>)
    requires Sum(rs, CumKey) > 0.0
    ensures Sum(WithPercentages(rs), Percentage) == 100.0
  {
    var t := Sum(rs, CumKey);
    RescoreSum(rs, t);
    assert t / t == 1.0;
  }

  /** The table path keeps one record per item, ranks them by cumulative time, and takes
      its denominator from the items themselves: sorting does not change the total. Record i
      is the i-th ranked item with its share of that total as percentage. */
  lemma StatsRecordsShape(es: seq<StatsEntry>)
    ensures |StatsRecords(es)| == |es|
    ensures Descending(StatsRecords(es), CumKey)
    ensures multiset(SortDesc(FromEntries(es), CumKey)) == multiset(FromEntries(es))
    ensures Sum(SortDesc(FromEntries(es), CumKey), CumKey) == Sum(FromEntries(es), CumKey)
    ensures var sorted := SortDesc(FromEntries(es), CumKey);
            forall i :: 0 <= i < |es| ==>
              StatsRecords(es)[i] == sorted[i].(percentage := Share(sorted[i].cumtime, Sum(FromEntries(es), CumKey)))
  {
    var sorted := SortDesc(FromEntries(es), CumKey);
    SumPermutation(sorted, FromEntries(es), CumKey);
    var r := StatsRecords(es);
    assert forall i :: 0 <= i < |r| ==> r[i].cumtime == sorted[i].cumtime;
  }

  /** A number followed by one blank and a non-blank is one field. */
  lemma FieldShape(s: string, i: nat, num: string)
    requires DecimalShape(num)
    requires i + |num| + 1 < |s| && s[i..i + |num|] == num
    requires s[i + |num|] == ' ' && !IsSpace(s[i + |num| + 1])
    ensures Field(s, i) == Some(FieldMatch(num, i + |num|, i + |num| + 1))
  {
    var e := i + |num|;
    if '.' in num {
      var d :| 0 <= d < |num| && num[d] == '.';
      NumberRunWithPoint(s, i, num, d);
    } else {
      NumberRunWithoutPoint(s, i, num);
    }
    assert BlanksEnd(s, e + 1) == e + 1;
  }

  /** A number with a decimal point at d, followed by a blank, is matched whole. */
  lemma NumberRunWithPoint(s: string, i: nat, num: string, d: nat)
    requires DecimalShape(num) && d < |num| && num[d] == '.'
    requires i + |num| < |s| && s[i..i + |num|] == num && s[i + |num|] == ' '
    ensures NumberRun(s, i) == Some(i + |num|)
  {
    assert forall m :: 0 <= m < |num| ==> s[i + m] == num[m];
    assert forall m :: 0 <= m < d ==> IsDigit(num[m]);
    assert forall m :: d < m < |num| ==> IsDigit(num[m]);
    DigitsEndAt(s, i, i + d);
    DigitsEndAt(s, i + d + 1, i + |num|);
  }

  /** A number without a decimal point, followed by a blank, is matched whole. */
  lemma NumberRunWithoutPoint(s: string, i: nat, num: string)
    requires DecimalShape(num) && '.' !in num
    requires i + |num| < |s| && s[i..i + |num|] == num && s[i + |num|] == ' '
    ensures NumberRun(s, i) == Some(i + |num|)
  {
    assert forall m :: 0 <= m < |num| ==> s[i + m] == num[m];
    assert forall m :: 0 <= m < |num| ==> IsDigit(num[m]);
    DigitsEndAt(s, i, i + |num|);
  }

  /** The line a profiler writes for one function: four numbers, one blank after each, and a descriptor. */
  function ProfileLine(c: string, t: string, p: string, q: string, name: string): string {
    c + " " + t + " " + p + " " + q + " " + name
  }

  /** A single field is a match of one field. */
  lemma FieldsOne(s: string, i: nat, f: FieldMatch)
    requires i <= |s| && Field(s, i) == Some(f)
    ensures Fields(s, i, 1) == Some(FieldsMatch([f.text], f.end, f.next))
  {
  }

  /** One more field in front of k - 1 matched fields. */
  lemma FieldsStep(s: string, i: nat, k: nat, f: FieldMatch, m: FieldsMatch, texts: seq<string>)
    requires i <= |s| && k >= 2
    requires Field(s, i) == Some(f) && Fields(s, f.next, k - 1) == Some(m)
    requires texts == [f.text] + m.texts
    ensures Fields(s, i, k) == Some(FieldsMatch(texts, m.end, m.next))
  {
  }

  /** Three fields, each starting where the blanks after the one before end, make one match. */
  lemma ThreeFields(s: string, t: string, p: string, q: string, i1: nat, i2: nat, i3: nat, n: nat)
    requires i1 <= |s| && 0 < i2 <= |s| && 0 < i3 <= |s| && 0 < n
    requires Field(s, i1) == Some(FieldMatch(t, i2 - 1, i2))
    requires Field(s, i2) == Some(FieldMatch(p, i3 - 1, i3))
    requires Field(s, i3) == Some(FieldMatch(q, n - 1, n))
    ensures Fields(s, i1, 3) == Some(FieldsMatch([t, p, q], n - 1, n))
  {
    var m3 := FieldsMatch([q], n - 1, n);
    FieldsOne(s, i3, FieldMatch(q, n - 1, n));
    assert [p] + m3.texts == [p, q];
    FieldsStep(s, i2, 2, FieldMatch(p, i3 - 1, i3), m3, [p, q]);
    assert [t] + [p, q] == [t, p, q];
    FieldsStep(s, i1, 3, FieldMatch(t, i2 - 1, i2), FieldsMatch([p, q], n - 1, n), [t, p, q]);
  }

  /** A first field in front of three more makes a match of four. */
  lemma FieldsChain(s: string, c: string, t: string, p: string, q: string, i0: nat, i1: nat, n: nat)
    requires i0 < i1 <= |s| && 0 < n
    requires Field(s, i0) == Some(FieldMatch(c, i1 - 1, i1))
    requires Fields(s, i1, 3) == Some(FieldsMatch([t, p, q], n - 1, n))
    ensures Fields(s, i0, 4) == Some(FieldsMatch([c, t, p, q], n - 1, n))
  {
    assert [c] + [t, p, q] == [c, t, p, q];
    FieldsStep(s, i0, 4, FieldMatch(c, i1 - 1, i1), FieldsMatch([t, p, q], n - 1, n), [c, t, p, q]);
  }

  /** A written profile line is read back as its four numbers and its descriptor. */
  lemma ProfileLineRoundTrip(c: string, t: string, p: string, q: string, name: string)
    requires DecimalShape(c) && DecimalShape(t) && DecimalShape(p) && DecimalShape(q)
    requires name != [] && !IsSpace(name[0])
    ensures MatchProfileLine(ProfileLine(c, t, p, q, name)) == Some(TextRow(c, t, p, q, name))
  {
    var s := ProfileLine(c, t, p, q, name);
    var n := |c| + |t| + |p| + |q| + 4;
    ProfileLineFields(c, t, p, q, name, n);
    ProfileLineEnds(c, t, p, q, name, n);
    MatchOfFields(s, c, t, p, q, n, name);
  }

  /** A written profile line starts with its first number and ends with its descriptor. */
  lemma ProfileLineEnds(c: string, t: string, p: string, q: string, name: string, n: nat)
    requires c != [] && IsDigit(c[0]) && n == |c| + |t| + |p| + |q| + 4
    ensures n <= |ProfileLine(c, t, p, q, name)|
    ensures !IsSpace(ProfileLine(c, t, p, q, name)[0])
    ensures ProfileLine(c, t, p, q, name)[n..] == name
  {
    assert ProfileLine(c, t, p, q, name)[0] == c[0];
  }

  /** The four numbers of a written profile line are its four fields. */
  lemma ProfileLineFields(c: string, t: string, p: string, q: string, name: string, n: nat)
    requires DecimalShape(c) && DecimalShape(t) && DecimalShape(p) && DecimalShape(q)
    requires name != [] && !IsSpace(name[0])
    requires n == |c| + |t| + |p| + |q| + 4
    ensures n < |ProfileLine(c, t, p, q, name)|
    ensures Fields(ProfileLine(c, t, p, q, name), 0, 4) == Some(FieldsMatch([c, t, p, q], n - 1, n))
  {
    var s := ProfileLine(c, t, p, q, name);
    var i1 := |c| + 1;
    var i2 := i1 + |t| + 1;
    var i3 := i2 + |p| + 1;
    ProfileLineLayout(c, t, p, q, name);
    assert n < |s| && s[n] == name[0] by {
      assert s[n..] == name;
    }
    FourFields(s, c, t, p, q, i1, i2, i3, n);
    ThreeFields(s, t, p, q, i1, i2, i3, n);
    FieldsChain(s, c, t, p, q, 0, i1, n);
  }

  /** s starts with the four numbers c, t, p and q, each followed by one blank. */
  ghost predicate FieldsLaidOut(s: string, c: string, t: string, p: string, q: string) {
    var i1 := |c| + 1;
    var i2 := i1 + |t| + 1;
    var i3 := i2 + |p| + 1;
    var n := i3 + |q| + 1;
    && n <= |s|
    && s[..|c|] == c && s[i1 - 1] == ' '
    && s[i1..i1 + |t|] == t && s[i2 - 1] == ' '
    && s[i2..i2 + |p|] == p && s[i3 - 1] == ' '
    && s[i3..i3 + |q|] == q && s[n - 1] == ' '
  }

  /** Where a written profile line puts its numbers and its descriptor. */
  lemma ProfileLineLayout(c: string, t: string, p: string, q: string, name: string)
    ensures FieldsLaidOut(ProfileLine(c, t, p, q, name), c, t, p, q)
    ensures |c| + |t| + |p| + |q| + 4 <= |ProfileLine(c, t, p, q, name)|
    ensures ProfileLine(c, t, p, q, name)[|c| + |t| + |p| + |q| + 4..] == name
  {
  }

  /** Four numbers, one blank after each, then a non-blank: four fields one after another. */
  lemma FourFields(s: string, c: string, t: string, p: string, q: string, i1: nat, i2: nat, i3: nat, n: nat)
    requires DecimalShape(c) && DecimalShape(t) && DecimalShape(p) && DecimalShape(q)
    requires i1 == |c| + 1 && i2 == i1 + |t| + 1 && i3 == i2 + |p| + 1 && n == i3 + |q| + 1
    requires FieldsLaidOut(s, c, t, p, q) && n < |s| && !IsSpace(s[n])
    ensures Field(s, 0) == Some(FieldMatch(c, i1 - 1, i1))
    ensures Field(s, i1) == Some(FieldMatch(t, i2 - 1, i2))
    ensures Field(s, i2) == Some(FieldMatch(p, i3 - 1, i3))
    ensures Field(s, i3) == Some(FieldMatch(q, n - 1, n))
  {
    assert s[i1] == t[0] && s[i2] == p[0] && s[i3] == q[0];
    assert s[0..|c|] == c;
    FieldShape(s, 0, c);
    FieldShape(s, i1, t);
    FieldShape(s, i2, p);
    FieldShape(s, i3, q);
  }

  /** A line that starts with four fields and goes on after them matches with the rest as descriptor. */
  lemma MatchOfFields(s: string, c: string, t: string, p: string, q: string, n: nat, rest: string)
    requires 0 < n < |s| && !IsSpace(s[0]) && s[n..] == rest
    requires Fields(s, 0, 4) == Some(FieldsMatch([c, t, p, q], n - 1, n))
    ensures MatchProfileLine(s) == Some(TextRow(c, t, p, q, rest))
  {
    assert BlanksEnd(s, 0) == 0;
  }

  /** A line that starts with neither a blank nor '#' is not skipped. */
  lemma NotSkipped(line: string)
    requires line != [] && !IsSpace(line[0]) && line[0] != '#'
    ensures !Skipped(line)
  {
    assert Strip(line) != [];
  }

  /** A line that is not skipped and matches gives its record. */
  lemma LineRecordOfMatch(line: string, row: TextRow)
    requires !Skipped(line) && MatchProfileLine(line) == Some(row)
    ensures LineRecords(line) == [TextRecord(row)]
  {
  }

  /** A written profile line becomes one record carrying its numbers and its name. */
  lemma ProfileLineRecord(c: string, t: string, p: string, q: string, name: string)
    requires DecimalShape(c) && DecimalShape(t) && DecimalShape(p) && DecimalShape(q)
    requires name != [] && !IsSpace(name[0]) && !IsSpace(name[|name| - 1])
    ensures LineRecords(ProfileLine(c, t, p, q, name))
            == [ProfileRecord(name, None, None, None, None, DecimalValue(t), DecimalValue(p),
                              DecimalValue(c), DecimalValue(q), None, 0.0)]
  {
    var s := ProfileLine(c, t, p, q, name);
    assert s[0] == c[0];
    NotSkipped(s);
    ProfileLineRoundTrip(c, t, p, q, name);
    LineRecordOfMatch(s, TextRow(c, t, p, q, name));
    StripUnchanged(name);
  }

  // ---------------------------------------------------------------------------
  // The parser object

  /** Holds the records of the profile, as the parser object does. */
  class ProfileParser {
    var profileData: seq<ProfileRecord>

    constructor ()
      ensures profileData == []
    {
      profileData := [];
    }

    /** Sets every held record's percentage to its share of the held records' total. */
    method AssignPercentages()
      modifies this
      ensures profileData == WithPercentages(old(profileData))
    {
      var total := Sum(profileData, CumKey);
      ghost var before := profileData;
      var i := 0;
      while i < |profileData|
        invariant 0 <= i <= |profileData| == |before|
        invariant forall k :: 0 <= k < i ==> profileData[k] == before[k].(percentage := Share(before[k].cumtime, total))
        invariant forall k :: i <= k < |profileData| ==> profileData[k] == before[k]
      {
        profileData := profileData[i := profileData[i].(percentage := Share(profileData[i].cumtime, total))];
        i := i + 1;
      }
    }

    /** The text fallback: appends one record per matching line to the held records, then
        recomputes all percentages when any record is held. */
    method ParseTextProfile(content: string)
      modifies this
      ensures profileData == AfterText(old(profileData), content)
    {
      var lines := StrippedLines(content);
      var rs := ReadLines(lines);
      profileData := profileData + rs;
      if profileData != [] {
        AssignPercentages();
      }
    }

    /** Reads every line in turn, keeping the records in line order. */
    static method ReadLines(lines: seq<string>) returns (rs: seq<ProfileRecord>)
      ensures rs == TextRecords(lines, |lines|)
    {
      rs := [];
      var i := 0;
      while i < |lines|
        invariant 0 <= i <= |lines|
        invariant rs == TextRecords(lines, i)
      {
        var r := ReadLine(lines[i]);
        TextRecordsStep(lines, i, r);
        rs := rs + r;
        i := i + 1;
      }
    }

    /** One line of the text report: the record it yields, if any. */
    static method ReadLine(line: string) returns (rs: seq<ProfileRecord>)
      ensures rs == LineRecords(line)
    {
      rs := [];
      if !(Strip(line) == [] || StartsWith(line, "#")) {
        var m := MatchProfileLine(line);
        if m.Some? {
          rs := [TextRecord(m.value)];
        }
      }
    }

    /** Reads the stats table when it could be loaded (None when loading raised), and
        otherwise falls back to the text of the profile file. */
    method Parse(table: Option<seq<StatsEntry>>, content: string) returns (data: seq<ProfileRecord>)
      modifies this
      ensures table.Some? ==> profileData == StatsRecords(table.value)
      ensures table.None? ==> profileData == AfterText(old(profileData), content)
      ensures data == profileData
    {
      if table.Some? {
        var es := table.value;
        var records: seq<ProfileRecord> := [];
        var i := 0;
        while i < |es|
          invariant 0 <= i <= |es| && |records| == i
          invariant forall k :: 0 <= k < i ==> records[k] == FromEntry(es[k])
        {
          records := records + [FromEntry(es[i])];
          i := i + 1;
        }
        assert records == FromEntries(es);
        profileData := SortDesc(records, CumKey);
        AssignPercentages();
      } else {
        ParseTextProfile(content);
      }
      data := profileData;
    }
  }
}

=== FILE: ranking.dfy ===
/** The list operations the report pipeline leans on: Python's stable `sort(key=..., reverse=True)`,
    list comprehensions that keep the items passing a test, `s[:n]` slices and `sum(...)`. */
module Ranking {

  /** Keys never increase from left to right. */
  ghost predicate Descending<T>(s: seq<T>, key: T -> real) {
    forall i, j :: 0 <= i < j < |s| ==> key(s[i]) >= key(s[j])
  }

  /** The items of s whose key is k, in their order in s. */
  function WithKey<T>(s: seq<T>, key: T -> real, k: real): seq<T>
  {
    if s == [] then [] else (if key(s[0]) == k then [s[0]] else []) + WithKey(s[1..], key, k)
  }

  /** Places x in front of the first item whose key is not larger than x's. */
  function Insert<T>(x: T, s: seq<T>, key: T -> real): (r: seq<T>)
    requires Descending(s, key)
    ensures |r| == |s| + 1
    ensures r[0] == x || (s != [] && r[0] == s[0])
    ensures multiset(r) == multiset(s) + multiset{x}
    ensures Descending(r, key)
  {
    if s == [] || key(x) >= key(s[0]) then
      ConsDescending(x, s, key);
      [x] + s
    else
      var rest := Insert(x, s[1..], key);
      ConsDescending(s[0], rest, key);
      ConsMultiset(s, rest, x);
      [s[0]] + rest
  }

  lemma ConsMultiset<T>(s: seq<T>, rest: seq<T>, x: T)
    requires s != [] && multiset(rest) == multiset(s[1..]) + multiset{x}
    ensures multiset([s[0]] + rest) == multiset(s) + multiset{x}
  {
    assert s == [s[0]] + s[1..];
  }

  lemma ConsDescending<T>(h: T, s: seq<T>, key: T -> real)
    requires Descending(s, key)
    requires s == [] || key(h) >= key(s[0])
    ensures Descending([h] + s, key)
  {
    var r := [h] + s;
    forall i, j | 0 <= i < j < |r| ensures key(r[i]) >= key(r[j]) {
      assert r[j] == s[j - 1];
      if i > 0 {
        assert r[i] == s[i - 1];
      } else {
        assert key(s[0]) >= key(s[j - 1]);
      }
    }
  }

  /** Python's `sorted(s, key=key, reverse=True)`: an insertion sort that keeps equal keys in input order. */
  function SortDesc<T>(s: seq<T>, key: T -> real): (r: seq<T>)
    ensures |r| == |s|
    ensures multiset(r) == multiset(s)
    ensures Descending(r, key)
  {
    if s == [] then []
    else
      assert s == [s[0]] + s[1..];
      Insert(s[0], SortDesc(s[1..], key), key)
  }

  /** top is a selection of the heaviest items of s: no item is taken more often than s holds it,
      and every item left over weighs no more than any taken one. */
  ghost predicate Heaviest<T>(s: seq<T>, top: seq<T>, key: T -> real) {
    && multiset(top) <= multiset(s)
    && forall x, i :: x in multiset(s) - multiset(top) && 0 <= i < |top| ==> key(x) <= key(top[i])
  }

  /** A prefix of a descending permutation of s is descending and selects the heaviest items of s. */
  lemma PrefixOfSortedHeaviest<T>(s: seq<T>, sorted: seq<T>, top: seq<T>, key: T -> real)
    requires multiset(sorted) == multiset(s) && Descending(sorted, key)
    requires |top| <= |sorted| && top == sorted[..|top|]
    ensures Descending(top, key) && Heaviest(s, top, key)
  {
    var rest := sorted[|top|..];
    assert sorted == top + rest;
    PrefixLeftOver(s, sorted, top, rest);
    PrefixHeaviest(sorted, top, rest, key);
  }

  /** Every item of a sub-multiset is an item of the larger sequence. */
  lemma SubMultisetItems<T>(top: seq<T>, s: seq<T>)
    requires multiset(top) <= multiset(s)
    ensures forall i :: 0 <= i < |top| ==> top[i] in s
  {
    forall i | 0 <= i < |top| ensures top[i] in s {
      assert top[i] in multiset(top);
    }
  }

  /** What a prefix of a permutation leaves over is the rest of the permutation. */
  lemma PrefixLeftOver<T>(s: seq<T>, sorted: seq<T>, top: seq<T>, rest: seq<T>)
    requires multiset(sorted) == multiset(s) && sorted == top + rest
    ensures multiset(top) <= multiset(s) && multiset(s) - multiset(top) == multiset(rest)
  {
    assert multiset(sorted) == multiset(top) + multiset(rest);
  }

  /** In a descending sequence, every item of a prefix weighs at least as much as every item after it. */
  lemma PrefixHeaviest<T>(sorted: seq<T>, top: seq<T>, rest: seq<T>, key: T -> real)
    requires Descending(sorted, key) && sorted == top + rest
    ensures forall x, i :: x in multiset(rest) && 0 <= i < |top| ==> key(x) <= key(top[i])
  {
    forall x, i | x in multiset(rest) && 0 <= i < |top| ensures key(x) <= key(top[i]) {
      assert x in rest;
      var j :| 0 <= j < |rest| && rest[j] == x;
      assert sorted[|top| + j] == x && sorted[i] == top[i];
    }
  }

  lemma {:induction false} WithKeyInsert<T>(x: T, s: seq<T>, key: T -> real, k: real)
    requires Descending(s, key)
    ensures WithKey(Insert(x, s, key), key, k) == (if key(x) == k then [x] else []) + WithKey(s, key, k)
    decreases |s|
  {
    var r := Insert(x, s, key);
    if s == [] || key(x) >= key(s[0]) {
      assert r == [x] + s;
      assert r[0] == x && r[1..] == s;
    } else {
      var rest := Insert(x, s[1..], key);
      WithKeyInsert(x, s[1..], key, k);
      assert r == [s[0]] + rest;
      assert r[0] == s[0] && r[1..] == rest;
      assert WithKey(s, key, k) == (if key(s[0]) == k then [s[0]] else []) + WithKey(s[1..], key, k);
    }
  }

  /** Stability: sorting keeps the relative order of the items that share a key. */
  lemma {:induction false} SortDescStable<T>(s: seq<T>, key: T -> real, k: real)
    ensures WithKey(SortDesc(s, key), key, k) == WithKey(s, key, k)
  {
    if s != [] {
      SortDescStable(s[1..], key, k);
      WithKeyInsert(s[0], SortDesc(s[1..], key), key, k);
    }
  }

  lemma {:induction false} WithKeyAppend<T>(a: seq<T>, b: seq<T>, key: T -> real, k: real)
    ensures WithKey(a + b, key, k) == WithKey(a, key, k) + WithKey(b, key, k)
  {
    if a != [] {
      WithKeyAppend(a[1..], b, key, k);
      assert (a + b)[0] == a[0];
      assert (a + b)[1..] == a[1..] + b;
    } else {
      assert a + b == b;
    }
  }

  lemma {:induction false} WithKeyAbove<T>(s: seq<T>, key: T -> real, m: real, k: real)
    requires forall i :: 0 <= i < |s| ==> key(s[i]) <= m
    requires k > m
    ensures WithKey(s, key, k) == []
  {
    if s != [] {
      WithKeyAbove(s[1..], key, m, k);
    }
  }

  /** A descending order is determined by the order it keeps within each key: two descending
      sequences that agree on every WithKey are equal. So SortDesc is the one stable descending sort. */
  lemma {:induction false} StableDescendingUnique<T>(a: seq<T>, b: seq<T>, key: T -> real)
    requires Descending(a, key) && Descending(b, key)
    requires forall k :: WithKey(a, key, k) == WithKey(b, key, k)
    ensures a == b
    decreases |a|
  {
    if a != [] {
      var m := key(a[0]);
      assert WithKey(a, key, m) != [];
      assert b != [];
      var n := key(b[0]);
      if m < n {
        WithKeyAbove(a, key, m, n);
      } else if n < m {
        WithKeyAbove(b, key, n, m);
      }
      assert m == n;
      assert a[0] == WithKey(a, key, m)[0] == WithKey(b, key, m)[0] == b[0];
      forall k | true ensures WithKey(a[1..], key, k) == WithKey(b[1..], key, k) {
        var pre: seq<T> := if m == k then [a[0]] else [];
        assert WithKey(a, key, k) == pre + WithKey(a[1..], key, k);
        assert WithKey(b, key, k) == pre + WithKey(b[1..], key, k);
        assert WithKey(a[1..], key, k) == WithKey(a, key, k)[|pre|..];
        assert WithKey(b[1..], key, k) == WithKey(b, key, k)[|pre|..];
      }
      StableDescendingUnique(a[1..], b[1..], key);
    }
  }

  /** Python's `s[:n]`: the first n items, or all but the last -n when n is negative. */
  function Take<T>(s: seq<T>, n: int): (r: seq<T>)
    ensures |r| == if n >= 0 then (if n <= |s| then n else |s|) else (if |s| + n >= 0 then |s| + n else 0)
    ensures r == s[..|r|]
  {
    if n >= 0 then (if n <= |s| then s[..n] else s)
    else (if |s| + n >= 0 then s[..|s| + n] else [])
  }

  /** A list comprehension `[x for x in s if p(x)]`. */
  function Filter<T>(s: seq<T>, p: T -> bool): (r: seq<T>)
    ensures |r| <= |s|
    ensures forall i :: 0 <= i < |r| ==> p(r[i])
    ensures forall i :: 0 <= i < |r| ==> r[i] in s
    ensures forall i :: 0 <= i < |s| && p(s[i]) ==> s[i] in r
  {
    if s == [] then [] else (if p(s[0]) then [s[0]] else []) + Filter(s[1..], p)
  }

  /** Filtering distributes over concatenation, so the items kept stay in their input order. */
  lemma {:induction false} FilterAppend<T>(a: seq<T>, b: seq<T>, p: T -> bool)
    ensures Filter(a + b, p) == Filter(a, p) + Filter(b, p)
  {
    if a != [] {
      var x, rest := a[0], a[1..];
      FilterAppend(rest, b, p);
      assert a == [x] + rest;
      assert a + b == [x] + (rest + b);
      FilterUnfold(a, x, rest, p);
      FilterUnfold(a + b, x, rest + b, p);
      AppendAssoc(if p(x) then [x] else [], Filter(rest, p), Filter(b, p));
    } else {
      assert a + b == b;
    }
  }

  lemma AppendAssoc<T>(a: seq<T>, b: seq<T>, c: seq<T>)
    ensures a + (b + c) == (a + b) + c
  {
  }

  lemma FilterUnfold<T>(s: seq<T>, x: T, rest: seq<T>, p: T -> bool)
    requires s == [x] + rest
    ensures Filter(s, p) == (if p(x) then [x] else []) + Filter(rest, p)
  {
    assert s[0] == x && s[1..] == rest;
  }

  /** The last item is filtered after the others. */
  lemma FilterSnoc<T>(s: seq<T>, p: T -> bool)
    requires s != []
    ensures Filter(s, p) == Filter(s[..|s| - 1], p) + Filter([s[|s| - 1]], p)
  {
    var front, last := s[..|s| - 1], [s[|s| - 1]];
    assert s == front + last;
    FilterSplit(s, front, last, p);
  }

  lemma FilterSplit<T>(whole: seq<T>, a: seq<T>, b: seq<T>, p: T -> bool)
    requires whole == a + b
    ensures Filter(whole, p) == Filter(a, p) + Filter(b, p)
  {
    FilterAppend(a, b, p);
  }

  /** `sum(f(x) for x in s)` */
  function Sum<T>(s: seq<T>, f: T -> real): real
  {
    if s == [] then 0.0 else f(s[0]) + Sum(s[1..], f)
  }

  lemma {:induction false} SumAppend<T>(a: seq<T>, b: seq<T>, f: T -> real)
    ensures Sum(a + b, f) == Sum(a, f) + Sum(b, f)
  {
    if a != [] {
      SumAppend(a[1..], b, f);
      assert (a + b)[0] == a[0];
      assert (a + b)[1..] == a[1..] + b;
    } else {
      assert a + b == b;
    }
  }

  lemma SumRemoveAt<T>(b: seq<T>, i: nat, f: T -> real)
    requires i < |b|
    ensures Sum(b, f) == f(b[i]) + Sum(b[..i] + b[i + 1..], f)
  {
    var front, mid, back := b[..i], [b[i]] + b[i + 1..], b[i + 1..];
    assert b == front + mid;
    SumSplit(b, front, mid, f);
    SumCons(b[i], back, f);
    SumAppend(front, back, f);
  }

  lemma SumSplit<T>(whole: seq<T>, a: seq<T>, b: seq<T>, f: T -> real)
    requires whole == a + b
    ensures Sum(whole, f) == Sum(a, f) + Sum(b, f)
  {
    SumAppend(a, b, f);
  }

  lemma SumCons<T>(x: T, s: seq<T>, f: T -> real)
    ensures Sum([x] + s, f) == f(x) + Sum(s, f)
  {
    assert ([x] + s)[1..] == s;
  }

  lemma MultisetRemoveAt<T>(b: seq<T>, i: nat)
    requires i < |b|
    ensures multiset(b[..i] + b[i + 1..]) == multiset(b) - multiset{b[i]}
  {
    assert b == b[..i] + [b[i]] + b[i + 1..];
  }

  /** A sum does not depend on the order of the items it adds up. */
  lemma {:induction false} SumPermutation<T>(a: seq<T>, b: seq<T>, f: T -> real)
    requires multiset(a) == multiset(b)
    ensures Sum(a, f) == Sum(b, f)
    decreases |a|
  {
    if a != [] {
      assert a[0] in multiset(b);
      var i :| 0 <= i < |b| && b[i] == a[0];
      RemoveMatched(a, b, i);
      SumPermutation(a[1..], b[..i] + b[i + 1..], f);
      SumRemoveAt(b, i, f);
    }
  }

  /** Taking the first item of a and a matching item of b leaves two permutations of each other. */
  lemma RemoveMatched<T>(a: seq<T>, b: seq<T>, i: nat)
    requires multiset(a) == multiset(b) && a != [] && i < |b| && b[i] == a[0]
    ensures multiset(a[1..]) == multiset(b[..i] + b[i + 1..])
  {
    MultisetRemoveAt(a, 0);
    MultisetRemoveAt(b, i);
    assert a[..0] + a[1..] == a[1..];
  }

  /** `any(p(x) for x in s)` */
  predicate Any<T>(s: seq<T>, p: T -> bool) {
    exists i :: 0 <= i < |s| && p(s[i])
  }

  lemma AnyCons<T>(s: seq<T>, p: T -> bool)
    requires s != []
    ensures Any(s, p) <==> p(s[0]) || Any(s[1..], p)
  {
    if Any(s, p) {
      var i :| 0 <= i < |s| && p(s[i]);
      if i > 0 {
        assert s[1..][i - 1] == s[i];
      }
    }
    if Any(s[1..], p) {
      var i :| 0 <= i < |s[1..]| && p(s[1..][i]);
      assert s[i + 1] == s[1..][i];
    }
  }

  lemma AnySnoc<T>(s: seq<T>, p: T -> bool)
    requires s != []
    ensures Any(s, p) <==> Any(s[..|s| - 1], p) || p(s[|s| - 1])
  {
    var front := s[..|s| - 1];
    if Any(s, p) {
      var i :| 0 <= i < |s| && p(s[i]);
      if i < |front| {
        assert front[i] == s[i];
      }
    }
    if Any(front, p) {
      var i :| 0 <= i < |front| && p(front[i]);
      assert s[i] == front[i];
    }
  }

  /** Whether some item passes does not depend on the order of the items. */
  lemma AnyPermutation<T>(a: seq<T>, b: seq<T>, p: T -> bool)
    requires multiset(a) == multiset(b)
    ensures Any(a, p) <==> Any(b, p)
  {
    if Any(a, p) {
      var i :| 0 <= i < |a| && p(a[i]);
      assert a[i] in multiset(b);
      var j :| 0 <= j < |b| && b[j] == a[i];
    }
    if Any(b, p) {
      var j :| 0 <= j < |b| && p(b[j]);
      assert b[j] in multiset(a);
      var i :| 0 <= i < |a| && a[i] == b[j];
    }
  }

  /** Where an item of the second of four consecutive parts sits in their concatenation. */
  lemma MiddleAt<T>(whole: seq<T>, a: seq<T>, b: seq<T>, c: seq<T>, d: seq<T>, at: nat, j: nat)
    requires whole == a + b + c + d && at == |a| && j < |b|
    ensures at + j < |whole| && whole[at + j] == b[j]
  { }

  /** The second of two consecutive parts is what follows the first. */
  lemma SuffixAt<T>(whole: seq<T>, a: seq<T>, b: seq<T>, at: nat)
    requires whole == a + b && at == |a|
    ensures at <= |whole| && whole[at..] == b
  { }

  /** b occurs in whole starting at index at. */
  ghost predicate SectionAt<T>(whole: seq<T>, at: nat, b: seq<T>) {
    at + |b| <= |whole| && whole[at..at + |b|] == b
  }

  /** whole holds x at index at. */
  ghost predicate ItemAt<T>(whole: seq<T>, at: nat, x: T) {
    at < |whole| && whole[at] == x
  }

  /** Item j of the second of two consecutive parts. */
  lemma TailItemAt<T>(whole: seq<T>, front: seq<T>, b: seq<T>, at: nat, j: nat, x: T)
    requires whole == front + b && at == |front| + j && j < |b| && b[j] == x
    ensures ItemAt(whole, at, x)
  { }

  /** The second of four consecutive parts starts where the first ends. */
  lemma SliceAt<T>(whole: seq<T>, a: seq<T>, b: seq<T>, c: seq<T>, d: seq<T>, at: nat)
    requires whole == a + b + c + d && at == |a|
    ensures SectionAt(whole, at, b)
  {
    assert whole == a + b + (c + d);
  }

  /** An index into the front of a concatenation reads the front. */
  lemma PrefixAt<T>(front: seq<T>, a: seq<T>, b: seq<T>, c: seq<T>, d: seq<T>, j: nat)
    requires j < |front|
    ensures j < |front + a + b + c + d| && (front + a + b + c + d)[j] == front[j]
  { }

  /** Four consecutive parts each start where the ones before them end. */
  lemma FourParts<T>(whole: seq<T>, a: seq<T>, b: seq<T>, c: seq<T>, d: seq<T>, i: nat, j: nat, k: nat)
    requires whole == a + b + c + d && i == |a| && j == i + |b| && k == j + |c|
    ensures SectionAt(whole, 0, a) && SectionAt(whole, i, b) && SectionAt(whole, j, c) && SectionAt(whole, k, d)
  {
    assert whole == [] + a + b + (c + d);
    SliceAt(whole, [], a, b, c + d, 0);
    SliceAt(whole, a, b, c, d, i);
    assert whole == (a + b) + c + d + [];
    SliceAt(whole, a + b, c, d, [], j);
    assert whole == (a + b + c) + d + [] + [];
    SliceAt(whole, a + b + c, d, [], [], k);
  }
}

=== FILE: raw_csv.dfy ===
/** The generic raw-to-CSV converter of tools/autoflame.py: the name of the CSV file and the
    rows written for the lines of the raw file. */
module RawCsv {
  import opened Wrappers
  import opened Text
  import opened Ranking

  /** The CSV name: ".raw", then ".txt", replaced by ".csv" wherever they occur; when neither
      occurs, ".csv" is appended. */
  function CsvName(raw: string): (r: string)
    ensures r != raw
  {
    var renamed := Replace(Replace(raw, ".raw", ".csv"), ".txt", ".csv");
    if renamed == raw then raw + ".csv" else renamed
  }

  /** No occurrence of the pattern: nothing is replaced. */
  lemma {:induction false} ReplaceAbsent(s: string, pat: string, rep: string)
    requires pat != [] && !Contains(s, pat)
    ensures Replace(s, pat, rep) == s
    decreases |s|
  {
    if |s| >= |pat| {
      assert s[..|pat|] != pat;
      ReplaceAbsent(s[1..], pat, rep);
      assert s == [s[0]] + s[1..];
    }
  }

  /** A name holding neither ".raw" nor ".txt" gets ".csv" appended. */
  lemma CsvNameAppends(raw: string)
    requires !Contains(raw, ".raw") && !Contains(raw, ".txt")
    ensures CsvName(raw) == raw + ".csv"
  {
    ReplaceAbsent(raw, ".raw", ".csv");
    ReplaceAbsent(raw, ".txt", ".csv");
  }

  /** A stem without points named ".raw" gets that extension replaced by ".csv". */
  lemma CsvNameRaw(stem: string)
    requires '.' !in stem
    ensures CsvName(stem + ".raw") == stem + ".csv"
  {
    ReplaceSkip(stem, ".raw", ".raw", ".csv");
    assert Replace(".raw", ".raw", ".csv") == ".csv";
    ReplaceSkip(stem, ".csv", ".txt", ".csv");
    assert Replace(".csv", ".txt", ".csv") == ".csv";
    assert stem + ".csv" != stem + ".raw" by { assert (stem + ".csv")[|stem| + 1] == 'c'; }
  }

  /** A stem without points named ".txt" gets that extension replaced by ".csv". */
  lemma CsvNameTxt(stem: string)
    requires '.' !in stem
    ensures CsvName(stem + ".txt") == stem + ".csv"
  {
    ReplaceSkip(stem, ".txt", ".raw", ".csv");
    assert Replace(".txt", ".raw", ".csv") == ".txt";
    ReplaceSkip(stem, ".txt", ".txt", ".csv");
    assert Replace(".txt", ".txt", ".csv") == ".csv";
    assert stem + ".csv" != stem + ".txt" by { assert (stem + ".csv")[|stem| + 1] == 'c'; }
  }

  // ---------------------------------------------------------------------------
  // The line loop

  /** A line is written out when it is not blank and has a blank to split at. */
  predicate Kept(line: string) {
    Strip(line) != [] && ' ' in line
  }

  /** A CSV row of two fields. */
  type Row = (string, string)

  /** The row written for a kept line: the text before its last blank and the text after it
      (line.rsplit(' ', 1)). */
  function RowOf(line: string): (row: Row)
    requires Kept(line)
    ensures row.0 + " " + row.1 == line && ' ' !in row.1
  {
    RSplitOnce(line, ' ').value
  }

  /** What one line contributes: its row when it is kept, nothing otherwise. */
  function LineRows(line: string): seq<Row> {
    if Kept(line) then [RowOf(line)] else []
  }

  /** The rows written for the lines, after the header. */
  function CsvRows(lines: seq<string>): (rows: seq<Row>)
    ensures |rows| <= |lines|
  {
    if lines == [] then []
    else
      var last := lines[|lines| - 1];
      CsvRows(lines[..|lines| - 1]) + LineRows(last)
  }

  const Header: Row := ("stack", "count")

  /** The loop of _convert_to_csv over the lines of the raw file (each with its line break). */
  method ConvertLines(lines: seq<string>) returns (rows: seq<Row>)
    ensures rows == [Header] + CsvRows(lines)
  {
    rows := [Header];
    var i := 0;
    assert lines[..0] == [];
    while i < |lines|
      invariant 0 <= i <= |lines|
      invariant rows == Written(lines, i)
    {
      WrittenStep(lines, i);
      rows := WriteLine(rows, lines[i]);
      i := i + 1;
    }
    assert lines[..i] == lines;
  }

  /** The file's rows once the first i lines are processed. */
  function Written(lines: seq<string>, i: nat): seq<Row>
    requires i <= |lines|
  {
    [Header] + CsvRows(lines[..i])
  }

  lemma WrittenStep(lines: seq<string>, i: nat)
    requires i < |lines|
    ensures Written(lines, i + 1) == Written(lines, i) + LineRows(lines[i])
  {
    CsvRowsStep(lines, i);
  }

  /** One pass of the loop: a non-blank line split at its last blank into two parts is written. */
  method WriteLine(rows: seq<Row>, line: string) returns (rows': seq<Row>)
    ensures rows' == rows + LineRows(line)
  {
    rows' := rows;
    if Strip(line) != [] {
      match RSplitOnce(line, ' ')
      case Some((stack, count)) =>
        rows' := rows + [(stack, count)];
      case None =>
    }
  }

  /** One more line adds its row when it is kept, and nothing otherwise. */
  lemma CsvRowsStep(lines: seq<string>, i: nat)
    requires i < |lines|
    ensures CsvRows(lines[..i + 1]) == CsvRows(lines[..i]) + LineRows(lines[i])
  {
    assert lines[..i + 1][..i] == lines[..i];
  }

  /** The joined rows of a sequence of lines. */
  function Joined(rows: seq<Row>): seq<string>
  {
    seq(|rows|, i requires 0 <= i < |rows| => rows[i].0 + " " + rows[i].1)
  }

  /** Joining each row's two fields with a blank gives back exactly the kept lines, in their order. */
  lemma {:induction false} CsvRowsRoundTrip(lines: seq<string>)
    ensures Joined(CsvRows(lines)) == Filter(lines, Kept)
  {
    if lines != [] {
      var front := lines[..|lines| - 1];
      var last := lines[|lines| - 1];
      CsvRowsRoundTrip(front);
      FilterSnoc(lines, Kept);
      JoinedAppend(CsvRows(front), LineRows(last));
      JoinedLine(last);
    }
  }

  /** One line joins back to itself when it is kept, and to nothing otherwise. */
  lemma JoinedLine(line: string)
    ensures Joined(LineRows(line)) == Filter([line], Kept)
  {
    if Kept(line) {
      assert Joined(LineRows(line)) == [line];
    }
  }

  lemma JoinedAppend(a: seq<Row>, b: seq<Row>)
    ensures Joined(a + b) == Joined(a) + Joined(b)
  {
  }
}

=== FILE: text.dfy ===
/** String scanning shared by the parsers: the parts of Python's str methods and of the
    few regular expressions the profiling tools use, written as small recursive functions. */
module Text {
  import opened Wrappers

  /** Python's str.isspace(): the characters strip(), split() and regex \s treat as blank. */
  predicate IsSpace(c: char) {
    c == ' ' || ('\t' <= c <= '\r') || ('\U{1C}' <= c <= '\U{1F}') || c == '\U{85}' || c == '\U{A0}'
    || c == '\U{1680}' || ('\U{2000}' <= c <= '\U{200A}') || c == '\U{2028}' || c == '\U{2029}'
    || c == '\U{202F}' || c == '\U{205F}' || c == '\U{3000}'
  }

  predicate NonSpace(c: char) { !IsSpace(c) }

  predicate NoSpace(w: string) { forall k :: 0 <= k < |w| ==> !IsSpace(w[k]) }

  /** An ASCII decimal digit (what \d and float() accept in the model). */
  predicate IsDigit(c: char) { '0' <= c <= '9' }

  predicate AllDigits(s: string) { forall i :: 0 <= i < |s| ==> IsDigit(s[i]) }

  predicate StartsWith(s: string, prefix: string) {
    |prefix| <= |s| && s[..|prefix|] == prefix
  }

  /** Python's `sub in s` for strings. */
  predicate Contains(s: string, sub: string)
    decreases |s|
  {
    StartsWith(s, sub) || (s != [] && Contains(s[1..], sub))
  }

  /** The end of the longest run of characters satisfying p that starts at i. */
  function SpanEnd(s: string, i: nat, p: char -> bool): (j: nat)
    requires i <= |s|
    ensures i <= j <= |s|
    ensures forall k :: i <= k < j ==> p(s[k])
    ensures j == |s| || !p(s[j])
    decreases |s| - i
  {
    if i < |s| && p(s[i]) then SpanEnd(s, i + 1, p) else i
  }

  /** str.lstrip() */
  function StripLeft(s: string): (r: string)
    ensures |r| <= |s| && r == s[|s| - |r|..]
    ensures r == [] || !IsSpace(r[0])
    ensures forall i :: 0 <= i < |s| - |r| ==> IsSpace(s[i])
  {
    if s != [] && IsSpace(s[0]) then StripLeft(s[1..]) else s
  }

  /** str.rstrip() */
  function StripRight(s: string): (r: string)
    ensures |r| <= |s| && r == s[..|r|]
    ensures r == [] || !IsSpace(r[|r| - 1])
    ensures forall i :: |r| <= i < |s| ==> IsSpace(s[i])
  {
    if s != [] && IsSpace(s[|s| - 1]) then StripRight(s[..|s| - 1]) else s
  }

  /** str.strip(): the result has no blank at either end; StripSlice states that every
      character removed was blank. */
  function Strip(s: string): (r: string)
    ensures |r| <= |s|
    ensures r == [] || (!IsSpace(r[0]) && !IsSpace(r[|r| - 1]))
    ensures r == [] <==> forall i :: 0 <= i < |s| ==> IsSpace(s[i])
  {
    var t := StripRight(s);
    assert t == [] ==> forall i :: 0 <= i < |s| ==> IsSpace(s[i]);
    StripLeft(t)
  }

  /** str.split(sep) for a one-character separator: the pieces between separators, empty pieces included. */
  function Split(s: string, sep: char): (parts: seq<string>)
    ensures |parts| >= 1
    ensures forall i :: 0 <= i < |parts| ==> sep !in parts[i]
    decreases |s|
  {
    if s == [] then [""]
    else
      var rest := Split(s[1..], sep);
      if s[0] == sep then [""] + rest
      else [[s[0]] + rest[0]] + rest[1..]
  }

  /** s.strip().split('\n'): the lines of a text without its surrounding blanks; always at
      least one, the only one being empty when the text is blank. */
  function StrippedLines(s: string): (lines: seq<string>)
    ensures |lines| >= 1
    ensures Strip(s) == [] ==> lines == [[]]
  {
    Split(Strip(s), '\n')
  }

  /** sep.join(parts) for a one-character separator. */
  function Join(parts: seq<string>, sep: char): string
  {
    if |parts| == 0 then ""
    else if |parts| == 1 then parts[0]
    else parts[0] + [sep] + Join(parts[1..], sep)
  }

  /** Joining the pieces of a split with the same separator gives back the original string. */
  lemma {:induction false} JoinSplit(s: string, sep: char)
    ensures Join(Split(s, sep), sep) == s
    decreases |s|
  {
    if s != [] {
      var rest := Split(s[1..], sep);
      JoinSplit(s[1..], sep);
      if s[0] == sep {
        assert Split(s, sep) == [""] + rest;
        assert ([""] + rest)[1..] == rest;
      } else if |rest| > 1 {
        var parts := Split(s, sep);
        assert parts[1..] == rest[1..];
        assert Join(rest, sep) == rest[0] + [sep] + Join(rest[1..], sep);
      }
    }
  }

  /** Splitting off the last piece of a join of at least two pieces. */
  lemma {:induction false} JoinLast(parts: seq<string>, sep: char)
    requires |parts| >= 2
    ensures Join(parts, sep) == Join(parts[..|parts| - 1], sep) + [sep] + parts[|parts| - 1]
    decreases |parts|
  {
    if |parts| > 2 {
      JoinLast(parts[1..], sep);
      assert parts[1..][..|parts| - 2] == parts[..|parts| - 1][1..];
    }
  }

  /** A string without the separator is a single piece. */
  lemma {:induction false} SplitNoSep(s: string, sep: char)
    requires sep !in s
    ensures Split(s, sep) == [s]
    decreases |s|
  {
    if s != [] {
      SplitNoSep(s[1..], sep);
      assert [s[0]] + s[1..] == s;
    }
  }

  /** Splitting around one separator splits the two sides independently. */
  lemma {:induction false} SplitConcat(a: string, b: string, sep: char)
    ensures Split(a + [sep] + b, sep) == Split(a, sep) + Split(b, sep)
    decreases |a|
  {
    if a == [] {
      assert a + [sep] + b == [sep] + b;
      SplitConsSep(b, sep);
    } else {
      var t := a[1..] + [sep] + b;
      assert a + [sep] + b == [a[0]] + t;
      assert a == [a[0]] + a[1..];
      SplitConcat(a[1..], b, sep);
      SplitSameHead(a[0], t, a[1..], Split(b, sep), sep);
    }
  }

  /** A separator in front adds an empty first piece. */
  lemma SplitConsSep(t: string, sep: char)
    ensures Split([sep] + t, sep) == [""] + Split(t, sep)
  {
    assert ([sep] + t)[1..] == t;
  }

  /** Any other character in front extends the first piece. */
  lemma SplitConsOther(c: char, t: string, sep: char)
    requires c != sep
    ensures Split([c] + t, sep) == [[c] + Split(t, sep)[0]] + Split(t, sep)[1..]
  {
    assert ([c] + t)[1..] == t;
  }

  /** Two tails that split alike, up to a common suffix of pieces, still do with a character in front. */
  lemma SplitSameHead(c: char, t: string, u: string, right: seq<string>, sep: char)
    requires Split(t, sep) == Split(u, sep) + right
    ensures Split([c] + t, sep) == Split([c] + u, sep) + right
  {
    if c != sep {
      SplitConsOther(c, t, sep);
      SplitConsOther(c, u, sep);
      MergeFirst([c], Split(u, sep), right);
    } else {
      SplitConsSep(t, sep);
      SplitConsSep(u, sep);
      AppendAssoc([""], Split(u, sep), right);
    }
  }

  lemma AppendAssoc<T>(a: seq<T>, b: seq<T>, c: seq<T>)
    ensures a + (b + c) == a + b + c
  {
  }

  /** Extending the first piece of left + right extends the first piece of left. */
  lemma MergeFirst(x: string, left: seq<string>, right: seq<string>)
    requires left != []
    ensures [x + (left + right)[0]] + (left + right)[1..] == [x + left[0]] + left[1..] + right
  {
    assert (left + right)[0] == left[0];
    assert (left + right)[1..] == left[1..] + right;
  }

  /** An occurrence of sub at position i makes `sub in s` true. */
  lemma {:induction false} ContainsAt(s: string, i: nat, sub: string)
    requires i + |sub| <= |s| && s[i..i + |sub|] == sub
    ensures Contains(s, sub)
    decreases i
  {
    if i > 0 {
      ContainsAt(s[1..], i - 1, sub);
      assert s[1..][i - 1..i - 1 + |sub|] == s[i..i + |sub|];
    } else {
      assert s[..|sub|] == sub;
    }
  }

  /** strip() leaves alone a string that neither starts nor ends with a blank. */
  lemma StripUnchanged(s: string)
    requires s != [] && !IsSpace(s[0]) && !IsSpace(s[|s| - 1])
    ensures Strip(s) == s
  {
    assert StripRight(s) == s;
    assert StripLeft(s) == s;
  }

  /** str.strip() keeps one contiguous piece of the text: only blanks come before it and
      only blanks after it. */
  lemma StripSlice(s: string)
    ensures var r := Strip(s); var i := |StripRight(s)| - |r|;
      && i + |r| <= |s| && r == s[i..i + |r|]
      && (forall k :: 0 <= k < i ==> IsSpace(s[k]))
      && (forall k :: i + |r| <= k < |s| ==> IsSpace(s[k]))
  {
    var t := StripRight(s);
    var r := StripLeft(t);
    var i := |t| - |r|;
    assert r == t[i..] && t == s[..|t|];
    assert t[i..] == s[i..|t|];
    assert forall k :: 0 <= k < i ==> t[k] == s[k];
  }

  /** str.split() with no argument: the maximal runs of non-blank characters. */
  function Words(s: string): (ws: seq<string>)
    ensures forall i :: 0 <= i < |ws| ==> ws[i] != [] && NoSpace(ws[i])
    decreases |s|
  {
    if s == [] then []
    else if IsSpace(s[0]) then Words(s[1..])
    else
      var j := SpanEnd(s, 0, NonSpace);
      assert NoSpace(s[..j]);
      [s[..j]] + Words(s[j..])
  }

  /** A word followed by a blank is split off as the first word. */
  lemma WordsCons(w: string, rest: string)
    requires w != [] && NoSpace(w)
    ensures Words(w + " " + rest) == [w] + Words(rest)
  {
    var s := w + " " + rest;
    assert !IsSpace(s[0]);
    var j := SpanEnd(s, 0, NonSpace);
    assert forall k :: 0 <= k < |w| ==> NonSpace(s[k]);
    assert !NonSpace(s[|w|]);
    assert j == |w|;
    assert s[..j] == w;
    assert s[j..] == " " + rest;
    assert (" " + rest)[1..] == rest;
  }

  /** A lone word is its own single word. */
  lemma WordsSingle(w: string)
    requires w != [] && NoSpace(w)
    ensures Words(w) == [w]
  {
    assert !IsSpace(w[0]);
    var j := SpanEnd(w, 0, NonSpace);
    assert forall k :: 0 <= k < |w| ==> NonSpace(w[k]);
    assert j == |w|;
    assert w[..j] == w;
    assert w[j..] == [];
  }

  /** str.replace(',', '') and the like: every occurrence of c removed, the rest kept in order. */
  function RemoveChar(s: string, c: char): (r: string)
    ensures c !in r && |r| <= |s|
    ensures forall x :: x in r <==> x in s && x != c
    ensures multiset(r) == multiset(s)[c := 0]
    ensures c !in s ==> r == s
  {
    if s == [] then ""
    else if s[0] == c then
      assert s == [s[0]] + s[1..];
      RemoveChar(s[1..], c)
    else
      assert s == [s[0]] + s[1..];
      [s[0]] + RemoveChar(s[1..], c)
  }

  /** Removing a character piece by piece: the kept characters stay in their order. */
  lemma {:induction false} RemoveCharAppend(a: string, b: string, c: char)
    ensures RemoveChar(a + b, c) == RemoveChar(a, c) + RemoveChar(b, c)
    decreases |a|
  {
    if a != [] {
      assert (a + b)[0] == a[0] && (a + b)[1..] == a[1..] + b;
      RemoveCharAppend(a[1..], b, c);
    } else {
      assert a + b == b;
    }
  }

  /** str.replace(pat, rep): occurrences of pat, scanned left to right without overlap, become rep. */
  function Replace(s: string, pat: string, rep: string): (r: string)
    requires pat != []
    ensures |pat| == |rep| ==> |r| == |s|
    decreases |s|
  {
    if |s| < |pat| then s
    else if s[..|pat|] == pat then rep + Replace(s[|pat|..], pat, rep)
    else [s[0]] + Replace(s[1..], pat, rep)
  }

  /** A prefix that holds no first character of the pattern is copied unchanged. */
  lemma {:induction false} ReplaceSkip(a: string, b: string, pat: string, rep: string)
    requires pat != [] && pat[0] !in a
    ensures Replace(a + b, pat, rep) == a + Replace(b, pat, rep)
    decreases |a|
  {
    if a != [] {
      var s := a + b;
      assert s[0] == a[0] != pat[0];
      assert s[1..] == a[1..] + b;
      ReplaceSkip(a[1..], b, pat, rep);
      if |s| >= |pat| {
        assert s[..|pat|][0] == s[0];
      }
    } else {
      assert a + b == b;
    }
  }

  /** The index of the last occurrence of c, if any. */
  function LastIndexOf(s: string, c: char): (r: Option<nat>)
    ensures r.None? <==> c !in s
    ensures r.Some? ==> r.value < |s| && s[r.value] == c && c !in s[r.value + 1..]
  {
    if s == [] then None
    else if s[|s| - 1] == c then Some(|s| - 1)
    else
      var r := LastIndexOf(s[..|s| - 1], c);
      assert r.Some? ==> s[r.value + 1..] == s[..|s| - 1][r.value + 1..] + [s[|s| - 1]];
      r
  }

  /** s.rsplit(c, 1) when it yields two parts: the text before and after the last c. */
  function RSplitOnce(s: string, c: char): (r: Option<(string, string)>)
    ensures r.None? <==> c !in s
    ensures r.Some? ==> r.value.0 + [c] + r.value.1 == s && c !in r.value.1
  {
    match LastIndexOf(s, c)
    case None => None
    case Some(i) =>
      assert s[..i] + [c] + s[i + 1..] == s;
      Some((s[..i], s[i + 1..]))
  }

  /** c * n in Python: n copies of c, nothing when n is zero or negative. */
  function Repeat(c: char, n: int): (r: string)
    ensures |r| == if n > 0 then n else 0
    ensures forall i :: 0 <= i < |r| ==> r[i] == c
  {
    seq(if n > 0 then n else 0, _ => c)
  }

  /** The value of a run of decimal digits (0 for the empty run). */
  function DigitsValue(d: string): (v: nat)
    requires AllDigits(d)
  {
    if d == [] then 0 else DigitsValue(d[..|d| - 1]) * 10 + (d[|d| - 1] - '0') as nat
  }

  function Pow10(n: nat): (p: nat)
    ensures p >= 1
  {
    if n == 0 then 1 else 10 * Pow10(n - 1)
  }

  /** Text the group (\d+\.?\d*) can capture: a digit first, then digits and at most one point. */
  predicate DecimalShape(g: string) {
    && g != [] && IsDigit(g[0])
    && (forall k :: 0 <= k < |g| ==> IsDigit(g[k]) || g[k] == '.')
    && (forall a, b :: 0 <= a < b < |g| && g[a] == '.' ==> g[b] != '.')
  }

  /** Text float() reads as an unsigned number: digits and at most one point, with at least
      one digit somewhere ("5", "5.", ".5", "5.25"). */
  predicate UnsignedText(t: string) {
    && (forall k :: 0 <= k < |t| ==> IsDigit(t[k]) || t[k] == '.')
    && (exists k :: 0 <= k < |t| && IsDigit(t[k]))
    && (forall a, b :: 0 <= a < b < |t| && t[a] == '.' ==> t[b] != '.')
  }

  /** The value of a decimal text `digits[.digits]` as matched by `\d+\.?\d*` (float() of the match). */
  function DecimalValue(g: string): (v: real)
    ensures v >= 0.0
  {
    var j := SpanEnd(g, 0, IsDigit);
    var whole := DigitsValue(g[..j]) as real;
    if j < |g| && g[j] == '.' then
      var k := SpanEnd(g, j + 1, IsDigit);
      whole + DigitsValue(g[j + 1..k]) as real / Pow10(k - j - 1) as real
    else whole
  }

  /** Python's float() on a text without sign: digits with at most one '.', at least one digit. */
  function ParseUnsigned(t: string): (r: Option<real>)
    ensures r.Some? ==> r.value >= 0.0
  {
    var j := SpanEnd(t, 0, IsDigit);
    if j == |t| then
      if j == 0 then None else Some(DigitsValue(t) as real)
    else if t[j] != '.' then None
    else
      var k := SpanEnd(t, j + 1, IsDigit);
      if k != |t| || (j == 0 && k == j + 1) then None
      else Some(DigitsValue(t[..j]) as real + DigitsValue(t[j + 1..]) as real / Pow10(k - j - 1) as real)
  }

  /** Python's float() on a field of text: surrounding blanks ignored, an optional sign, then a
      decimal number; None where float() raises ValueError. */
  function ParseFloat(s: string): (r: Option<real>)
    ensures Strip(s) == [] ==> r.None?
  {
    ParseSigned(Strip(s))
  }

  /** float() on a text already stripped: an optional sign, then an unsigned number. */
  function ParseSigned(t: string): Option<real>
  {
    if t == [] then None
    else if t[0] == '-' then
      match ParseUnsigned(t[1..])
      case Some(v) => Some(-v)
      case None => None
    else if t[0] == '+' then ParseUnsigned(t[1..])
    else ParseUnsigned(t)
  }

  /** ParseUnsigned accepts exactly the unsigned texts, and reads each as its decimal value. */
  lemma ParseUnsignedMeaning(t: string)
    ensures ParseUnsigned(t) == if UnsignedText(t) then Some(DecimalValue(t)) else None
  {
    var j := SpanEnd(t, 0, IsDigit);
    if j == |t| {
      if j == 0 {
        assert !UnsignedText(t);
      } else {
        assert IsDigit(t[0]);
        assert t[..j] == t;
      }
    } else if t[j] != '.' {
      assert !UnsignedText(t);
    } else {
      var k := SpanEnd(t, j + 1, IsDigit);
      if k != |t| {
        assert j < k && !IsDigit(t[k]);
        assert !UnsignedText(t);
      } else if j == 0 && k == j + 1 {
        assert t == ".";
        assert !UnsignedText(t);
      } else {
        assert t[j + 1..k] == t[j + 1..];
        if j > 0 {
          assert IsDigit(t[0]);
        } else {
          assert IsDigit(t[1]);
        }
      }
    }
  }

  /** float() on a stripped text: an optional sign followed by an unsigned text, read as its
      signed decimal value; anything else is rejected. */
  lemma ParseSignedMeaning(t: string)
    ensures t == [] ==> ParseSigned(t).None?
    ensures t != [] && t[0] == '-' ==>
      ParseSigned(t) == if UnsignedText(t[1..]) then Some(-DecimalValue(t[1..])) else None
    ensures t != [] && t[0] == '+' ==>
      ParseSigned(t) == if UnsignedText(t[1..]) then Some(DecimalValue(t[1..])) else None
    ensures t != [] && t[0] != '-' && t[0] != '+' ==>
      ParseSigned(t) == if UnsignedText(t) then Some(DecimalValue(t)) else None
  {
    if t != [] {
      if t[0] == '-' || t[0] == '+' {
        ParseUnsignedMeaning(t[1..]);
      } else {
        ParseUnsignedMeaning(t);
      }
    }
  }

  /** Python's float() on a field: the surrounding blanks are stripped, then the text is read
      as ParseSignedMeaning states. */
  lemma ParseFloatMeaning(s: string)
    ensures var t := Strip(s);
      && (t == [] ==> ParseFloat(s).None?)
      && (t != [] && t[0] == '-' ==>
            ParseFloat(s) == if UnsignedText(t[1..]) then Some(-DecimalValue(t[1..])) else None)
      && (t != [] && t[0] == '+' ==>
            ParseFloat(s) == if UnsignedText(t[1..]) then Some(DecimalValue(t[1..])) else None)
      && (t != [] && t[0] != '-' && t[0] != '+' ==>
            ParseFloat(s) == if UnsignedText(t) then Some(DecimalValue(t)) else None)
  {
    ParseSignedMeaning(Strip(s));
  }

  /** A number the group (\d+\.?\d*) captures reads as its decimal value, with either sign. */
  lemma ParseFloatDecimal(d: string)
    requires DecimalShape(d)
    ensures ParseFloat(d) == Some(DecimalValue(d))
    ensures ParseFloat("-" + d) == Some(-DecimalValue(d))
    ensures ParseFloat("+" + d) == Some(DecimalValue(d))
  {
    DecimalUnsigned(d);
    SignedDecimal(d);
    ReadUnsigned(d);
  }

  /** A sign written before an unsigned number that ends in a non-blank is read with it. */
  lemma SignedDecimal(d: string)
    requires d != [] && !IsSpace(d[|d| - 1]) && ParseUnsigned(d) == Some(DecimalValue(d))
    ensures ParseFloat("-" + d) == Some(-DecimalValue(d))
    ensures ParseFloat("+" + d) == Some(DecimalValue(d))
  {
    ReadNegative(d, DecimalValue(d));
    ReadPositive(d);
  }

  /** A captured number is an unsigned text without blanks at its ends. */
  lemma DecimalUnsigned(d: string)
    requires DecimalShape(d)
    ensures ParseUnsigned(d) == Some(DecimalValue(d))
    ensures d != [] && IsDigit(d[0]) && !IsSpace(d[|d| - 1])
  {
    assert UnsignedText(d) by { assert IsDigit(d[0]); }
    ParseUnsignedMeaning(d);
    var last := d[|d| - 1];
    assert IsDigit(last) || last == '.';
  }

  /** An unsigned text without blanks at its ends is read by ParseUnsigned alone. */
  lemma ReadUnsigned(u: string)
    requires u != [] && IsDigit(u[0]) && !IsSpace(u[|u| - 1])
    ensures ParseFloat(u) == ParseUnsigned(u)
  {
    StripUnchanged(u);
  }

  /** A '-' before a text that ends in a non-blank negates the value ParseUnsigned reads. */
  lemma ReadNegative(u: string, v: real)
    requires u != [] && !IsSpace(u[|u| - 1]) && ParseUnsigned(u) == Some(v)
    ensures ParseFloat("-" + u) == Some(-v)
  {
    var m := "-" + u;
    assert m[|m| - 1] == u[|u| - 1];
    StripUnchanged(m);
    assert m[1..] == u;
  }

  /** A '+' before a text that ends in a non-blank leaves what ParseUnsigned reads. */
  lemma ReadPositive(u: string)
    requires u != [] && !IsSpace(u[|u| - 1])
    ensures ParseFloat("+" + u) == ParseUnsigned(u)
  {
    var m := "+" + u;
    assert m[|m| - 1] == u[|u| - 1];
    StripUnchanged(m);
    assert m[1..] == u;
  }

  /** str(n) for a natural number. */
  function NatToString(n: nat): (s: string)
    ensures s != [] && AllDigits(s)
  {
    if n < 10 then [(n as char) + '0'] else NatToString(n / 10) + [((n % 10) as char) + '0']
  }

  /** str(n) for an integer. */
  function IntToString(n: int): string
  {
    if n < 0 then "-" + NatToString(-n) else NatToString(n)
  }

  /** Reading back the digits str() writes gives the number. */
  lemma {:induction false} DigitsValueOfNatToString(n: nat)
    ensures DigitsValue(NatToString(n)) == n
  {
    if n >= 10 {
      DigitsValueOfNatToString(n / 10);
      var s := NatToString(n);
      assert s[..|s| - 1] == NatToString(n / 10);
    }
  }

  /** float(str(n)) == n for every natural number n. */
  lemma ParseFloatOfNatToString(n: nat)
    ensures ParseFloat(NatToString(n)) == Some(n as real)
  {
    var s := NatToString(n);
    assert !IsSpace(s[0]) && !IsSpace(s[|s| - 1]);
    StripUnchanged(s);
    ParseUnsignedDigits(s);
    DigitsValueOfNatToString(n);
  }

  /** A run of digits reads as its decimal value. */
  lemma ParseUnsignedDigits(t: string)
    requires t != [] && AllDigits(t)
    ensures ParseUnsigned(t) == Some(DigitsValue(t) as real)
  {
    assert SpanEnd(t, 0, IsDigit) == |t|;
  }

  /** Python's s[:width - 3] + "..." when s is longer than width: a name cut to the width budget. */
  function ElideEnd(s: string, width: nat): (r: string)
    requires width >= 3
    ensures |r| <= width
    ensures |s| <= width ==> r == s
    ensures |s| > width ==> |r| == width && r[..width - 3] == s[..width - 3] && r[width - 3..] == "..."
  {
    if |s| > width then s[..width - 3] + "..." else s
  }

  /** Python's "..." + s[-(width - 3):] when s is longer than width: a path cut to its tail. */
  function ElideStart(s: string, width: nat): (r: string)
    requires width >= 3
    ensures |r| <= width
    ensures |s| <= width ==> r == s
    ensures |s| > width ==> |r| == width && r[..3] == "..." && r[3..] == s[|s| - (width - 3)..]
  {
    if |s| > width then "..." + s[|s| - (width - 3)..] else s
  }

  /** The final component of a slash-separated path (Path(p).name), trailing slashes ignored:
      the text after the last '/' of the path without its trailing slashes. */
  function BaseName(path: string): (r: string)
    ensures '/' !in r
  {
    var t := TrimTrailing(path, '/');
    match LastIndexOf(t, '/')
    case None => t
    case Some(i) => t[i + 1..]
  }

  /** s.rstrip(c): the longest prefix that does not end in c. */
  function TrimTrailing(s: string, c: char): (r: string)
    ensures |r| <= |s| && r == s[..|r|]
    ensures r == [] || r[|r| - 1] != c
  {
    if s != [] && s[|s| - 1] == c then TrimTrailing(s[..|s| - 1], c) else s
  }

  /** Only separators are trimmed: every character after the kept prefix is c. */
  lemma {:induction false} TrimTrailingOnly(s: string, c: char)
    ensures forall k :: |TrimTrailing(s, c)| <= k < |s| ==> s[k] == c
    decreases |s|
  {
    if s != [] && s[|s| - 1] == c {
      TrimTrailingOnly(s[..|s| - 1], c);
    }
  }

  /** The name is the last component: the text after the last '/' once the trailing slashes
      are trimmed, and nothing but slashes was trimmed. */
  lemma BaseNameSuffix(path: string)
    ensures LastComponent(TrimTrailing(path, '/'), BaseName(path))
  {
    var t := TrimTrailing(path, '/');
    match LastIndexOf(t, '/')
    case None =>
      assert t[|t| - |t|..] == t;
    case Some(i) =>
      assert |t| - |t[i + 1..]| == i + 1;
  }

  /** name is what follows the last '/' of t, or all of t when it has none. */
  predicate LastComponent(t: string, name: string) {
    && '/' !in name && |name| <= |t| && name == t[|t| - |name|..]
    && (|name| == |t| || t[|t| - |name| - 1] == '/')
  }
}

=== FILE: wrappers.dfy ===
/** Optional values and fallible results shared by every module of the model. */
module Wrappers {

  /** A value that may be absent (a dictionary key that was never set, a regex that did not match). */
  datatype Option<+T> = None | Some(value: T) {
    function GetOr(default: T): T {
      match this
      case Some(v) => v
      case None => default
    }
  }

  /** The outcome of an operation that raises an exception in the source. */
  datatype Result<+R, +E> = Ok(value: R) | Err(error: E)
}
